=== FILE: README.md ===
# goriila shop core, modelled in Dafny

This project models the bookkeeping at the heart of the goriila Django shop:

- **Session cart.** `CartSession` keeps product lines in the visitor's session. It has a modified flag, a product cache, derived totals, and a two-way reconciliation with the per-user persisted cart.
- **Pricing.** `Product.get_price` applies a discount, optional tax and quantization; the cart and line totals build on it.
- **Category paths and slugs.**
- **Address book.** A user has at most one default address, and the first address becomes the default. The book has owner-scoped create, update, delete and set-default operations.
- **Orders.** Orders get numbers, statuses have badge classes, and order items compute their subtotals.
- **Checkout view.** The checkout is gated, freezes the cart into an order, empties both carts, and shows the confirmation once.
- **Checkout form.** It offers address choices and checks the receipt and the chosen address.
- **Accounts.** The user manager, the profile created with each user, and the account form validators.
- **Dashboard template filters** `get_item` and `mul`.

Modules and files:

| file | module | what |
|---|---|---|
| python.dfy | `Python` | Python values and truthiness, `int()` parsing, `str(int)`, `join`, `lower`/`upper`, `split(sep)[-1]` |
| shop.dfy | `Shop` | `Product` pricing, `Category.full_path`, slug on save |
| cart_models.dfy | `CartModels` | cart lines, `Cart`/`CartItem` totals, the persisted carts (`CartTable`) |
| cart_spec.dfy | `CartSpec` | value-level specification of every session cart operation and of the merge and sync |
| cart_session.dfy | `CartSessions` | the Django session and the imperative `CartSession` |
| addresses.dfy | `Addresses` | `Address`, its text forms, `Address.save`, and the address views as `AddressBook` |
| orders.dfy | `Orders` | `Order` and `OrderItem` |
| checkout.dfy | `Checkout` | `CheckoutView`, `OrderConfirmationView`, `CheckoutForm` |
| accounts.dfy | `Accounts` | `UserManager`, `User`/`Profile`, the account and dashboard forms |
| dashboard_tags.dfy | `DashboardTags` | template filters |

Modelling choices:

- **Money** is `real`, because Python's `Decimal` is exact decimal arithmetic. `quantize(Decimal("0.1"))` is written out as round-half-even on tenths, which is `Decimal`'s default rounding.
- **Products** are a catalogue map from id to `Product`. Product ids are `nat`, and a session line names its product by that number. The source keys session lines by `str(pid)` of the posted text instead, so two spellings of one id ("5" and "05") are two keys there; "## Left out" says what that changes.
- **Persisted carts** are a map from user id to the sequence of `(product, quantity)` rows, kept in creation order. Properties of the reconciliation are stated on the quantity map of those rows.
- **Addresses** are one sequence of rows. A row's position stands for its `created_date`: later means newer.
- **Foreign calls** are inputs:
  - `slugify` is a function parameter;
  - the timestamp and UUID text of the order number are string parameters;
  - `authenticate` and `check_password` are given as their results.

## Model

| member | source | states |
|---|---|---|
| Python.ParseIntToString | core/dashboard/templatetags/dashboard_tags.py:28 | `int()` reads back every integer that `str()` writes (at most 4300 digits, beyond which `str()` itself refuses), so integer text round-trips |
| Python.ParseOtherScripts | core/dashboard/templatetags/dashboard_tags.py:28 | `int()` reads Persian and Arabic-Indic digits, strips Unicode white space, takes a sign and an underscore between digits |
| Python.ParseBlank | core/cart/cart.py:253 | text of white space only is not an integer |
| Python.ParseSeparators | core/cart/cart.py:253 | `int()` skips TAB, LINE FEED and the space around digits but not the information separators U+001C–U+001F, which then make the text unreadable |
| Python.TooManyDigits | core/dashboard/templatetags/dashboard_tags.py:28 | decimal text of more than 4300 digits is refused (`int_max_str_digits`) |
| Python.IntToStringInjective | core/order/forms.py:57 | distinct address ids give distinct choice values |
| Python.AfterLastOfJoined | core/order/forms.py:81 | `name.split('.')[-1]` of `stem + "." + ext` is `ext` when `ext` has no dot |
| Shop.Quantize | core/shop/models.py:185 | `quantize(0.1)` moves a price by at most 0.05 and lands on a multiple of 0.1 |
| Shop.QuantizeMonotone | core/shop/models.py:185 | quantizing never reverses the order of two prices |
| Shop.QuantizeOnGrid | core/shop/models.py:185 | a price already on the 0.1 grid is unchanged by quantizing |
| Shop.GetPrice | core/shop/models.py:165-185 | step-by-step price: no discount argument means the product's discount; a discount ≤ 1 is a fraction, otherwise a percentage; tax multiplies by 1.10; the result is quantized and lies on the 0.1 grid |
| Shop.PriceWithoutDiscount | core/shop/models.py:172-175 | with a zero discount the listed price is the price itself and `discount_amount` is 0 |
| Shop.DiscountNotationsAgree | core/shop/models.py:176-179 | a fraction d and the percentage 100·d give the same price |
| Shop.DiscountAmountBounds | core/shop/models.py:187-189 | for a discount between 0 and 100 the discounted price and `discount_amount` both lie between 0 and the price |
| Shop.TaxOnUndiscounted | core/shop/models.py:181-185 | 1000 with tax and no discount costs 1100 |
| Shop.PriceExample | core/shop/tests.py:41-42 | price 1000 with discount 10 gives 900, `discount_amount` 100 and `in_stock` |
| Shop.FullPath | core/shop/models.py:82-90 | the parent-chain loop yields the category names from the root down to the category, joined by " > " |
| Shop.FullPathOfChild | core/shop/models.py:82-90 | a root category's path is its name; a child's is its parent's path, " > ", and its name |
| Shop.FullPathExample | core/shop/tests.py:21 | a child of "ParentCategory" named "ChildCategory" has path "ParentCategory > ChildCategory" |
| Shop.SlugOnSave | core/shop/models.py:157-160 | an existing slug is kept; an empty one becomes `slugify(name)` (the same rule as Brand and Category, lines 34-37 and 74-77) |
| Shop.SlugIsStable | core/shop/models.py:74-77 | once set, a slug survives every later save, even after a rename |
| CartModels.QuantityMapOfUnique | core/cart/models.py:50-51 | in a cart with one row per product, the quantity map gives each row's quantity |
| CartModels.QuantityMapAppend | core/cart/cart.py:365-371 | the session map of concatenated lines is the later lines overriding the earlier |
| CartModels.LineSplit | core/cart/models.py:53-62 | a line's discounted total plus its discount is its undiscounted subtotal |
| CartModels.LineBounds | core/cart/models.py:53-62 | with a sane price and a non-negative quantity, a line's discounted total lies between 0 and its subtotal |
| CartModels.TotalItemsAppend | core/cart/models.py:17-19 | `total_items` (and `get_total_items`, lines 32-34) adds up over concatenated rows |
| CartModels.TotalItemsBounds | core/cart/models.py:17-19 | with non-negative quantities the item count is non-negative and at least every single quantity |
| CartModels.TotalsDifferByDiscount | core/cart/models.py:21-30 | `total_price` equals `get_total_price` plus the total discount |
| CartModels.DiscountedTotalBounds | core/cart/models.py:21-30 | with sane prices the discounted total lies between 0 and the undiscounted total |
| CartModels.TotalsAgreeWithoutDiscount | core/cart/models.py:21-30 | without discounts `get_total_price` equals `total_price` |
| CartModels.CartTotalsExample | core/cart/tests.py:27-47 | 2×1000 + 1×2000 gives 3 items and totals of 4000; three of the first product give 3000 |
| CartModels.CartTable.GetOrCreate | core/cart/cart.py:373 | `Cart.objects.get_or_create`: an existing cart is kept, a missing one is created empty |
| CartModels.CartTable.DeleteItems | core/order/views.py:124 | the user's persisted cart is emptied and other users' carts are untouched |
| CartSpec.Lookup | core/cart/cart.py:70-84 | a product is found iff it is in the catalogue and available |
| CartSpec.FirstIsLast | core/cart/cart.py:108-112 | without repeated products the first and the last line of a product coincide |
| CartSpec.AddedQuantities | core/cart/cart.py:95-121 | adding succeeds iff the held quantity + 1 is within stock; it then adds 1 to the product's quantity, leaves every other product alone and keeps products distinct |
| CartSpec.AddedWithinStock | core/cart/cart.py:108-118 | adding keeps every line within its product's stock |
| CartSpec.UpdatedQuantities | core/cart/cart.py:123-141 | an update sets the product's quantity, changes no other product, keeps products distinct and leaves an absent product's cart as it was |
| CartSpec.DecreasedQuantities | core/cart/cart.py:143-157 | decreasing succeeds iff the quantity exceeds 1, then lowers it by exactly 1 |
| CartSpec.RemovedQuantities | core/cart/cart.py:159-170 | removing drops exactly that product and shortens the list by one when it was present |
| CartSpec.EntryFor | core/cart/cart.py:201-235 | a line is priced iff its product is available; it then carries the discounted total and the discount for its quantity |
| CartSpec.AvailableLines | core/cart/cart.py:201-235 | the priced lines are those of available products |
| CartSpec.SessionTotalsOfAvailable | core/cart/cart.py:268-298 | the session totals are the persisted-cart totals over the available lines, and price plus discount is the undiscounted total |
| CartSpec.WeightOfNumeral | core/cart/cart.py:252-255 | a weight written as an integer (of at most 4300 digits) counts as that integer |
| CartSpec.WeightOfPersianNumeral | core/cart/cart.py:252-255 | a weight written with the Persian digit two counts 2, as `int()` reads every script's decimal digits |
| CartSpec.WeightOfUnreadable | core/cart/cart.py:252-255 | a weight with an information separator before its digit, or of more than 4300 digits, counts 0 |
| CartSpec.SessionTotalsExample | core/cart/tests.py:36-39 | weights 2×2 + 3×1 give 7, shipping 700, price 4000 and payment 4700 |
| CartSpec.SyncStepQuantities | core/cart/cart.py:323-331 | one synced persisted row sets its product's session quantity |
| CartSpec.SyncQuantities | core/cart/cart.py:313-331 | after the sync every persisted product has its persisted quantity and session-only products keep theirs |
| CartSpec.SyncUnique | core/cart/cart.py:313-331 | the sync appends no duplicate products |
| CartSpec.PlanStep | core/cart/cart.py:381-393 | adding one session product to the plan creates it iff available and not persisted, updates it iff available and persisted with another quantity |
| CartSpec.WithQuantitiesMap | core/cart/cart.py:398-401 | the bulk update overrides exactly the updated products' quantities |
| CartSpec.WithoutMap | core/cart/cart.py:402-409 | the deletion removes exactly the listed products |
| CartSpec.MergeWrites | core/cart/cart.py:348-409 | create, update then delete leave the persisted cart equal to the merged cart |
| CartSpec.MergeMaps | core/cart/cart.py:348-409 | available session products end with the session quantity, unavailable ones keep their persisted quantity, and persisted products absent from the session are gone |
| CartSpec.SyncThenMerge | core/cart/cart.py:306-335 | after sync and merge every persisted product keeps its persisted quantity, every other persisted product is session-only and available, and every available session product is persisted |
| CartSessions.CartSession.constructor | core/cart/cart.py:21-28 | the session's cart is created empty only when absent, which marks the session modified; caches start empty |
| CartSessions.CartSession.SaveMarked | core/cart/cart.py:30-33 | the session is marked modified iff something was changed, and the pending flag is reset |
| CartSessions.CartSession.EnsureItemsList | core/cart/cart.py:46-50 | a missing items list becomes empty and marks a change; an existing one is returned as it is |
| CartSessions.CartSession.LoadProductsForItems | core/cart/cart.py:52-68 | loads once: the cache holds exactly the available products of the lines |
| CartSessions.CartSession.GetProduct | core/cart/cart.py:70-84 | returns the product iff available and caches it |
| CartSessions.CartSession.AddProduct | core/cart/cart.py:95-121 | returns true iff the product is available and in stock for one more; then the lines are `Added` and the session is saved; otherwise the lines, and for an unavailable product the whole session, are unchanged; a stock refusal keeps an existing items list and sets the pending flag only when the list had to be created |
| CartSessions.CartSession.AddLine | core/cart/cart.py:108-118 | the line edit follows `Added`: the last line for the product grows by one while that stays within stock, otherwise a line of 1 is appended when stock is at least 1; None when refused |
| CartSessions.CartSession.FindFirst | core/cart/cart.py:108-110 | the scan returns the index of the first line of the product (`FirstIndex`), or None when no line has it |
| CartSessions.CartSession.UpdateProductQuantity | core/cart/cart.py:123-141 | a quantity that `int()` cannot read changes nothing (`int()` as CPython reads it: decimal digits of any script, the white space it skips, at most 4300 digits); otherwise the first matching line takes the quantity; the session is saved only when the value differed |
| CartSessions.CartSession.SetQuantity | core/cart/cart.py:134-140 | the first line for the product takes the quantity (`Updated`), and `changed` holds exactly when the lines differ afterwards |
| CartSessions.CartSession.DecreaseProductQuantity | core/cart/cart.py:143-157 | returns true iff the quantity was above 1, and then lowers it by one and saves; otherwise nothing changes |
| CartSessions.CartSession.DecreaseLine | core/cart/cart.py:148-157 | the first line for the product loses one unit when it holds more than one, otherwise None (`Decreased`) |
| CartSessions.CartSession.RemoveProduct | core/cart/cart.py:159-170 | the first line of the product goes; the session is saved iff something changed |
| CartSessions.CartSession.Clear | core/cart/cart.py:172-180 | the items are empty, the cache is empty and marked loaded, and the session is marked modified |
| CartSessions.CartSession.GetCartItems | core/cart/cart.py:189-237 | one entry per line, each priced iff its product is available; the session is marked modified only when it had no items list, and the products are loaded afterwards |
| CartSessions.CartSession.GetTotalWeight | core/cart/cart.py:239-258 | the accumulating loop gives the sum of integer weight × quantity over available products; a weight is read by `int()` as CPython reads it (decimal digits of any script, the white space it skips, at most 4300 digits); unreadable weights count 0; the session is marked modified only when it had no items list, and the products are loaded afterwards |
| CartSessions.CartSession.GetShippingCost | core/cart/cart.py:260-266 | shipping is 100 per weight unit; the session is marked modified only when it had no items list, and the products are loaded afterwards |
| CartSessions.CartSession.GetTotalPrice | core/cart/cart.py:268-281 | the sum of the priced lines' discounted totals; the session is marked modified only when it had no items list, and the products are loaded afterwards |
| CartSessions.CartSession.GetTotalQuantity | core/cart/cart.py:283-285 | the sum of all line quantities; the session is marked modified only when it had no items list |
| CartSessions.CartSession.GetTotalDiscountAmount | core/cart/cart.py:287-298 | the sum of the priced lines' discounts; the session is marked modified only when it had no items list, and the products are loaded afterwards |
| CartSessions.CartSession.GetTotalPaymentAmount | core/cart/cart.py:300-303 | price total plus shipping; the session is marked modified only when it had no items list, and the products are loaded afterwards |
| CartSessions.CartSession.SessionMap | core/cart/cart.py:365-371 | the session map gives each product its last line's quantity |
| CartSessions.CartSession.PlanWrites | core/cart/cart.py:377-393 | `to_create` holds the available session products not yet persisted, once each; `to_update` the available persisted ones whose quantity differs |
| CartSessions.CartSession.MergeSessionCartInDb | core/cart/cart.py:337-409 | anonymous: nothing changes; otherwise the user's persisted cart becomes the merged cart (empty for an empty session) and other users' carts are untouched |
| CartSessions.CartSession.WriteMerge | core/cart/cart.py:396-409 | after `bulk_create`, `bulk_update` and the deletion the rows hold the merged cart and name each product once |
| CartModels.CartTable.Store | core/cart/cart.py:396-409 | the user's cart holds the written rows, other users' carts are untouched, and every cart still names each product once |
| CartSessions.CartSession.SyncCartItemsFromDb | core/cart/cart.py:306-335 | anonymous: nothing changes; otherwise persisted quantities override the session's, persisted-only products are appended, then the merge runs and the session is saved iff something changed |
| CartSessions.CartSession.PullRows | core/cart/cart.py:323-331 | the loop leaves the session lines as the rows pulled in one after the other (`SyncFold`) and marks the cart modified iff there was a row |
| CartSessions.CartSession.PullRow | core/cart/cart.py:325-331 | one row: a product in the index takes the row's quantity on its last line, any other row is appended (`SyncStep`) |
| Addresses.FullAddressAllParts | core/order/models.py:82-90 | with every part present the full address is line1, line2, "city, state postal" and country joined by "<br />" |
| Addresses.FullAddressWithoutLine2 | core/order/models.py:82-90 | an empty line2 is skipped with its separator |
| Addresses.AddressExample | core/order/tests.py:17-31 | the test address reads "Home - Tehran, Tehran", its short form "Street 1, Tehran, Tehran" and its full form "Street 1<br />Tehran, Tehran 12345<br />" and the country |
| Addresses.SavedNewDefaults | core/order/models.py:69-80 | saving a new address keeps at most one default per user, makes it the only default of its owner when flagged and touches no other user |
| Addresses.FirstAddressIsDefault | core/order/models.py:76-78 | a user's first address is saved as default whatever its flag |
| Addresses.SavedExistingDefaults | core/order/models.py:69-74 | re-saving an address keeps at most one default per user |
| Addresses.SavedExistingOthers | core/order/models.py:69-74 | re-saving an address leaves other users' addresses unchanged |
| Addresses.OwnedIndex | core/dashboard/addresses.py:63-65 | an address is found only when it belongs to the requesting user |
| Addresses.FirstOther | core/dashboard/addresses.py:105-110 | the other address promoted on delete is the owner's first in listing order: default, then newest |
| Addresses.DeleteOutcomes | core/dashboard/addresses.py:96-116 | another user's address is not found; a last address is refused; otherwise it is removed, a deleted default passes the flag to another address of the owner, the owner keeps an address and other users are untouched |
| Addresses.SetDefaultExactlyOne | core/dashboard/addresses.py:126-134 | the chosen address becomes its owner's only default and other users are untouched; another user's address is not found |
| Addresses.AddressBook.ClearDefaults | core/order/models.py:72-74 | the bulk update clears the user's defaults except the kept one |
| Addresses.AddressBook.SaveNew | core/order/models.py:69-80 | `Address.save` of a new address, as `SavedNew` |
| Addresses.AddressBook.SaveExisting | core/order/models.py:69-80 | `Address.save` of an existing address, as `SavedExisting` |
| Addresses.AddressBook.WriteRow | core/order/models.py:80 | the stored row with the saved address's id is overwritten by it and every other row is kept |
| Addresses.AddressBook.Create | core/dashboard/addresses.py:40-43 | the created address belongs to the requesting user and is saved as `SavedNew` |
| Addresses.AddressBook.Update | core/dashboard/addresses.py:63-74 | only the requester's own address is updated |
| Addresses.AddressBook.Delete | core/dashboard/addresses.py:96-116 | the delete view's state change is `AfterDelete` |
| Addresses.AddressBook.SetDefault | core/dashboard/addresses.py:126-144 | the set-default view's state change is `AfterSetDefault` |
| Orders.OrderNumber | core/order/models.py:180-188 | an order keeps a number it has; otherwise it gets a non-empty "ORD-" number |
| Orders.OrderNumberStable | core/order/models.py:181 | once numbered, later saves keep the number |
| Orders.OrderNumberFormat | core/order/models.py:185-187 | a fresh number is "ORD-", the timestamp, "-" and at most eight characters without lower-case letters |
| Orders.OrderNumbersDiffer | core/order/models.py:186-187 | numbers drawn at the same second differ when the UUID prefixes differ |
| Orders.StatusDisplayClass | core/order/models.py:190-200 | the class is one of six badge classes, "secondary" for unknown statuses |
| Orders.StatusClassesDistinct | core/order/models.py:192-199 | distinct known statuses get distinct classes |
| Orders.SecondaryMeansShippedOrUnknown | core/order/models.py:196-200 | "secondary" means shipped or unknown |
| Orders.OrderItem.Save | core/order/models.py:239-241 | saving sets subtotal to price × quantity |
| Orders.Order.constructor | core/order/models.py:98-175 | a new order has status and payment status "pending", no number and no items |
| Orders.Order.Save | core/order/models.py:180-188 | saving numbers the order only when it has no number |
| Checkout.DispatchGate | core/order/views.py:28-46 | no address sends to the address page before any cart check; a missing or empty cart sends to the cart summary; otherwise the checkout proceeds |
| Checkout.FrozenItem | core/order/views.py:113-121 | an order item copies the product and quantity, and its subtotal is its price × quantity |
| Checkout.FrozenSubtotals | core/order/views.py:88-121 | the order items' subtotals add up to the order subtotal |
| Checkout.CheckoutExample | core/order/tests.py:65-74 | two units at 1000 give an item subtotal and an order subtotal of 2000, as the test asserts; with weight "2" the modelled shipping rule adds 400 for a total of 2400 |
| Checkout.FreezeLines | core/order/views.py:112-121 | the loop creates one fresh order item per cart line, frozen as `FrozenItem` |
| Checkout.Store.PlaceOrder | core/order/views.py:79-131 | the new order has the chosen address of the user, subtotal, shipping and total = subtotal + shipping, and one frozen item per cart line; afterwards both carts are empty, `last_order_id` is the order's id and the session is marked modified |
| Checkout.Store.Record | core/order/views.py:93-121 | the order is appended with a fresh id and number, its totals and its items |
| Checkout.FindOrder | core/order/views.py:155-156 | only an order of the current user with that id is found |
| Checkout.ConfirmationReadsOnce | core/order/views.py:143-156 | a shown order has the stored id and belongs to the user; the id is consumed, so the next visit finds none |
| Checkout.Store.GetObject | core/order/views.py:143-156 | the view's session change and result are one `ConfirmStep`; the session is marked modified exactly when an order id was popped |
| Checkout.NoOrderRendersRedirect | core/order/views.py:147-150 | as written, a visit without an order id renders the page with a redirect as the order |
| Checkout.Respond | core/order/views.py:147-156 | corrected: no order id redirects, a found order renders, an unknown one is a 404 |
| Checkout.SecondVisitRedirects | core/order/views.py:147-153 | reloading the confirmation page redirects to the product list |
| Checkout.Store.ConfirmationPage | core/order/views.py:134-156 | the page's response is the corrected `Respond` of the visit |
| Checkout.Where | core/order/forms.py:53 | a filter on the default flag keeps only rows of that flag, all from the input |
| Checkout.WherePartition | core/order/forms.py:53 | the default and non-default rows together are all rows |
| Checkout.OrderedIsPermutation | core/order/forms.py:53 | the ordering lists exactly the user's addresses |
| Checkout.DefaultsFirst | core/order/forms.py:53 | no default address comes after a non-default one |
| Checkout.NewestFirst | core/order/forms.py:53 | within the default and within the non-default addresses, an earlier choice is a newer row (`-created_date`) |
| Checkout.EveryAddressOffered | core/order/forms.py:56-59 | every address of the user is offered, labelled "state، city، line1" |
| Checkout.OffersAreAddresses | core/order/forms.py:56-62 | every offered non-empty choice is an address of the user |
| Checkout.NoAddressPlaceholder | core/order/forms.py:61-69 | without addresses the only choice is the empty placeholder and no initial is set |
| Checkout.DefaultOfferedFirst | core/order/forms.py:53-69 | the default address is the first choice and the initial value |
| Checkout.CheckoutForm.constructor | core/order/forms.py:48-69 | the form's choices and initial are `Choices` and `Initial`, over the addresses ordered default first, then newest first |
| Checkout.CleanPaymentReceipt | core/order/forms.py:71-85 | an absent or nameless receipt passes unchanged; a larger than 5 MiB one is refused first; otherwise it passes iff its lower-cased last extension is jpg, jpeg, png, gif or webp |
| Checkout.ImageReceiptAccepted | core/order/forms.py:79-83 | any small file named stem.ext with an image extension in any case passes |
| Checkout.ReceiptRejectedExamples | core/order/forms.py:74-83 | a PDF is not an image and a file one byte over 5 MiB is too large |
| Checkout.CleanShippingAddress | core/order/forms.py:87-93 | the chosen id passes unchanged iff it is present and non-empty |
| Accounts.NewUser | core/accounts/models.py:60-66 | a new user has the given email and password hash; without extra fields it is a staff-less, active, unverified customer; a flag given as "False" is stored false |
| Accounts.SuperuserDefaults | core/accounts/models.py:42-46 | a superuser created without extra fields passes the checks and is staff, superuser, active, verified and of type superuser |
| Accounts.SuperuserRefusals | core/accounts/models.py:48-51 | an explicit `is_staff` or `is_superuser` other than True is refused, in that order, even the integer 1 |
| Accounts.UserStore.Insert | core/accounts/models.py:103-109 | a user with a new email is stored with a profile of the same pk; a duplicate email is refused and nothing changes |
| Accounts.UserStore.Update | core/accounts/models.py:103-109 | re-saving an existing user creates no profile; an email taken by another user is refused (`unique=True`, line 60) and nothing changes; otherwise the row is replaced |
| Accounts.StoredFlagVersusTruthy | core/accounts/models.py:61-63 | a `BooleanField` stores what truthiness gives for booleans and 0/1, but stores "False" as false and refuses 2, the empty text and None |
| Accounts.UserStore.CreateUser | core/accounts/models.py:26-36 | an empty email is refused; then a flag the `BooleanField` cannot store; then a taken email; each refusal changes nothing; otherwise the user, with the stored flags, and its profile are created |
| Accounts.UserStore.CreateSuperuser | core/accounts/models.py:38-52 | refused on a bad flag, then on an empty email, then on a flag that cannot be stored, then on a taken email, with nothing changed; otherwise a user with the superuser defaults is created together with its profile |
| Accounts.UserStore.Register | core/accounts/forms.py:47-55 | a registered user is stored inactive with an empty profile |
| Accounts.OneProfilePerUser | core/accounts/models.py:103-109 | each user has exactly one profile |
| Accounts.FullName | core/accounts/models.py:97-100 | first name, a space and last name when either is set, "new user" otherwise |
| Accounts.FullNameExamples | core/accounts/models.py:97-100 | "new user", "Sara " and "Sara Ahmadi" |
| Accounts.BlankFirstPasswordCrashes | core/accounts/forms.py:42 | as written, a missing password1 with a filled password2 raises a TypeError |
| Accounts.CleanPasswords | core/accounts/forms.py:34-45 | corrected: a mismatch of two non-empty passwords is refused first; then a present password1 under 8 characters; otherwise password2 is returned |
| Accounts.PasswordChecksAgree | core/accounts/forms.py:34-45 | the code as written crashes exactly when password1 is missing and otherwise agrees with the corrected check; the copies at lines 95-106 and 141-152 and in core/dashboard/forms.py:35-46 are the same code |
| Accounts.PasswordExamples | core/accounts/tests.py:9-23 | "password123"/"password456" mismatch; equal short passwords are too short; equal long ones pass |
| Accounts.CleanRegisterEmail | core/accounts/forms.py:27-32 | an email passes registration iff no user has it |
| Accounts.CleanResetEmail | core/accounts/forms.py:127-132 | an email passes reset iff a user has it |
| Accounts.EmailChecksComplement | core/accounts/forms.py:27-32 | every email passes exactly one of registration and reset |
| Accounts.CleanLogin | core/accounts/forms.py:64-85 | a missing email or password skips the checks; otherwise an unknown email, failed authentication and an inactive user are each refused exactly in their case, in that order, and the form is accepted with the authenticated user exactly when it is active |
| Accounts.CleanOldPassword | core/dashboard/forms.py:48-59 | the old password passes unchanged iff it checks (also core/accounts/forms.py:108-119) |
| DashboardTags.GetItem | core/dashboard/templatetags/dashboard_tags.py:7-16 | a value is found iff a dictionary is given and holds the key, and it is that key's value |
| DashboardTags.GetItemIsGet | core/dashboard/templatetags/dashboard_tags.py:14-16 | the emptiness test never changes the result of `get` |
| DashboardTags.Mul | core/dashboard/templatetags/dashboard_tags.py:20-30 | the product of both operands read by `int()` as CPython reads it (any script's decimal digits, the white space it skips, at most 4300 digits), 0 when either cannot be read |
| DashboardTags.MulOfNumerals | core/dashboard/templatetags/dashboard_tags.py:27-28 | the texts of two integers (of at most 4300 digits) multiply to their product |
| DashboardTags.MulOfOtherScripts | core/dashboard/templatetags/dashboard_tags.py:27-28 | Persian digits, with no-break and em spaces around them, multiply like ASCII ones |
| DashboardTags.MulOfNonNumbers | core/dashboard/templatetags/dashboard_tags.py:29-30 | None, letters, a digit after an information separator and text of more than 4300 digits give 0 |

## Left out

- The Django ORM, the session middleware and `transaction.atomic` are not modelled. Tables and the session are Dafny state, and an atomic block is one method call.
- Concurrent requests are not modelled: no lost updates and no double checkout.
- Messages, e-mail sending and HTTP responses are left out, except the redirect or render decisions of the checkout views.
- `normalize_email`, `set_password`, `check_password`, `authenticate` and `slugify` are parameters or given results, and are not specified further.
- Order numbers do not model randomness: the clock and the UUID are string parameters.
- Decimal storage rounding to `decimal_places` is not modelled, and neither is the 28-digit context precision.
- DashboardTags.Mul: `float` and `Decimal` operands are not modelled (`int()` would truncate them toward zero); values are integers, text, booleans or None.
- Python.ParseInt: the table of decimal digits is that of Unicode 15.0 (Python 3.12 and 3.13); older Python versions lack the digits of the newest scripts. The 4300-digit limit is the default of `sys.set_int_max_str_digits`; a changed limit is not modelled.
- Python.IntToString: `str()` of an integer of more than 4300 digits raises a ValueError; the model writes every integer. Product, address and order ids stay far below that.
- Addresses.AddressBook.Create: `core/dashboard/addresses.py:8` imports `AddressForm`, which exists only as commented-out code at `core/dashboard/forms.py:62`, so the module fails to import; the views model the evident intent, and the form's fields arrive as an arbitrary `Address`.
- Addresses.AddressBook.Update: the same failing import; the edited fields arrive as an arbitrary `Address`.
- Addresses.AddressBook.Delete: the same failing import; also, from Django 4.0 on, a POST to a `DeleteView` goes through `form_valid` and skips the overridden `delete()` (a GET still reaches it through `get()`); the Django version is not pinned, so the model takes `delete()` as the view's behaviour.
- Addresses.AddressBook.SetDefault: the same failing import; the view is modelled as its code reads.
- Accounts.UserStore.CreateUser: unknown field names in the keyword arguments are not modelled, and `type` is taken as an integer. A None flag goes to the database as NULL. The model refuses it as `InvalidFlag` before the email's uniqueness, but when it comes with a taken email, which of the two IntegrityErrors the database reports first is not modelled.
- `UserRegisterForm.save(commit=False)` is not modelled. Only the committed save (`Accounts.UserStore.Register`) is.
- The order fields are not modelled exactly.
  - `CheckoutView.form_valid` writes `shipping_*`, `subtotal`, `shipping_cost` and `total`, which `Order` does not declare; it has `total_amount`.
  - The model records the copied `Address`, the subtotal, the shipping cost and the total as the order's snapshot.
- The chosen shipping address is not looked up.
  - The view uses the form's string id as an `Address`.
  - `Checkout.Store.PlaceOrder` requires that the id is one of the user's addresses, as the form's choice validation ensures, and copies that address.
- `Cart.get_shipping_cost` and `Cart.get_total_weight` do not exist.
  - The view and the cart tests call them.
  - The model uses the session cart's rule, 100 per unit of integer weight, over the persisted rows.
- `Checkout.Store.PlaceOrder` does not model the persisted cart being missing. `CheckoutView.dispatch` (`Checkout.DispatchGate`) has already refused that case.
- The session cart's `str(pid)` normalisation and the JSON shape of the session are not modelled.
  - CartSessions.CartSession.AddProduct and CartSpec.AddedQuantities hold per product id. In the source they hold per id text: the views pass the posted text (core/cart/views.py:47-53, 93-96), the product query reads "5", "05", " 5" and "+5" alike, but `str(pid)` keeps them as different session keys. So adding "05" appends a second line for product 5 even when "5" already holds the whole stock. The merge's `int()` (core/cart/cart.py:368-371) then folds such lines into one, the last winning.
  - Lines are `(product id, quantity)` pairs.
  - A non-list `items` value is modelled as an absent list.
- `CartSessions.CartSession.UpdateProductQuantity`, `AddProduct` and `SyncCartItemsFromDb` use Dafny `int` quantities, with no `PositiveIntegerField` bound.
- CartSessions.CartSession.MergeSessionCartInDb (with `WriteMerge`, `CartModels.CartTable.Store` and the merge inside `SyncCartItemsFromDb`) writes negative quantities. In the source, a negative session quantity of an available product, such as one set by `update_product_quantity(pid, "-1")`, reaches `bulk_create` or `bulk_update` on `CartItem.quantity`, a `PositiveIntegerField` (core/cart/models.py:45). The database's check refuses it, the atomic block rolls back and the request fails. Every authenticated cart request runs the merge (core/cart/views.py:22-23).
- The order of persisted rows is unspecified in the database, and so is the order of the `to_create` list. `CartSessions.CartSession.MergeSessionCartInDb` and `SyncCartItemsFromDb` state the persisted cart as a product-to-quantity map, and the session lines exactly.
- `Shop.FullPath` requires an acyclic parent chain, given as a ghost rank. A cycle would make the source loop forever.
- `CartSpec.EntryFor` states the priced values per line. The dictionary keys of the session entries are not modelled.

## Findings

| source | as written | input that shows it | evidently intended | confidence | as-written member | corrected member |
|---|---|---|---|---|---|---|
| core/accounts/forms.py:42 (also lines 103 and 149, and core/dashboard/forms.py:43) | `len(p1)` is evaluated even when the first password field failed validation and `cleaned_data.get` returned None | password1 blank, password2 "password123": `len(None)` raises a TypeError and the request fails with a server error | a missing first password only reports its own field error; the length rule applies to a present password | high (not executed) | Accounts.CleanPasswordsAsWritten, Accounts.BlankFirstPasswordCrashes | Accounts.CleanPasswords, Accounts.PasswordChecksAgree |
| core/order/views.py:148-150 | `get_object` returns `redirect("shop:product-list")` as the object; `DetailView` then renders the confirmation template with that response as `order` | a visit with no `last_order_id` in the session, e.g. reloading the page after the confirmation was shown | the visitor is redirected to the product list | high (not executed) | Checkout.ResponseAsWritten, Checkout.NoOrderRendersRedirect | Checkout.Respond, Checkout.SecondVisitRedirects, Checkout.Store.ConfirmationPage |

=== FILE: accounts.dfy ===
/** The user accounts of core/accounts: the user manager, the profile
    created beside each new user, the full name shown for a profile and the
    validators of the account forms (core/accounts/forms.py,
    core/dashboard/forms.py). Password hashing, `authenticate` and
    `check_password` are outside the model: their results are parameters. */
module Accounts {
  import opened Python

  type UserId = nat

  /** `UserType`: customer, admin, superuser. */
  const Customer: int := 1
  const Admin: int := 2
  const Superuser: int := 3

  /** A User row; `passwordHash` stands for what `set_password` stores. */
  datatype User = User(id: UserId, email: string, passwordHash: string, isStaff: bool, isSuperuser: bool,
                       isActive: bool, isVerified: bool, kind: int)

  /** A Profile row; its primary key is its user's. */
  datatype Profile = Profile(id: nat, userId: UserId, firstName: string, lastName: string, phoneNumber: string)

  /** The errors of the user manager and of the account forms. */
  datatype AccountError =
    | EmailMissing | NotStaff | NotSuperuser | DuplicateEmail | InvalidFlag
    | PasswordMismatch | PasswordTooShort | EmailTaken | UnknownEmail
    | WrongCredentials | InactiveAccount | WrongOldPassword

  // ---------------------------------------------------------------------
  // UserManager

  /** The keyword arguments a user is created with; an absent key is None. */
  datatype Extra = Extra(isStaff: Option<Value>, isSuperuser: Option<Value>, isActive: Option<Value>,
                         isVerified: Option<Value>, kind: Option<int>)

  /** What a `BooleanField` stores for a value it is given on save
      (`get_prep_value`, which calls `to_python`): True and 1, and the
      texts "t", "True" and "1", are true; False and 0, and "f", "False"
      and "0", are false. None goes to the database as NULL, which the NOT
      NULL column refuses, and anything else raises a ValidationError;
      both refusals are None here. */
  function StoredFlag(v: Value): Option<bool> {
    match v
    case Bool(b) => Some(b)
    case Int(i) => if i == 1 then Some(true) else if i == 0 then Some(false) else None
    case Str(t) =>
      if t == "t" || t == "True" || t == "1" then Some(true)
      else if t == "f" || t == "False" || t == "0" then Some(false)
      else None
    case NoneValue => None
  }

  /** The stored flag agrees with Python's truthiness on booleans and on
      0 and 1, but not on text: "False" is stored false though it is
      truthy, and 2, the empty text and None are refused. */
  lemma StoredFlagVersusTruthy(v: Value)
    ensures StoredFlag(v).Some? && !v.Str? ==> StoredFlag(v) == Some(Truthy(v))
    ensures v.Str? && StoredFlag(v).Some? ==> Truthy(v)
    ensures StoredFlag(Str("False")) == Some(false) && Truthy(Str("False"))
    ensures StoredFlag(Int(2)).None? && Truthy(Int(2))
    ensures StoredFlag(Str("")).None? && StoredFlag(NoneValue).None?
  {
  }

  /** A flag field: its default when not given, else what is stored for
      the value given. */
  function Flag(given: Option<Value>, default: bool): Option<bool> {
    if given.None? then Some(default) else StoredFlag(given.value)
  }

  /** Every flag given can be stored. */
  predicate Storable(extra: Extra) {
    && Flag(extra.isStaff, false).Some? && Flag(extra.isSuperuser, false).Some?
    && Flag(extra.isActive, true).Some? && Flag(extra.isVerified, false).Some?
  }

  /** The user row `create_user` stores for the keyword arguments, over
      the model's field defaults. */
  function NewUser(id: UserId, email: string, passwordHash: string, extra: Extra): (u: User)
    requires Storable(extra)
    ensures u.id == id && u.email == email && u.passwordHash == passwordHash
    ensures extra == Extra(None, None, None, None, None) ==>
      !u.isStaff && !u.isSuperuser && u.isActive && !u.isVerified && u.kind == Customer
    ensures extra.isActive == Some(Str("False")) ==> !u.isActive
  {
    User(id, email, passwordHash, Flag(extra.isStaff, false).value, Flag(extra.isSuperuser, false).value,
         Flag(extra.isActive, true).value, Flag(extra.isVerified, false).value,
         if extra.kind.None? then Customer else extra.kind.value)
  }

  function SetDefault(given: Option<Value>): Option<Value> {
    if given.None? then Some(Bool(true)) else given
  }

  /** The `setdefault` calls of `create_superuser`: every flag True and the
      superuser type, unless given. */
  function SuperuserExtra(extra: Extra): (r: Extra)
    ensures r.isStaff.Some? && r.isSuperuser.Some? && r.isActive.Some? && r.isVerified.Some? && r.kind.Some?
  {
    Extra(SetDefault(extra.isStaff), SetDefault(extra.isSuperuser), SetDefault(extra.isActive),
          SetDefault(extra.isVerified), if extra.kind.None? then Some(Superuser) else extra.kind)
  }

  /** The checks of `create_superuser` after the defaults: `is_staff`,
      then `is_superuser`, must be the value True itself. */
  function SuperuserCheck(extra: Extra): Option<AccountError> {
    var e := SuperuserExtra(extra);
    if e.isStaff != Some(Bool(true)) then Some(NotStaff)
    else if e.isSuperuser != Some(Bool(true)) then Some(NotSuperuser)
    else None
  }

  /** A superuser created without keyword arguments is staff, superuser,
      active, verified and of the superuser type. */
  lemma SuperuserDefaults(id: UserId, email: string, passwordHash: string)
    ensures SuperuserCheck(Extra(None, None, None, None, None)).None?
    ensures var u := NewUser(id, email, passwordHash, SuperuserExtra(Extra(None, None, None, None, None)));
      u.isStaff && u.isSuperuser && u.isActive && u.isVerified && u.kind == Superuser
  {
  }

  /** `create_superuser` refuses exactly the calls that give `is_staff` or
      `is_superuser` as anything but True, the staff error first; a truthy
      value such as 1 is not enough. */
  lemma SuperuserRefusals(extra: Extra)
    ensures SuperuserCheck(extra) == Some(NotStaff) <==> extra.isStaff.Some? && extra.isStaff != Some(Bool(true))
    ensures SuperuserCheck(extra) == Some(NotSuperuser) <==>
      (extra.isStaff.None? || extra.isStaff == Some(Bool(true))) &&
      extra.isSuperuser.Some? && extra.isSuperuser != Some(Bool(true))
    ensures SuperuserCheck(Extra(Some(Int(1)), None, None, None, None)) == Some(NotStaff)
  {
  }

  /** The users and their profiles. */
  class UserStore {
    var users: seq<User>
    var profiles: seq<Profile>
    var nextId: nat

    /** Ids and emails are unique, every id is below the next one, and the
        profile at each position belongs to the user at that position and
        shares its primary key. */
    ghost predicate Valid()
      reads this
    {
      && |profiles| == |users|
      && (forall i :: 0 <= i < |users| ==> users[i].id < nextId)
      && (forall i, j :: 0 <= i < j < |users| ==> users[i].id != users[j].id && users[i].email != users[j].email)
      && (forall i :: 0 <= i < |users| ==> profiles[i].id == users[i].id && profiles[i].userId == users[i].id)
    }

    constructor ()
      ensures Valid() && users == [] && profiles == [] && nextId == 1
    {
      users := [];
      profiles := [];
      nextId := 1;
    }

    /** The emails of the stored users. */
    function Emails(): set<string>
      reads this
    {
      set i | 0 <= i < |users| :: users[i].email
    }

    /** Saving a new user: the row is inserted under the next id (the
        unique email constraint refuses a taken email), and the post_save
        signal, seeing `created`, creates its profile under the same key. */
    method Insert(u: User) returns (r: Checked<User, AccountError>)
      requires Valid()
      modifies this
      ensures Valid()
      ensures u.email in old(Emails()) ==> r == Rejected(DuplicateEmail) && unchanged(this)
      ensures u.email !in old(Emails()) ==>
        && r == Accepted(u.(id := old(nextId)))
        && users == old(users) + [r.value]
        && profiles == old(profiles) + [Profile(r.value.id, r.value.id, "", "", "")]
    {
      if u.email in Emails() {
        return Rejected(DuplicateEmail);
      }
      var saved := u.(id := nextId);
      users := users + [saved];
      profiles := profiles + [Profile(saved.id, saved.id, "", "", "")];
      nextId := nextId + 1;
      r := Accepted(saved);
    }

    /** The emails of the stored users other than the one at `k`. */
    function OtherEmails(k: nat): set<string>
      reads this
    {
      set i | 0 <= i < |users| && i != k :: users[i].email
    }

    /** Saving an existing user (the row at `k`, with its id kept): the
        unique email constraint refuses an email another user has, else
        the row is replaced, and the signal, not seeing `created`, creates
        no profile. */
    method Update(k: nat, u: User) returns (r: Checked<User, AccountError>)
      requires Valid() && k < |users| && u.id == users[k].id
      modifies this`users
      ensures Valid()
      ensures u.email in old(OtherEmails(k)) ==> r == Rejected(DuplicateEmail) && users == old(users)
      ensures u.email !in old(OtherEmails(k)) ==> r == Accepted(u) && users == old(users)[k := u]
      ensures profiles == old(profiles)
    {
      if u.email in OtherEmails(k) {
        return Rejected(DuplicateEmail);
      }
      forall i | 0 <= i < |users| && i != k ensures users[i].email != u.email {
        assert users[i].email in OtherEmails(k);
      }
      users := users[k := u];
      r := Accepted(u);
    }

    /** `UserManager.create_user`. `email` is the address `normalize_email`
        returned, so the duplicate check compares it as it is stored. */
    method CreateUser(email: string, passwordHash: string, extra: Extra) returns (r: Checked<User, AccountError>)
      requires Valid()
      modifies this
      ensures Valid()
      ensures email == [] ==> r == Rejected(EmailMissing) && unchanged(this)
      ensures email != [] && !Storable(extra) ==> r == Rejected(InvalidFlag) && unchanged(this)
      ensures email != [] && Storable(extra) && email in old(Emails()) ==> r == Rejected(DuplicateEmail) && unchanged(this)
      ensures email != [] && Storable(extra) && email !in old(Emails()) ==>
        && r == Accepted(NewUser(old(nextId), email, passwordHash, extra))
        && users == old(users) + [r.value]
        && profiles == old(profiles) + [Profile(r.value.id, r.value.id, "", "", "")]
    {
      if email == [] {
        return Rejected(EmailMissing);
      }
      if !Storable(extra) {
        return Rejected(InvalidFlag);
      }
      r := Insert(NewUser(0, email, passwordHash, extra));
    }

    /** `UserManager.create_superuser`. */
    method CreateSuperuser(email: string, passwordHash: string, extra: Extra) returns (r: Checked<User, AccountError>)
      requires Valid()
      modifies this
      ensures Valid()
      ensures SuperuserCheck(extra).Some? ==> r == Rejected(SuperuserCheck(extra).value) && unchanged(this)
      ensures SuperuserCheck(extra).None? && email == [] ==> r == Rejected(EmailMissing) && unchanged(this)
      ensures SuperuserCheck(extra).None? && email != [] && !Storable(SuperuserExtra(extra)) ==>
        r == Rejected(InvalidFlag) && unchanged(this)
      ensures SuperuserCheck(extra).None? && email != [] && Storable(SuperuserExtra(extra)) && email in old(Emails()) ==>
        r == Rejected(DuplicateEmail) && unchanged(this)
      ensures SuperuserCheck(extra).None? && email != [] && Storable(SuperuserExtra(extra)) && email !in old(Emails()) ==>
        && r == Accepted(NewUser(old(nextId), email, passwordHash, SuperuserExtra(extra)))
        && r.value.isStaff && r.value.isSuperuser
        && users == old(users) + [r.value]
        && profiles == old(profiles) + [Profile(r.value.id, r.value.id, "", "", "")]
    {
      var e := SuperuserExtra(extra);
      if e.isStaff != Some(Bool(true)) {
        return Rejected(NotStaff);
      }
      if e.isSuperuser != Some(Bool(true)) {
        return Rejected(NotSuperuser);
      }
      r := CreateUser(email, passwordHash, e);
    }

    /** `UserRegisterForm.save`: a customer with the form's email and the
        given password, inactive until the email is confirmed. The form's
        `clean_email` has already refused a taken email. */
    method Register(email: string, passwordHash: string) returns (user: User)
      requires Valid() && email !in Emails()
      modifies this
      ensures Valid()
      ensures user == NewUser(old(nextId), email, passwordHash, Extra(None, None, None, None, None)).(isActive := false)
      ensures !user.isActive && !user.isStaff && user.kind == Customer
      ensures users == old(users) + [user]
      ensures profiles == old(profiles) + [Profile(user.id, user.id, "", "", "")]
    {
      var u := NewUser(0, email, passwordHash, Extra(None, None, None, None, None));
      u := u.(isActive := false);
      var r := Insert(u);
      user := r.value;
    }
  }

  /** Every user of a valid store has exactly one profile, and it shares
      the user's key. */
  lemma {:induction false} OneProfilePerUser(store: UserStore, k: nat)
    requires store.Valid() && k < |store.users|
    ensures var ps := set i | 0 <= i < |store.profiles| && store.profiles[i].userId == store.users[k].id;
      ps == {k} && store.profiles[k].id == store.users[k].id
  {
    var ps := set i | 0 <= i < |store.profiles| && store.profiles[i].userId == store.users[k].id;
    forall i | i in ps
      ensures i == k
    {
      assert store.users[i].id == store.users[k].id;
    }
  }

  // ---------------------------------------------------------------------
  // Profile.get_fullname

  /** `Profile.get_fullname`: the two names separated by a space when either
      is given, "new user" otherwise. */
  function FullName(first: string, last: string): (r: string)
    ensures r != []
    ensures first != [] || last != [] ==> |r| == |first| + 1 + |last|
    ensures first != [] || last != [] ==> r[..|first|] == first && r[|first|] == ' ' && r[|first| + 1..] == last
  {
    if first != [] || last != [] then first + " " + last else "new user"
  }

  /** A fresh profile, with both names empty, shows "new user"; a profile
      with only a first name shows it followed by a space. */
  lemma FullNameExamples()
    ensures FullName("", "") == "new user"
    ensures FullName("Sara", "") == "Sara "
    ensures FullName("Sara", "Ahmadi") == "Sara Ahmadi"
  {
  }

  // ---------------------------------------------------------------------
  // Password pairs

  /** Both passwords given, non-empty and different. */
  predicate Mismatched(p1: Option<string>, p2: string) {
    p1.Some? && p1.value != [] && p2 != [] && p1.value != p2
  }

  /** A `clean_*` method as it runs: it returns or raises a validation
      error, or a `len(None)` raises a TypeError. */
  datatype Run<T> = Returned(result: T) | RaisesTypeError

  /** `clean_password2` (and the identical `clean_new_password2` of the
      password change and reset forms) as written: `password1` is absent
      from the cleaned data when its own field failed, and `len(None)`
      then raises. */
  function CleanPasswordsAsWritten(p1: Option<string>, p2: string): Run<Checked<string, AccountError>> {
    if Mismatched(p1, p2) then Returned(Rejected(PasswordMismatch))
    else if p1.None? then RaisesTypeError
    else if |p1.value| < 8 then Returned(Rejected(PasswordTooShort))
    else Returned(Accepted(p2))
  }

  /** A form whose first password was left blank but whose second was
      filled in crashes instead of reporting the blank field. */
  lemma BlankFirstPasswordCrashes()
    ensures CleanPasswordsAsWritten(None, "password123") == RaisesTypeError
  {
  }

  /** The password-pair check with the length rule applied only to a
      password that is there: mismatch first, then a first password
      shorter than 8 characters, and otherwise the second password. */
  function CleanPasswords(p1: Option<string>, p2: string): (r: Checked<string, AccountError>)
    ensures Mismatched(p1, p2) ==> r == Rejected(PasswordMismatch)
    ensures r == Rejected(PasswordTooShort) <==> !Mismatched(p1, p2) && p1.Some? && |p1.value| < 8
    ensures r.Accepted? <==> !Mismatched(p1, p2) && (p1.None? || |p1.value| >= 8)
    ensures r.Accepted? ==> r.value == p2 && (p1.None? || p1.value == p2 || p2 == [])
  {
    if Mismatched(p1, p2) then Rejected(PasswordMismatch)
    else if p1.Some? && |p1.value| < 8 then Rejected(PasswordTooShort)
    else Accepted(p2)
  }

  /** The corrected check agrees with the code wherever the code does not
      crash, and the code crashes exactly when the first password is
      absent and the pair is not already a mismatch. */
  lemma PasswordChecksAgree(p1: Option<string>, p2: string)
    ensures CleanPasswordsAsWritten(p1, p2) == RaisesTypeError <==> p1.None?
    ensures p1.Some? ==> CleanPasswordsAsWritten(p1, p2) == Returned(CleanPasswords(p1, p2))
  {
  }

  /** Different passwords are reported as a mismatch even when too short;
      equal short ones as too short; equal long ones pass. */
  lemma PasswordExamples()
    ensures CleanPasswords(Some("password123"), "password456") == Rejected(PasswordMismatch)
    ensures CleanPasswords(Some("abc"), "abcdefgh") == Rejected(PasswordMismatch)
    ensures CleanPasswords(Some("short"), "short") == Rejected(PasswordTooShort)
    ensures CleanPasswords(Some("password123"), "password123") == Accepted("password123")
  {
  }

  // ---------------------------------------------------------------------
  // Emails, login and the old password

  /** `UserRegisterForm.clean_email`: a taken email is refused. */
  function CleanRegisterEmail(emails: set<string>, email: string): (r: Checked<string, AccountError>)
    ensures r.Accepted? <==> email !in emails
    ensures r.Accepted? ==> r.value == email
    ensures r.Rejected? ==> r.error == EmailTaken
  {
    if email in emails then Rejected(EmailTaken) else Accepted(email)
  }

  /** `CustomPasswordResetForm.clean_email`: an unknown email is refused. */
  function CleanResetEmail(emails: set<string>, email: string): (r: Checked<string, AccountError>)
    ensures r.Accepted? <==> email in emails
    ensures r.Accepted? ==> r.value == email
    ensures r.Rejected? ==> r.error == UnknownEmail
  {
    if email !in emails then Rejected(UnknownEmail) else Accepted(email)
  }

  /** Of registration and password reset, exactly one accepts any email. */
  lemma EmailChecksComplement(emails: set<string>, email: string)
    ensures CleanRegisterEmail(emails, email).Accepted? != CleanResetEmail(emails, email).Accepted?
  {
  }

  /** `UserLoginForm.clean`: `authenticated` is what `authenticate`
      returns for the pair. Without an email or a password nothing is
      checked (Accepted(None)); otherwise an unknown email, then failed
      credentials, then an inactive account are refused in that order, and
      a success carries the user. */
  function CleanLogin(emails: set<string>, email: Option<string>, password: Option<string>,
                      authenticated: Option<User>): (r: Checked<Option<User>, AccountError>)
    ensures email.None? || email.value == [] || password.None? || password.value == [] ==> r == Accepted(None)
    ensures r == Accepted(None) ==> email.None? || email.value == [] || password.None? || password.value == []
    ensures r == Rejected(UnknownEmail) <==>
      (email.Some? && email.value != [] && password.Some? && password.value != [] && email.value !in emails)
    ensures r == Rejected(WrongCredentials) <==>
      (email.Some? && email.value != [] && password.Some? && password.value != [] &&
       email.value in emails && authenticated.None?)
    ensures r == Rejected(InactiveAccount) <==>
      (email.Some? && email.value != [] && password.Some? && password.value != [] &&
       email.value in emails && authenticated.Some? && !authenticated.value.isActive)
    ensures r.Accepted? && r.value.Some? <==>
      (email.Some? && email.value != [] && password.Some? && password.value != [] &&
       email.value in emails && authenticated.Some? && authenticated.value.isActive)
    ensures r.Accepted? && r.value.Some? ==> r.value == authenticated
    ensures r.Rejected? ==> r.error in {UnknownEmail, WrongCredentials, InactiveAccount}
  {
    if email.None? || email.value == [] || password.None? || password.value == [] then Accepted(None)
    else if email.value !in emails then Rejected(UnknownEmail)
    else if authenticated.None? then Rejected(WrongCredentials)
    else if !authenticated.value.isActive then Rejected(InactiveAccount)
    else Accepted(authenticated)
  }

  /** `clean_old_password` of both password change forms: `matches` is
      what `check_password` says of the old password; a wrong one is
      refused, a right one returned unchanged. */
  function CleanOldPassword(oldPassword: Option<string>, matches: bool): (r: Checked<Option<string>, AccountError>)
    ensures r.Accepted? <==> matches
    ensures r.Accepted? ==> r.value == oldPassword
    ensures r.Rejected? ==> r.error == WrongOldPassword
  {
    if !matches then Rejected(WrongOldPassword) else Accepted(oldPassword)
  }
}

=== FILE: addresses.dfy ===
/** Postal addresses of core/order/models.py and the address views of
    core/dashboard/addresses.py: a per-user collection in which saving a
    default address clears the other defaults of its owner, the first
    address of a user becomes the default, the last address of a user
    cannot be deleted, deleting the default promotes another address, and
    "set default" leaves exactly one default. */
module Addresses {
  import opened Python
  import opened Accounts

  type AddressId = nat

  /** An Address row. An empty `line2` stands for the nullable optional
      line; `isDefault` is the default-address flag. The creation time is
      the row's position in the table: later rows are newer. */
  datatype Address = Address(
    id: AddressId,
    user: UserId,
    addressType: string,
    title: string,  // the `label` field
    fullName: string,
    phone: string,
    line1: string,
    line2: string,
    city: string,
    state: string,
    postalCode: string,
    country: string,
    isDefault: bool)

  /** `Address.get_full_address`: the non-empty parts joined with "<br />". */
  function FullAddress(a: Address): string {
    Join(NonEmpty([a.line1, a.line2, a.city + ", " + a.state + " " + a.postalCode, a.country]), "<br />")
  }

  /** `Address.get_short_address`. */
  function ShortAddress(a: Address): string {
    a.line1 + ", " + a.city + ", " + a.state
  }

  /** `Address.__str__`. */
  function Caption(a: Address): string {
    a.title + " - " + a.city + ", " + a.state
  }

  /** `sep.join([x, y, z])`. */
  lemma JoinThree(x: string, y: string, z: string, sep: string)
    ensures Join([x, y, z], sep) == x + sep + y + sep + z
  {
    assert [x, y][..1] == [x];
    assert Join([x, y], sep) == x + sep + y;
    assert [x, y, z][..2] == [x, y];
  }

  /** The "city, state postal" line is never empty. */
  lemma CityLineNonEmpty(a: Address)
    ensures a.city + ", " + a.state + " " + a.postalCode != []
  {
    assert |a.city + ", " + a.state + " " + a.postalCode| >= 2;
  }

  /** With every part present the full address lists line 1, line 2, the
      "city, state postal" line and the country, in that order. */
  lemma FullAddressAllParts(a: Address)
    requires a.line1 != [] && a.line2 != [] && a.country != []
    ensures FullAddress(a) ==
      a.line1 + "<br />" + a.line2 + "<br />" + a.city + ", " + a.state + " " + a.postalCode + "<br />" + a.country
  {
    var c := a.city + ", " + a.state + " " + a.postalCode;
    CityLineNonEmpty(a);
    var parts := [a.line1, a.line2, c, a.country];
    NonEmptyKeepsAll(parts);
    assert parts[..3] == [a.line1, a.line2, c];
    JoinThree(a.line1, a.line2, c, "<br />");
  }

  /** A missing second line is skipped: no empty part and no doubled
      separator appear. */
  lemma FullAddressWithoutLine2(a: Address)
    requires a.line1 != [] && a.line2 == [] && a.country != []
    ensures FullAddress(a) ==
      a.line1 + "<br />" + a.city + ", " + a.state + " " + a.postalCode + "<br />" + a.country
  {
    var c := a.city + ", " + a.state + " " + a.postalCode;
    CityLineNonEmpty(a);
    var parts := [a.line1, a.line2, c, a.country];
    assert parts[..3] == [a.line1, a.line2, c];
    assert parts[..3][..2] == [a.line1, a.line2];
    assert [a.line1, a.line2][..1] == [a.line1];
    assert [a.line1][..0] == [];
    assert NonEmpty([a.line1]) == [a.line1];
    assert NonEmpty([a.line1, a.line2]) == [a.line1];
    assert NonEmpty(parts) == [a.line1, c, a.country];
    JoinThree(a.line1, c, a.country, "<br />");
  }

  /** The address of the model test: its caption is "Home - Tehran, Tehran",
      and line 1 and the city appear in the full and the short address. */
  lemma AddressExample(a: Address)
    requires IsTestAddress(a) && a.country != []
    ensures Caption(a) == "Home - Tehran, Tehran"
    ensures FullAddress(a) == "Street 1<br />Tehran, Tehran 12345<br />" + a.country
    ensures ShortAddress(a) == "Street 1, Tehran, Tehran"
  {
    ExampleLabels(a);
    ExampleHead(a);
    FullAddressWithoutLine2(a);
  }

  /** The predicate the model test's address satisfies. */
  predicate IsTestAddress(a: Address) {
    && a.title == "Home" && a.line1 == "Street 1" && a.line2 == []
    && a.city == "Tehran" && a.state == "Tehran" && a.postalCode == "12345"
  }

  // A proof step of AddressExample: the caption and the short address.
  lemma ExampleLabels(a: Address)
    requires IsTestAddress(a)
    ensures Caption(a) == "Home - Tehran, Tehran"
    ensures ShortAddress(a) == "Street 1, Tehran, Tehran"
  {
  }

  // A proof step of AddressExample: the full address up to the country.
  lemma ExampleHead(a: Address)
    requires IsTestAddress(a)
    ensures a.line1 + "<br />" + a.city + ", " + a.state + " " + a.postalCode + "<br />"
      == "Street 1<br />Tehran, Tehran 12345<br />"
  {
    assert a.line1 + "<br />" + a.city == "Street 1<br />Tehran";
    assert a.line1 + "<br />" + a.city + ", " + a.state == "Street 1<br />Tehran, Tehran";
    assert a.line1 + "<br />" + a.city + ", " + a.state + " " + a.postalCode == "Street 1<br />Tehran, Tehran 12345";
  }

  // ---------------------------------------------------------------------
  // The table of addresses and what each save, update and delete does to it

  predicate UniqueIds(rows: seq<Address>) {
    forall i, j :: 0 <= i < j < |rows| ==> rows[i].id != rows[j].id
  }

  /** The invariant `Address.save` maintains: no user has two defaults. */
  predicate AtMostOneDefault(rows: seq<Address>) {
    forall i, j | 0 <= i < |rows| && 0 <= j < |rows| ::
      rows[i].user == rows[j].user && rows[i].isDefault && rows[j].isDefault ==> i == j
  }

  predicate HasAddress(rows: seq<Address>, u: UserId) {
    exists i :: 0 <= i < |rows| && rows[i].user == u
  }

  /** The positions of the rows owned by `u`. */
  function Owned(rows: seq<Address>, u: UserId): set<nat> {
    set i | 0 <= i < |rows| && rows[i].user == u
  }

  /** Among the addresses of `u`, exactly the one with id `id` is default. */
  predicate OnlyDefault(rows: seq<Address>, u: UserId, id: AddressId) {
    forall i :: 0 <= i < |rows| && rows[i].user == u ==> (rows[i].isDefault <==> rows[i].id == id)
  }

  /** `Address.objects.filter(user=u)` in storage order: the address
      views of `u` use it as a filter only, and the listing order of the
      `Meta` class (default first, then newest) is stated apart. */
  function RowsOf(rows: seq<Address>, u: UserId): (r: seq<Address>)
    ensures forall i :: 0 <= i < |r| ==> r[i].user == u
  {
    if rows == [] then []
    else RowsOf(rows[..|rows| - 1], u) + (if rows[|rows| - 1].user == u then [rows[|rows| - 1]] else [])
  }

  lemma {:induction false} RowsOfAppend(a: seq<Address>, b: seq<Address>, u: UserId)
    ensures RowsOf(a + b, u) == RowsOf(a, u) + RowsOf(b, u)
  {
    if b != [] {
      var last := b[|b| - 1];
      assert (a + b)[..|a + b| - 1] == a + b[..|b| - 1];
      RowsOfAppend(a, b[..|b| - 1], u);
    } else {
      assert a + b == a;
    }
  }

  /** Two tables that agree on the owners of every position and on every
      row of `v` show `v` the same addresses. */
  lemma {:induction false} RowsOfAgree(rows: seq<Address>, rows': seq<Address>, v: UserId)
    requires |rows| == |rows'|
    requires forall i :: 0 <= i < |rows| ==> rows'[i].user == rows[i].user
    requires forall i :: 0 <= i < |rows| && rows[i].user == v ==> rows'[i] == rows[i]
    ensures RowsOf(rows', v) == RowsOf(rows, v)
  {
    if rows != [] {
      RowsOfAgree(rows[..|rows| - 1], rows'[..|rows'| - 1], v);
    }
  }

  /** Removing a row of another user does not change what `v` sees. */
  lemma RowsOfRemove(rows: seq<Address>, k: nat, v: UserId)
    requires k < |rows| && rows[k].user != v
    ensures RowsOf(rows[..k] + rows[k + 1..], v) == RowsOf(rows, v)
  {
    assert rows == rows[..k] + [rows[k]] + rows[k + 1..];
    RowsOfAppend(rows[..k] + [rows[k]], rows[k + 1..], v);
    RowsOfAppend(rows[..k], [rows[k]], v);
    RowsOfAppend(rows[..k], rows[k + 1..], v);
    assert RowsOf([rows[k]], v) == RowsOf([], v) + [];
  }

  lemma {:induction false} RowsOfMember(rows: seq<Address>, u: UserId, a: Address)
    requires a in RowsOf(rows, u)
    ensures exists i :: 0 <= i < |rows| && rows[i] == a && a.user == u
  {
    if rows != [] {
      var init := rows[..|rows| - 1];
      if a in RowsOf(init, u) {
        RowsOfMember(init, u, a);
        var i :| 0 <= i < |init| && init[i] == a && a.user == u;
        assert rows[i] == a;
      } else {
        assert a == rows[|rows| - 1];
      }
    }
  }

  lemma {:induction false} RowsOfHas(rows: seq<Address>, u: UserId, k: nat)
    requires k < |rows| && rows[k].user == u
    ensures rows[k] in RowsOf(rows, u)
  {
    RowsOfAppend(rows[..k], rows[k..], u);
    assert rows == rows[..k] + rows[k..];
    RowsOfAppend([rows[k]], rows[k + 1..], u);
    assert rows[k..] == [rows[k]] + rows[k + 1..];
    assert RowsOf([rows[k]], u) == RowsOf([], u) + [rows[k]];
  }

  /** `f` lists increasing positions of `rows` at which the addresses of
      `u` stand, in the order `RowsOf` lists them. */
  lemma {:induction false} RowsOfEmbeds(rows: seq<Address>, u: UserId) returns (f: seq<nat>)
    ensures |f| == |RowsOf(rows, u)|
    ensures forall k :: 0 <= k < |f| ==> f[k] < |rows| && RowsOf(rows, u)[k] == rows[f[k]]
    ensures forall k, l :: 0 <= k < l < |f| ==> f[k] < f[l]
  {
    if rows == [] {
      f := [];
    } else {
      var init := rows[..|rows| - 1];
      var g := RowsOfEmbeds(init, u);
      var r := RowsOf(rows, u);
      assert r == RowsOf(init, u) + (if rows[|rows| - 1].user == u then [rows[|rows| - 1]] else []);
      f := if rows[|rows| - 1].user == u then g + [|rows| - 1] else g;
      forall k | 0 <= k < |g|
        ensures f[k] == g[k] < |rows| && r[k] == rows[f[k]]
      {
        assert init[g[k]] == rows[g[k]];
      }
    }
  }

  /** The effect of `filter(user=u, is_default=True).exclude(pk=keep)
      .update(is_default=False)` on one row; `keep` is None for a row not
      yet saved, which excludes nothing. */
  function Unflag(r: Address, u: UserId, keep: Option<AddressId>): Address {
    if r.user == u && (keep.None? || r.id != keep.value) then r.(isDefault := false) else r
  }

  function Cleared(rows: seq<Address>, u: UserId, keep: Option<AddressId>): (r: seq<Address>)
    ensures |r| == |rows| && forall i :: 0 <= i < |rows| ==> r[i] == Unflag(rows[i], u, keep)
  {
    seq(|rows|, i requires 0 <= i < |rows| => Unflag(rows[i], u, keep))
  }

  /** The stored row with the same id as `a` is overwritten by `a`. */
  function Replace(rows: seq<Address>, a: Address): (r: seq<Address>)
    ensures |r| == |rows| && forall i :: 0 <= i < |rows| ==> r[i] == if rows[i].id == a.id then a else rows[i]
  {
    seq(|rows|, i requires 0 <= i < |rows| => if rows[i].id == a.id then a else rows[i])
  }

  /** `Address.save` of a new row `a` (its id freshly drawn). */
  function SavedNew(rows: seq<Address>, a: Address): seq<Address> {
    var cleared := if a.isDefault then Cleared(rows, a.user, None) else rows;
    cleared + [a.(isDefault := a.isDefault || !HasAddress(rows, a.user))]
  }

  /** `Address.save` of a row `a` already stored. */
  function SavedExisting(rows: seq<Address>, a: Address): (r: seq<Address>)
    ensures |r| == |rows|
  {
    var cleared := if a.isDefault then Cleared(rows, a.user, Some(a.id)) else rows;
    Replace(cleared, a)
  }

  /** Saving a new address keeps at most one default per user. The new row
      is default when it asked to be or when its owner had no address, and
      then it is its owner's only default. Other users' addresses are
      untouched. */
  lemma SavedNewDefaults(rows: seq<Address>, a: Address)
    requires AtMostOneDefault(rows)
    requires forall i :: 0 <= i < |rows| ==> rows[i].id != a.id
    ensures var r := SavedNew(rows, a);
      && |r| == |rows| + 1
      && r[|rows|] == a.(isDefault := a.isDefault || !HasAddress(rows, a.user))
      && AtMostOneDefault(r)
      && (r[|rows|].isDefault ==> OnlyDefault(r, a.user, a.id))
      && forall v :: v != a.user ==> RowsOf(r, v) == RowsOf(rows, v)
  {
    var r := SavedNew(rows, a);
    var cleared := if a.isDefault then Cleared(rows, a.user, None) else rows;
    assert r == cleared + [r[|rows|]];
    assert !a.isDefault && r[|rows|].isDefault ==> forall i :: 0 <= i < |rows| ==> rows[i].user != a.user;
    assert forall i :: 0 <= i < |rows| && r[i].user == a.user && r[|rows|].isDefault ==> !r[i].isDefault;
    forall v | v != a.user
      ensures RowsOf(r, v) == RowsOf(rows, v)
    {
      RowsOfAgree(rows, cleared, v);
      RowsOfAppend(cleared, [r[|rows|]], v);
      assert RowsOf([r[|rows|]], v) == RowsOf([], v) + [];
    }
  }

  /** A user's first address is saved as default whatever flag it carries. */
  lemma FirstAddressIsDefault(rows: seq<Address>, a: Address)
    requires !HasAddress(rows, a.user)
    ensures SavedNew(rows, a)[|rows|].isDefault
  {
  }

  /** Clearing the defaults of `u` keeps ids, owners and every row of other
      users, and keeps at most one default per user. */
  lemma ClearedKeeps(rows: seq<Address>, u: UserId, keep: Option<AddressId>)
    requires UniqueIds(rows) && AtMostOneDefault(rows)
    ensures var r := Cleared(rows, u, keep);
      && UniqueIds(r) && AtMostOneDefault(r)
      && (forall i :: 0 <= i < |rows| ==> r[i].id == rows[i].id && r[i].user == rows[i].user)
      && forall v :: v != u ==> RowsOf(r, v) == RowsOf(rows, v)
  {
    var r := Cleared(rows, u, keep);
    assert forall i :: 0 <= i < |rows| ==> r[i].id == rows[i].id && r[i].user == rows[i].user;
    assert UniqueIds(r) by {
      forall i, j | 0 <= i < j < |r| ensures r[i].id != r[j].id {
        assert rows[i].id != rows[j].id;
      }
    }
    assert AtMostOneDefault(r) by {
      forall i, j | 0 <= i < |r| && 0 <= j < |r| && r[i].user == r[j].user && r[i].isDefault && r[j].isDefault
        ensures i == j
      {
        assert rows[i].isDefault && rows[j].isDefault;
      }
    }
    forall v | v != u
      ensures RowsOf(r, v) == RowsOf(rows, v)
    {
      RowsOfAgree(rows, r, v);
    }
  }

  /** Saving a stored address keeps ids in place and at most one default
      per user; a saved default is its owner's only default. */
  lemma SavedExistingDefaults(rows: seq<Address>, a: Address)
    requires AtMostOneDefault(rows) && UniqueIds(rows)
    ensures var r := SavedExisting(rows, a);
      && AtMostOneDefault(r)
      && UniqueIds(r)
      && (forall i :: 0 <= i < |rows| ==> r[i].id == rows[i].id)
      && (a.isDefault && (exists i :: 0 <= i < |rows| && rows[i].id == a.id) ==> OnlyDefault(r, a.user, a.id))
  {
    var r := SavedExisting(rows, a);
    var cleared := if a.isDefault then Cleared(rows, a.user, Some(a.id)) else rows;
    assert r == Replace(cleared, a);
    forall i, j | 0 <= i < |r| && 0 <= j < |r| && r[i].user == r[j].user && r[i].isDefault && r[j].isDefault
      ensures i == j
    {
    }
  }

  /** A stored address that keeps its owner leaves owners in place and
      other users' addresses as they were. */
  lemma SavedExistingOthers(rows: seq<Address>, a: Address, v: UserId)
    requires v != a.user
    requires forall i :: 0 <= i < |rows| && rows[i].id == a.id ==> rows[i].user == a.user
    ensures forall i :: 0 <= i < |rows| ==> SavedExisting(rows, a)[i].user == rows[i].user
    ensures RowsOf(SavedExisting(rows, a), v) == RowsOf(rows, v)
  {
    RowsOfAgree(rows, SavedExisting(rows, a), v);
  }

  /** The position of the row with id `id`. */
  function IndexOf(rows: seq<Address>, id: AddressId): (k: Option<nat>)
    ensures k.Some? ==> k.value < |rows| && rows[k.value].id == id
    ensures k.None? ==> forall i :: 0 <= i < |rows| ==> rows[i].id != id
  {
    if rows == [] then None
    else if rows[|rows| - 1].id == id then Some(|rows| - 1)
    else IndexOf(rows[..|rows| - 1], id)
  }

  /** `get_object_or_404` over `Address.objects.filter(user=u)`: the
      position of address `id` when `u` owns it. */
  function OwnedIndex(rows: seq<Address>, u: UserId, id: AddressId): (k: Option<nat>)
    ensures k.Some? ==> k.value < |rows| && rows[k.value].id == id && rows[k.value].user == u
    ensures UniqueIds(rows) && k.None? ==>
      forall i :: 0 <= i < |rows| && rows[i].id == id ==> rows[i].user != u
  {
    match IndexOf(rows, id)
    case None => None
    case Some(k) => if rows[k].user == u then Some(k) else None
  }

  /** A row other than `exclude` owned by `u` (and default, when
      `onlyDefault`). */
  predicate Candidate(rows: seq<Address>, i: int, u: UserId, exclude: AddressId, onlyDefault: bool)
    requires 0 <= i < |rows|
  {
    rows[i].user == u && rows[i].id != exclude && (onlyDefault ==> rows[i].isDefault)
  }

  /** The newest candidate row. */
  function Newest(rows: seq<Address>, u: UserId, exclude: AddressId, onlyDefault: bool): (k: Option<nat>)
    ensures k.Some? ==> k.value < |rows| && Candidate(rows, k.value, u, exclude, onlyDefault)
    ensures k.Some? ==> forall j :: k.value < j < |rows| ==> !Candidate(rows, j, u, exclude, onlyDefault)
    ensures k.None? ==> forall j :: 0 <= j < |rows| ==> !Candidate(rows, j, u, exclude, onlyDefault)
  {
    if rows == [] then None
    else if Candidate(rows, |rows| - 1, u, exclude, onlyDefault) then Some(|rows| - 1)
    else
      var k := Newest(rows[..|rows| - 1], u, exclude, onlyDefault);
      assert forall j :: 0 <= j < |rows| - 1 ==>
        Candidate(rows[..|rows| - 1], j, u, exclude, onlyDefault) == Candidate(rows, j, u, exclude, onlyDefault);
      k
  }

  /** `.filter(user=u).exclude(pk=exclude).first()` under the ordering
      (-is_default, -created_date): a default first, the newest first. */
  function FirstOther(rows: seq<Address>, u: UserId, exclude: AddressId): (k: Option<nat>)
    ensures k.Some? ==> k.value < |rows| && Candidate(rows, k.value, u, exclude, false)
    ensures k.Some? ==> forall j :: 0 <= j < |rows| && Candidate(rows, j, u, exclude, false) ==>
      (rows[j].isDefault ==> rows[k.value].isDefault) &&
      (rows[j].isDefault == rows[k.value].isDefault ==> j <= k.value)
    ensures k.None? ==> forall j :: 0 <= j < |rows| ==> !Candidate(rows, j, u, exclude, false)
  {
    var d := Newest(rows, u, exclude, true);
    assert forall j :: 0 <= j < |rows| && Candidate(rows, j, u, exclude, false) && rows[j].isDefault ==>
      Candidate(rows, j, u, exclude, true);
    if d.Some? then d else Newest(rows, u, exclude, false)
  }

  /** The promotion step of a delete: when the address at `k` is the
      default, the first other address of `u` is saved as default. */
  function Promoted(rows: seq<Address>, u: UserId, id: AddressId, k: nat): (r: seq<Address>)
    requires k < |rows|
    ensures |r| == |rows|
  {
    if rows[k].isDefault then
      match FirstOther(rows, u, id)
      case Some(j) => SavedExisting(rows, rows[j].(isDefault := true))
      case None => rows
    else rows
  }

  /** The table without the row at `k`. */
  function RemovedAt(rows: seq<Address>, k: nat): (r: seq<Address>)
    requires k < |rows|
    ensures |r| == |rows| - 1
    ensures forall i :: 0 <= i < |r| ==> r[i] == if i < k then rows[i] else rows[i + 1]
  {
    rows[..k] + rows[k + 1..]
  }

  datatype DeleteOutcome = NotFound | Refused | Deleted

  /** `AddressDeleteView.delete` by user `u` of address `id`: the outcome
      and the table afterwards. */
  function AfterDelete(rows: seq<Address>, u: UserId, id: AddressId): (DeleteOutcome, seq<Address>) {
    match OwnedIndex(rows, u, id)
    case None => (NotFound, rows)
    case Some(k) =>
      if |Owned(rows, u)| == 1 then (Refused, rows)
      else (Deleted, RemovedAt(Promoted(rows, u, id, k), k))
  }

  /** A second address exists whenever the owner has more than one. */
  lemma OtherAddressExists(rows: seq<Address>, u: UserId, k: nat)
    requires k < |rows| && rows[k].user == u && |Owned(rows, u)| != 1
    ensures exists j :: 0 <= j < |rows| && j != k && rows[j].user == u
  {
    var s := Owned(rows, u);
    assert k in s;
    assert |s - {k}| == |s| - 1;
    assert s - {k} != {};
    var j :| j in s - {k};
  }

  /** Removing one row keeps ids distinct and defaults unique, and no row
      keeps the removed id. */
  lemma RemovedKeeps(rows: seq<Address>, k: nat)
    requires k < |rows| && UniqueIds(rows) && AtMostOneDefault(rows)
    ensures var r := RemovedAt(rows, k);
      && UniqueIds(r) && AtMostOneDefault(r)
      && forall i :: 0 <= i < |r| ==> r[i].id != rows[k].id
  {
  }

  /** The promotion keeps ids, owners, other users' rows and at most one
      default per user, and leaves `u` another address that is default
      when the deleted one was. */
  lemma PromotedKeeps(rows: seq<Address>, u: UserId, id: AddressId, k: nat)
    requires UniqueIds(rows) && AtMostOneDefault(rows)
    requires k < |rows| && rows[k].id == id && rows[k].user == u && |Owned(rows, u)| != 1
    ensures var p := Promoted(rows, u, id, k);
      && UniqueIds(p) && AtMostOneDefault(p)
      && (forall i :: 0 <= i < |rows| ==> p[i].id == rows[i].id && p[i].user == rows[i].user)
      && (forall v :: v != u ==> RowsOf(p, v) == RowsOf(rows, v))
      && exists j :: 0 <= j < |p| && j != k && p[j].user == u && (rows[k].isDefault ==> p[j].isDefault)
  {
    OtherAddressExists(rows, u, k);
    var j0 :| 0 <= j0 < |rows| && j0 != k && rows[j0].user == u;
    assert Candidate(rows, j0, u, id, false);
    var p := Promoted(rows, u, id, k);
    if rows[k].isDefault {
      var j := FirstOther(rows, u, id).value;
      var a := rows[j].(isDefault := true);
      assert p == SavedExisting(rows, a);
      SavedExistingDefaults(rows, a);
      assert forall i :: 0 <= i < |rows| && rows[i].id == a.id ==> i == j;
      forall v | v != u
        ensures RowsOf(p, v) == RowsOf(rows, v)
      {
        SavedExistingOthers(rows, a, v);
      }
      SavedExistingOthers(rows, a, u + 1);
      assert p[j] == a;
    } else {
      assert p[j0].user == u;
    }
  }

  /** The outcomes of deleting: an address the user does not own is not
      found and a user's only address is refused, both without any change;
      otherwise the address is gone, its owner keeps at least one address,
      a deleted default hands the flag to another address of the owner,
      no user has two defaults and other users keep their addresses. */
  lemma DeleteOutcomes(rows: seq<Address>, u: UserId, id: AddressId)
    requires UniqueIds(rows) && AtMostOneDefault(rows)
    ensures var (outcome, r) := AfterDelete(rows, u, id);
      && (outcome == NotFound <==> forall i :: 0 <= i < |rows| && rows[i].id == id ==> rows[i].user != u)
      && (outcome == Refused <==> OwnedIndex(rows, u, id).Some? && |Owned(rows, u)| == 1)
      && (outcome != Deleted ==> r == rows)
      && (outcome == Deleted ==> DeletedFrom(rows, r, u, id, rows[OwnedIndex(rows, u, id).value].isDefault))
  {
    match OwnedIndex(rows, u, id)
    case None =>
    case Some(k) =>
      if |Owned(rows, u)| != 1 {
        DeletedKeeps(rows, u, id, k);
      }
  }

  /** What a successful delete of address `id` of user `u` leaves: the
      address is gone, its owner keeps at least one address and, when the
      deleted one was the default, a default; no user has two defaults and
      other users keep their addresses. */
  ghost predicate DeletedFrom(rows: seq<Address>, r: seq<Address>, u: UserId, id: AddressId, wasDefault: bool) {
    && |r| == |rows| - 1
    && (forall i :: 0 <= i < |r| ==> r[i].id != id)
    && HasAddress(r, u)
    && AtMostOneDefault(r)
    && UniqueIds(r)
    && (forall v :: v != u ==> RowsOf(r, v) == RowsOf(rows, v))
    && (wasDefault ==> exists i :: 0 <= i < |r| && r[i].user == u && r[i].isDefault)
  }

  lemma DeletedKeeps(rows: seq<Address>, u: UserId, id: AddressId, k: nat)
    requires UniqueIds(rows) && AtMostOneDefault(rows)
    requires k < |rows| && rows[k].id == id && rows[k].user == u && |Owned(rows, u)| != 1
    ensures DeletedFrom(rows, RemovedAt(Promoted(rows, u, id, k), k), u, id, rows[k].isDefault)
  {
    PromotedKeeps(rows, u, id, k);
    var p := Promoted(rows, u, id, k);
    var r := RemovedAt(p, k);
    RemovedKeeps(p, k);
    var j :| 0 <= j < |p| && j != k && p[j].user == u && (rows[k].isDefault ==> p[j].isDefault);
    var i := if j < k then j else j - 1;
    assert r[i] == p[j];
    forall v | v != u
      ensures RowsOf(r, v) == RowsOf(rows, v)
    {
      RowsOfRemove(p, k, v);
    }
  }

  /** `AddressSetDefaultView.post` by user `u` for address `id`: the
      outcome (whether the address was found) and the table afterwards. */
  function AfterSetDefault(rows: seq<Address>, u: UserId, id: AddressId): (bool, seq<Address>) {
    match OwnedIndex(rows, u, id)
    case None => (false, rows)
    case Some(k) => (true, SavedExisting(Cleared(rows, u, None), rows[k].(isDefault := true)))
  }

  /** Setting a default: an address of another user is not found and
      nothing changes; otherwise the chosen address is its owner's only
      default and other users are untouched. */
  lemma SetDefaultExactlyOne(rows: seq<Address>, u: UserId, id: AddressId)
    requires UniqueIds(rows) && AtMostOneDefault(rows)
    ensures var (found, r) := AfterSetDefault(rows, u, id);
      && (found <==> exists i :: 0 <= i < |rows| && rows[i].id == id && rows[i].user == u)
      && (!found ==> r == rows)
      && (found ==>
            && OnlyDefault(r, u, id)
            && AtMostOneDefault(r)
            && UniqueIds(r)
            && (forall i :: 0 <= i < |r| ==> r[i].id == rows[i].id)
            && (forall v :: v != u ==> RowsOf(r, v) == RowsOf(rows, v)))
  {
    match OwnedIndex(rows, u, id)
    case None =>
    case Some(k) =>
      var cleared := Cleared(rows, u, None);
      var a := rows[k].(isDefault := true);
      ClearedKeeps(rows, u, None);
      assert cleared[k].id == a.id;
      SavedExistingDefaults(cleared, a);
      assert forall i :: 0 <= i < |cleared| && cleared[i].id == a.id ==> i == k;
      forall v | v != u
        ensures RowsOf(SavedExisting(cleared, a), v) == RowsOf(rows, v)
      {
        SavedExistingOthers(cleared, a, v);
      }
  }

  /** The address table and the id sequence that numbers new rows. */
  class AddressBook {
    var rows: seq<Address>
    var nextId: AddressId

    ghost predicate Valid()
      reads this
    {
      && UniqueIds(rows)
      && AtMostOneDefault(rows)
      && forall i :: 0 <= i < |rows| ==> rows[i].id < nextId
    }

    constructor()
      ensures Valid() && rows == [] && nextId == 1
    {
      rows := [];
      nextId := 1;
    }

    /** The bulk `update(is_default=False)` over the rows of `u` other than
        `keep`, row by row. */
    method ClearDefaults(u: UserId, keep: Option<AddressId>)
      modifies this`rows
      ensures rows == Cleared(old(rows), u, keep)
    {
      var i := 0;
      while i < |rows|
        invariant 0 <= i <= |rows| == |old(rows)|
        invariant forall j :: 0 <= j < i ==> rows[j] == Unflag(old(rows)[j], u, keep)
        invariant forall j :: i <= j < |rows| ==> rows[j] == old(rows)[j]
      {
        var r := rows[i];
        if r.user == u && r.isDefault && (keep.None? || r.id != keep.value) {
          rows := rows[i := r.(isDefault := false)];
        }
        i := i + 1;
      }
    }

    /** `Address.save` for an address not saved before: it receives the
        next id. */
    method SaveNew(a: Address) returns (saved: Address)
      requires Valid()
      modifies this
      ensures Valid()
      ensures saved.id == old(nextId) && nextId == old(nextId) + 1
      ensures rows == SavedNew(old(rows), a.(id := saved.id))
      ensures |rows| == |old(rows)| + 1 && saved == rows[|rows| - 1]
    {
      var b := a.(id := nextId);
      if b.isDefault {
        ClearDefaults(b.user, None);
      }
      var hasAddress := exists i :: 0 <= i < |rows| && rows[i].user == b.user;
      assert hasAddress == HasAddress(old(rows), b.user) by {
        if hasAddress {
          var i :| 0 <= i < |rows| && rows[i].user == b.user;
          assert old(rows)[i].user == b.user;
        }
      }
      if !hasAddress {
        b := b.(isDefault := true);
      }
      saved := b;
      rows := rows + [b];
      nextId := nextId + 1;
      SavedNewDefaults(old(rows), a.(id := saved.id));
      ClearedKeeps(old(rows), b.user, None);
    }

    /** `Address.save` for an address already stored. */
    method SaveExisting(a: Address)
      requires Valid() && IndexOf(rows, a.id).Some?
      modifies this`rows
      ensures Valid()
      ensures rows == SavedExisting(old(rows), a)
    {
      if a.isDefault {
        ClearDefaults(a.user, Some(a.id));
      }
      WriteRow(a);
      SavedExistingDefaults(old(rows), a);
    }

    /** The UPDATE of `save`: the stored row with the id of `a` is
        overwritten, row by row. */
    method WriteRow(a: Address)
      modifies this`rows
      ensures rows == Replace(old(rows), a)
    {
      var i := 0;
      while i < |rows|
        invariant 0 <= i <= |rows| == |old(rows)|
        invariant forall j :: 0 <= j < i ==> rows[j] == if old(rows)[j].id == a.id then a else old(rows)[j]
        invariant forall j :: i <= j < |rows| ==> rows[j] == old(rows)[j]
      {
        if rows[i].id == a.id {
          rows := rows[i := a];
        }
        i := i + 1;
      }
    }

    /** `AddressCreateView.form_valid`: the new address belongs to the
        requesting user, whatever owner the form carried. */
    method Create(requester: UserId, form: Address) returns (saved: Address)
      requires Valid()
      modifies this
      ensures Valid()
      ensures rows == SavedNew(old(rows), form.(id := saved.id, user := requester))
      ensures |rows| == |old(rows)| + 1 && saved == rows[|rows| - 1] && saved.user == requester
    {
      saved := SaveNew(form.(user := requester));
    }

    /** `AddressUpdateView`: the form is saved over the address `id` only
        when the requester owns it; the owner stays the same. */
    method Update(requester: UserId, id: AddressId, form: Address) returns (found: bool)
      requires Valid()
      modifies this`rows
      ensures Valid()
      ensures found <==> OwnedIndex(old(rows), requester, id).Some?
      ensures found ==> rows == SavedExisting(old(rows), form.(id := id, user := requester))
      ensures !found ==> rows == old(rows)
    {
      var k := OwnedIndex(rows, requester, id);
      found := k.Some?;
      if found {
        SaveExisting(form.(id := id, user := requester));
      }
    }

    /** `AddressDeleteView.delete`. */
    method Delete(requester: UserId, id: AddressId) returns (outcome: DeleteOutcome)
      requires Valid()
      modifies this`rows
      ensures Valid()
      ensures (outcome, rows) == AfterDelete(old(rows), requester, id)
    {
      var found := OwnedIndex(rows, requester, id);
      if found.None? {
        return NotFound;
      }
      var k := found.value;
      if |Owned(rows, requester)| == 1 {
        return Refused;
      }
      if rows[k].isDefault {
        var other := FirstOther(rows, requester, id);
        if other.Some? {
          SaveExisting(rows[other.value].(isDefault := true));
        }
      }
      assert rows == Promoted(old(rows), requester, id, k);
      RemovedKeeps(rows, k);
      rows := RemovedAt(rows, k);
      outcome := Deleted;
    }

    /** `AddressSetDefaultView.post`. */
    method SetDefault(requester: UserId, id: AddressId) returns (found: bool)
      requires Valid()
      modifies this`rows
      ensures Valid()
      ensures (found, rows) == AfterSetDefault(old(rows), requester, id)
    {
      var k := OwnedIndex(rows, requester, id);
      if k.None? {
        return false;
      }
      var address := rows[k.value];
      ClearDefaults(requester, None);
      ClearedKeeps(old(rows), requester, None);
      SaveExisting(address.(isDefault := true));
      found := true;
    }
  }
}

=== FILE: cart_models.dfy ===
/** The persisted cart of core/cart/models.py: a user's Cart and its
    CartItem rows, with the item count and the two price sums. */
module CartModels {
  import opened Python
  import opened Shop
  import opened Accounts

  /** One cart line: a product and how many of it. The same shape serves
      the session's `{"product_id", "quantity"}` dictionaries and the
      persisted CartItem rows. */
  datatype Line = Line(productId: ProductId, quantity: int)

  /** The products the cart code can look up, by id. */
  type Catalog = map<ProductId, Product>

  /** The `(cart, product)` uniqueness of CartItem: no product twice. */
  predicate UniqueProducts(lines: seq<Line>) {
    forall i, j :: 0 <= i < j < |lines| ==> lines[i].productId != lines[j].productId
  }

  /** Every line names a product of the catalogue (the foreign key). */
  predicate Covers(catalog: Catalog, lines: seq<Line>) {
    forall i :: 0 <= i < |lines| ==> lines[i].productId in catalog
  }

  /** The quantity each product id is given; a later line overrides an
      earlier one, as building a dictionary from the lines does. */
  function QuantityMap(lines: seq<Line>): map<ProductId, int> {
    if lines == [] then map[]
    else
      var last := lines[|lines| - 1];
      QuantityMap(lines[..|lines| - 1])[last.productId := last.quantity]
  }

  /** The position of the last line for `pid`: the line a dictionary
      built from the lines keeps. */
  function LastIndex(lines: seq<Line>, pid: ProductId): (k: Option<nat>)
    ensures k.Some? ==> k.value < |lines| && lines[k.value].productId == pid
    ensures k.Some? ==> forall j :: k.value < j < |lines| ==> lines[j].productId != pid
    ensures k.None? ==> forall j :: 0 <= j < |lines| ==> lines[j].productId != pid
  {
    if lines == [] then None
    else if lines[|lines| - 1].productId == pid then Some(|lines| - 1)
    else LastIndex(lines[..|lines| - 1], pid)
  }

  /** The map holds exactly the quantity of the last line for each id, and
      no other id. */
  lemma {:induction false} QuantityMapLast(lines: seq<Line>, pid: ProductId)
    ensures LastIndex(lines, pid).Some? ==>
      pid in QuantityMap(lines) && QuantityMap(lines)[pid] == lines[LastIndex(lines, pid).value].quantity
    ensures LastIndex(lines, pid).None? ==> pid !in QuantityMap(lines)
  {
    if lines != [] && lines[|lines| - 1].productId != pid {
      QuantityMapLast(lines[..|lines| - 1], pid);
    }
  }

  /** With distinct products, the map gives each line's own quantity. */
  lemma QuantityMapOfUnique(lines: seq<Line>, i: nat)
    requires UniqueProducts(lines) && i < |lines|
    ensures lines[i].productId in QuantityMap(lines)
    ensures QuantityMap(lines)[lines[i].productId] == lines[i].quantity
  {
    QuantityMapLast(lines, lines[i].productId);
  }

  /** The map of two lists one after the other: the second one's entries
      override the first one's. */
  lemma {:induction false} QuantityMapAppend(a: seq<Line>, b: seq<Line>)
    ensures QuantityMap(a + b) == QuantityMap(a) + QuantityMap(b)
    decreases |b|
  {
    if b == [] {
      assert a + b == a;
      assert QuantityMap(b) == map[];
      assert QuantityMap(a) + map[] == QuantityMap(a);
    } else {
      var b' := b[..|b| - 1];
      assert (a + b)[..|a + b| - 1] == a + b';
      QuantityMapAppend(a, b');
    }
  }

  lemma QuantityMapSingle(x: Line)
    ensures QuantityMap([x]) == map[x.productId := x.quantity]
  {
    assert [x][..0] == [];
  }

  /** Rewriting the last line of an id rewrites that id in the map. */
  lemma {:induction false} QuantityMapSetLast(lines: seq<Line>, k: nat, q: int)
    requires k < |lines|
    requires forall j :: k < j < |lines| ==> lines[j].productId != lines[k].productId
    ensures QuantityMap(lines[k := Line(lines[k].productId, q)]) ==
      QuantityMap(lines)[lines[k].productId := q]
  {
    var pid := lines[k].productId;
    var lines' := lines[k := Line(pid, q)];
    var init := lines[..|lines| - 1];
    var last := lines[|lines| - 1];
    assert QuantityMap(lines) == QuantityMap(init)[last.productId := last.quantity];
    if k == |lines| - 1 {
      assert lines'[..|lines'| - 1] == init;
      assert QuantityMap(lines') == QuantityMap(init)[pid := q];
    } else {
      assert lines'[..|lines'| - 1] == init[k := Line(pid, q)];
      QuantityMapSetLast(init, k, q);
      assert last.productId != pid;
      assert lines'[|lines'| - 1] == last;
      assert QuantityMap(lines') == QuantityMap(init[k := Line(pid, q)])[last.productId := last.quantity];
    }
  }

  /** `Cart.total_items` and `Cart.get_total_items`: the sum of the line
      quantities. */
  function TotalItems(lines: seq<Line>): int {
    if lines == [] then 0
    else TotalItems(lines[..|lines| - 1]) + lines[|lines| - 1].quantity
  }

  /** `CartItem.subtotal`: the undiscounted price times the quantity. */
  function Subtotal(p: Product, quantity: int): real {
    p.price * quantity as real
  }

  /** `CartItem.get_total_price`: the discounted price times the quantity. */
  function LineTotal(p: Product, quantity: int): real {
    ListedPrice(p) * quantity as real
  }

  /** The discount on one line: the discount amount times the quantity. */
  function LineDiscount(p: Product, quantity: int): real {
    DiscountAmount(p) * quantity as real
  }

  lemma LineSplit(p: Product, quantity: int)
    ensures LineTotal(p, quantity) + LineDiscount(p, quantity) == Subtotal(p, quantity)
  {
    var q := quantity as real;
    assert ListedPrice(p) * q + (p.price - ListedPrice(p)) * q == p.price * q;
  }

  /** `Cart.total_price`: the sum of the subtotals. */
  function TotalPrice(catalog: Catalog, lines: seq<Line>): real
    requires Covers(catalog, lines)
  {
    if lines == [] then 0.0
    else
      var last := lines[|lines| - 1];
      TotalPrice(catalog, lines[..|lines| - 1]) + Subtotal(catalog[last.productId], last.quantity)
  }

  /** `Cart.get_total_price`: the sum of the discounted line totals. */
  function GetTotalPrice(catalog: Catalog, lines: seq<Line>): real
    requires Covers(catalog, lines)
  {
    if lines == [] then 0.0
    else
      var last := lines[|lines| - 1];
      GetTotalPrice(catalog, lines[..|lines| - 1]) + LineTotal(catalog[last.productId], last.quantity)
  }

  /** The discount the cart saves: each line's discount amount times its
      quantity. */
  function TotalDiscount(catalog: Catalog, lines: seq<Line>): real
    requires Covers(catalog, lines)
  {
    if lines == [] then 0.0
    else
      var last := lines[|lines| - 1];
      TotalDiscount(catalog, lines[..|lines| - 1]) + LineDiscount(catalog[last.productId], last.quantity)
  }

  /** Every product has a non-negative price with one decimal place and a
      discount between 0 and 100: the values the admin accepts. */
  predicate SanePrices(catalog: Catalog) {
    forall pid :: pid in catalog ==>
      catalog[pid].price >= 0.0 && OnTenthGrid(catalog[pid].price) &&
      0.0 <= catalog[pid].discount <= 100.0
  }

  /** Every line has a non-negative quantity. */
  predicate NonNegative(lines: seq<Line>) {
    forall i :: 0 <= i < |lines| ==> lines[i].quantity >= 0
  }

  /** The item count adds up over a split of the lines. */
  lemma {:induction false} TotalItemsAppend(a: seq<Line>, b: seq<Line>)
    ensures TotalItems(a + b) == TotalItems(a) + TotalItems(b)
    decreases |b|
  {
    if b == [] {
      assert a + b == a;
    } else {
      var b' := b[..|b| - 1];
      assert (a + b)[..|a + b| - 1] == a + b';
      TotalItemsAppend(a, b');
    }
  }

  /** With non-negative quantities the count is non-negative and no line
      holds more items than the whole cart. */
  lemma {:induction false} TotalItemsBounds(lines: seq<Line>)
    requires NonNegative(lines)
    ensures TotalItems(lines) >= 0
    ensures forall i :: 0 <= i < |lines| ==> lines[i].quantity <= TotalItems(lines)
  {
    if lines != [] {
      var init := lines[..|lines| - 1];
      TotalItemsBounds(init);
      forall i | 0 <= i < |lines| ensures lines[i].quantity <= TotalItems(lines) {
        if i < |lines| - 1 {
          assert lines[i] == init[i];
        }
      }
    }
  }

  /** The undiscounted total is the discounted total plus the discount. */
  lemma {:induction false} TotalsDifferByDiscount(catalog: Catalog, lines: seq<Line>)
    requires Covers(catalog, lines)
    ensures TotalPrice(catalog, lines) == GetTotalPrice(catalog, lines) + TotalDiscount(catalog, lines)
  {
    if lines != [] {
      var init := lines[..|lines| - 1];
      var last := lines[|lines| - 1];
      TotalsDifferByDiscount(catalog, init);
      LineSplit(catalog[last.productId], last.quantity);
    }
  }

  /** With sane prices and quantities, the discounted total is between 0
      and the undiscounted total. */
  lemma {:induction false} DiscountedTotalBounds(catalog: Catalog, lines: seq<Line>)
    requires Covers(catalog, lines) && SanePrices(catalog) && NonNegative(lines)
    ensures 0.0 <= GetTotalPrice(catalog, lines) <= TotalPrice(catalog, lines)
  {
    if lines != [] {
      var init := lines[..|lines| - 1];
      var last := lines[|lines| - 1];
      var p := catalog[last.productId];
      assert NonNegative(init) by {
        forall i | 0 <= i < |init| ensures init[i].quantity >= 0 {
          assert init[i] == lines[i];
        }
      }
      assert p.price >= 0.0 && OnTenthGrid(p.price) && 0.0 <= p.discount <= 100.0;
      DiscountedTotalBounds(catalog, init);
      LineBounds(p, last.quantity);
    }
  }

  /** One line's discounted total is between 0 and its subtotal. */
  lemma LineBounds(p: Product, quantity: int)
    requires p.price >= 0.0 && OnTenthGrid(p.price) && 0.0 <= p.discount <= 100.0
    requires quantity >= 0
    ensures 0.0 <= LineTotal(p, quantity) <= Subtotal(p, quantity)
  {
    DiscountAmountBounds(p);
    NonNegativeProduct(ListedPrice(p), quantity as real);
    NonNegativeProduct(DiscountAmount(p), quantity as real);
    LineSplit(p, quantity);
  }

  lemma NonNegativeProduct(x: real, q: real)
    requires x >= 0.0 && q >= 0.0
    ensures x * q >= 0.0
  {
  }

  /** Without discounts the two totals agree. */
  lemma {:induction false} TotalsAgreeWithoutDiscount(catalog: Catalog, lines: seq<Line>)
    requires Covers(catalog, lines)
    requires forall pid :: pid in catalog ==> catalog[pid].discount == 0.0 && OnTenthGrid(catalog[pid].price)
    ensures GetTotalPrice(catalog, lines) == TotalPrice(catalog, lines)
  {
    if lines != [] {
      var last := lines[|lines| - 1];
      PriceWithoutDiscount(catalog[last.productId]);
      TotalsAgreeWithoutDiscount(catalog, lines[..|lines| - 1]);
    }
  }

  /** Two products priced 1000 and 2000 held twice and once: three items,
      4000 by either total; three of the first product make a subtotal of
      3000. */
  lemma CartTotalsExample()
    ensures var catalog := map[1 := Product(1, "Product1", "product1", 1000.0, 0.0, "2", 10, true),
                               2 := Product(2, "Product2", "product2", 2000.0, 0.0, "3", 5, true)];
      var lines := [Line(1, 2), Line(2, 1)];
      && TotalItems(lines) == 3
      && TotalPrice(catalog, lines) == 4000.0
      && GetTotalPrice(catalog, lines) == 4000.0
      && Subtotal(catalog[1], 3) == 3000.0
      && LineTotal(catalog[1], 3) == 3000.0
  {
    var catalog := map[1 := Product(1, "Product1", "product1", 1000.0, 0.0, "2", 10, true),
                       2 := Product(2, "Product2", "product2", 2000.0, 0.0, "3", 5, true)];
    var lines := [Line(1, 2), Line(2, 1)];
    assert lines[..1] == [Line(1, 2)];
    assert lines[..1][..0] == [];
    PriceWithoutDiscount(catalog[1]);
    PriceWithoutDiscount(catalog[2]);
    TotalsAgreeWithoutDiscount(catalog, lines);
  }

  /** The persisted carts, one per user: each Cart with its CartItem rows
      (in the order they were created). */
  class CartTable {
    var carts: map<UserId, seq<Line>>

    /** The `(cart, product)` uniqueness holds in every cart. */
    ghost predicate Valid()
      reads this
    {
      forall u :: u in carts ==> UniqueProducts(carts[u])
    }

    constructor ()
      ensures carts == map[] && Valid()
    {
      carts := map[];
    }

    /** `Cart.objects.get_or_create(user=user)`. */
    method GetOrCreate(user: UserId)
      requires Valid()
      modifies this
      ensures Valid()
      ensures carts == if user in old(carts) then old(carts) else old(carts)[user := []]
    {
      if user !in carts {
        carts := carts[user := []];
      }
    }

    /** The user's cart holds `rows` once the writes are committed; other
        users' carts are untouched. */
    method Store(user: UserId, rows: seq<Line>)
      requires Valid() && UniqueProducts(rows)
      modifies this
      ensures Valid()
      ensures carts == old(carts)[user := rows]
    {
      carts := carts[user := rows];
    }

    /** `cart.items.all().delete()`: the user's cart keeps no item. */
    method DeleteItems(user: UserId)
      requires Valid() && user in carts
      modifies this
      ensures Valid()
      ensures carts == old(carts)[user := []]
    {
      carts := carts[user := []];
    }
  }
}

=== FILE: cart_session.dfy ===
/** The session cart of core/cart/cart.py: `CartSession` keeps the cart in
    the visitor's session as a list of lines, edits it in place, writes the
    session only when something changed, prices it against the catalogue
    and reconciles it with the user's persisted cart. */
module CartSessions {
  import opened Python
  import opened Shop
  import opened Accounts
  import opened CartModels
  import opened CartSpec

  /** The parts of the visitor's session the shop uses. `hasCart` says
      whether the "cart" key exists, `items` is its "items" list (None when
      the key is missing or holds something else than a list), `modified`
      is the flag that makes the framework write the session, and
      `lastOrderId` the "last_order_id" key of the checkout. */
  class Session {
    var hasCart: bool
    var items: Option<seq<Line>>
    var modified: bool
    var lastOrderId: Option<nat>

    /** A session whose cart lines name each product at most once: the
        shape every operation of CartSession keeps. */
    ghost predicate WellFormed()
      reads this
    {
      items.Some? ==> UniqueProducts(items.value)
    }

    constructor (hasCart: bool, items: Option<seq<Line>>, lastOrderId: Option<nat>)
      ensures this.hasCart == hasCart && this.items == items && this.lastOrderId == lastOrderId
      ensures !modified
    {
      this.hasCart := hasCart;
      this.items := items;
      this.lastOrderId := lastOrderId;
      modified := false;
    }
  }

  class CartSession {
    const session: Session
    /** The Product table, which no operation of the cart changes. */
    const catalog: Catalog
    /** `_modified`: a change not yet reported to the session. */
    var pending: bool
    /** `_product_cache`: products already looked up, by id. */
    var cache: map<ProductId, Product>
    /** `_products_loaded_for_items`. */
    var loaded: bool

    /** The cart key exists, its lines name each product once, and the
        cache holds only available products as the catalogue has them. */
    ghost predicate Valid()
      reads this, session
    {
      && session.hasCart
      && session.WellFormed()
      && forall pid :: pid in cache ==> Lookup(catalog, pid) == Some(cache[pid])
    }

    /** The cart lines; a missing list reads as empty. */
    function Items(): seq<Line>
      reads session
    {
      if session.items.Some? then session.items.value else []
    }

    /** `CartSession(session)`: `setdefault` creates an empty cart (and
        marks the session modified) when the session has none. */
    constructor (session: Session, catalog: Catalog)
      requires session.WellFormed()
      modifies session
      ensures this.session == session && this.catalog == catalog
      ensures Valid() && !pending && cache == map[] && !loaded
      ensures session.items == if old(session.hasCart) then old(session.items) else Some([])
      ensures session.modified == (old(session.modified) || !old(session.hasCart))
      ensures session.lastOrderId == old(session.lastOrderId)
    {
      this.session := session;
      this.catalog := catalog;
      pending := false;
      cache := map[];
      loaded := false;
      new;
      if !session.hasCart {
        session.hasCart := true;
        session.items := Some([]);
        session.modified := true;
      }
    }

    /** `_save_marked`: report a pending change to the session. */
    method SaveMarked()
      modifies this`pending, session`modified
      ensures !pending
      ensures session.modified == (old(session.modified) || old(pending))
    {
      if pending {
        session.modified := true;
        pending := false;
      }
    }

    /** `_ensure_cart_items_list`: a missing list becomes an empty one,
        which is a change. */
    method EnsureItemsList() returns (items: seq<Line>)
      requires Valid()
      modifies this`pending, session`items
      ensures Valid()
      ensures items == old(Items()) && session.items == Some(items)
      ensures pending == (old(pending) || old(session.items).None?)
    {
      if session.items.None? {
        session.items := Some([]);
        pending := true;
      }
      items := session.items.value;
    }

    /** `_load_products_for_items`: once per instance, replace the cache by
        the available products among the cart lines. */
    method LoadProductsForItems()
      requires Valid()
      modifies this`pending, this`cache, this`loaded, session`items
      ensures Valid() && loaded
      ensures Items() == old(Items())
      ensures old(loaded) ==> session.items == old(session.items) && cache == old(cache) && pending == old(pending)
      ensures !old(loaded) ==> session.items == Some(old(Items())) && pending == (old(pending) || old(session.items).None?)
      ensures !old(loaded) && old(Items()) != [] ==>
        cache == map pid | pid in QuantityMap(old(Items())) && Available(catalog, pid) :: catalog[pid]
      ensures !old(loaded) && old(Items()) == [] ==> cache == old(cache)
    {
      if loaded {
        return;
      }
      var items := EnsureItemsList();
      if items == [] {
        loaded := true;
        return;
      }
      var ids := QuantityMap(items).Keys;
      cache := map pid | pid in ids && Available(catalog, pid) :: catalog[pid];
      loaded := true;
    }

    /** `_get_product`: the cached product, or a lookup that is cached
        when it finds an available product. */
    method GetProduct(pid: ProductId) returns (p: Option<Product>)
      requires Valid()
      modifies this`cache
      ensures Valid()
      ensures p == Lookup(catalog, pid)
      ensures cache == if p.Some? then old(cache)[pid := p.value] else old(cache)
    {
      if pid in cache {
        p := Some(cache[pid]);
        assert cache[pid := p.value] == cache;
        return;
      }
      p := Lookup(catalog, pid);
      if p.Some? {
        cache := cache[pid := p.value];
      }
    }

    /** `add_product`: refused for a missing or unavailable product and when
        stock does not allow one more unit; otherwise the last line for the
        product grows by one, or a line with quantity 1 is appended, and
        the session is written. */
    method AddProduct(pid: ProductId) returns (added: bool)
      requires Valid()
      modifies this`cache, this`pending, session`items, session`modified
      ensures Valid()
      ensures added == (Lookup(catalog, pid).Some? && Added(old(Items()), pid, catalog[pid].stock).Some?)
      ensures added ==> Items() == Added(old(Items()), pid, catalog[pid].stock).value
      ensures added ==> !pending && session.modified
      ensures !added ==> Items() == old(Items()) && session.modified == old(session.modified)
      ensures Lookup(catalog, pid).None? ==> session.items == old(session.items) && pending == old(pending)
      ensures Lookup(catalog, pid).Some? && !added ==>
        session.items == Some(old(Items())) && pending == (old(pending) || old(session.items).None?)
      ensures session.lastOrderId == old(session.lastOrderId)
    {
      var product := GetProduct(pid);
      if product.None? {
        return false;
      }
      var stock := product.value.stock;
      var items := EnsureItemsList();
      AddedQuantities(items, pid, stock);
      var grown := AddLine(items, pid, stock);
      if grown.None? {
        return false;
      }
      pending := true;
      session.items := Some(grown.value);
      SaveMarked();
      added := true;
    }

    /** The line edit of `add_product`: the last line for the product grows
        by one, or a line with quantity 1 is appended, unless stock does
        not allow it. */
    static method AddLine(items: seq<Line>, pid: ProductId, stock: nat) returns (grown: Option<seq<Line>>)
      ensures grown == Added(items, pid, stock)
    {
      var existing := LastIndex(items, pid);
      if existing.Some? {
        var k := existing.value;
        if items[k].quantity + 1 > stock {
          return None;
        }
        grown := Some(items[k := Line(pid, items[k].quantity + 1)]);
      } else {
        if stock < 1 {
          return None;
        }
        grown := Some(items + [Line(pid, 1)]);
      }
    }

    /** The first line for `pid`, found by a scan that stops there. */
    static method FindFirst(items: seq<Line>, pid: ProductId) returns (k: Option<nat>)
      ensures k == FirstIndex(items, pid)
    {
      var i := 0;
      while i < |items| && items[i].productId != pid
        invariant 0 <= i <= |items|
        invariant forall j :: 0 <= j < i ==> items[j].productId != pid
      {
        i := i + 1;
      }
      k := if i < |items| then Some(i) else None;
      FirstIndexAt(items, pid, i);
    }

    /** `update_product_quantity`: a value that `int()` rejects changes
        nothing; otherwise the first line for the product takes the new
        quantity, without any stock or lower bound, and the session is
        written only if the quantity differed. */
    method UpdateProductQuantity(pid: ProductId, quantity: Value)
      requires Valid()
      modifies this`pending, session`items, session`modified
      ensures Valid()
      ensures IntOf(quantity).None? ==>
        session.items == old(session.items) && pending == old(pending) && session.modified == old(session.modified)
      ensures IntOf(quantity).Some? ==> Items() == Updated(old(Items()), pid, IntOf(quantity).value)
      ensures IntOf(quantity).Some? ==>
        && !pending
        && session.modified == (old(session.modified) || old(pending) || old(session.items).None? || Items() != old(Items()))
    {
      var q := IntOf(quantity);
      if q.None? {
        return;
      }
      var newQ := q.value;
      var items := EnsureItemsList();
      UpdatedQuantities(items, pid, newQ);
      var updated, changed := SetQuantity(items, pid, newQ);
      if changed {
        pending := true;
      }
      session.items := Some(updated);
      SaveMarked();
    }

    /** The line edit of `update_product_quantity`: the first line for the
        product takes the new quantity; `changed` says whether it differed. */
    static method SetQuantity(items: seq<Line>, pid: ProductId, q: int) returns (updated: seq<Line>, changed: bool)
      ensures updated == Updated(items, pid, q)
      ensures changed <==> updated != items
    {
      updated, changed := items, false;
      var k := FindFirst(items, pid);
      if k.Some? {
        if items[k.value].quantity != q {
          updated, changed := items[k.value := Line(pid, q)], true;
          assert updated[k.value] != items[k.value];
        } else {
          assert items[k.value := Line(pid, q)] == items;
        }
      }
    }

    /** `decrease_product_quantity`: the first line for the product loses
        one unit when it holds more than one; otherwise nothing changes. */
    method DecreaseProductQuantity(pid: ProductId) returns (decreased: bool)
      requires Valid()
      modifies this`pending, session`items, session`modified
      ensures Valid()
      ensures decreased == Decreased(old(Items()), pid).Some?
      ensures decreased ==> Items() == Decreased(old(Items()), pid).value && !pending && session.modified
      ensures !decreased ==>
        && Items() == old(Items())
        && session.modified == old(session.modified)
        && pending == (old(pending) || old(session.items).None?)
    {
      var items := EnsureItemsList();
      DecreasedQuantities(items, pid);
      var lowered := DecreaseLine(items, pid);
      if lowered.None? {
        return false;
      }
      pending := true;
      session.items := Some(lowered.value);
      SaveMarked();
      return true;
    }

    /** The line edit of `decrease_product_quantity`: the first line for
        the product loses one unit when it holds more than one. */
    static method DecreaseLine(items: seq<Line>, pid: ProductId) returns (lowered: Option<seq<Line>>)
      ensures lowered == Decreased(items, pid)
    {
      var k := FindFirst(items, pid);
      if k.Some? {
        var i := k.value;
        if items[i].quantity > 1 {
          return Some(items[i := Line(pid, items[i].quantity - 1)]);
        }
        return None;
      }
      return None;
    }

    /** `remove_product`: the first line for the product is dropped. */
    method RemoveProduct(pid: ProductId)
      requires Valid()
      modifies this`pending, session`items, session`modified
      ensures Valid()
      ensures Items() == Removed(old(Items()), pid)
      ensures !pending
      ensures session.modified == (old(session.modified) || old(pending) || old(session.items).None? ||
                                   pid in QuantityMap(old(Items())))
    {
      var items := EnsureItemsList();
      RemovedQuantities(items, pid);
      QuantityMapLast(items, pid);
      var k := FindFirst(items, pid);
      if k.Some? {
        var i := k.value;
        items := items[..i] + items[i + 1..];
        pending := true;
      }
      session.items := Some(items);
      SaveMarked();
    }

    /** `clear`: an empty cart, an empty cache, and a written session. */
    method Clear()
      requires Valid()
      modifies this, session
      ensures Valid()
      ensures session.hasCart && session.items == Some([]) && cache == map[] && loaded
      ensures !pending && session.modified
      ensures session.lastOrderId == old(session.lastOrderId)
    {
      session.hasCart := true;
      session.items := Some([]);
      cache := map[];
      loaded := true;
      pending := true;
      SaveMarked();
    }

    /** `get_cart_items`: each line with its product, discounted total and
        discount when the product is available, bare otherwise. */
    method GetCartItems() returns (entries: seq<Entry>)
      requires Valid()
      modifies this`pending, this`cache, this`loaded, session`items
      ensures Valid()
      ensures Items() == old(Items()) && session.items.Some?
      ensures |entries| == |Items()|
      ensures forall i :: 0 <= i < |entries| ==> entries[i] == EntryFor(catalog, Items()[i])
      ensures pending == (old(pending) || old(session.items).None?)
      ensures loaded
    {
      var items := EnsureItemsList();
      LoadProductsForItems();
      entries := [];
      var i := 0;
      while i < |items|
        invariant Valid() && session.items == Some(items)
        invariant 0 <= i <= |items| && |entries| == i
        invariant forall j :: 0 <= j < i ==> entries[j] == EntryFor(catalog, items[j])
        invariant pending == (old(pending) || old(session.items).None?) && loaded
      {
        var pid := items[i].productId;
        var product := if pid in cache then Some(cache[pid]) else None;
        if product.None? {
          product := GetProduct(pid);
        }
        assert product == Lookup(catalog, pid);
        var entry;
        if product.None? {
          entry := Entry(items[i], None);
        } else {
          var p := product.value;
          entry := Entry(items[i], Some(Priced(p, LineTotal(p, items[i].quantity), LineDiscount(p, items[i].quantity))));
        }
        assert entry == EntryFor(catalog, items[i]);
        entries := entries + [entry];
        i := i + 1;
      }
    }

    /** `get_total_weight`. */
    method GetTotalWeight() returns (weight: int)
      requires Valid()
      modifies this`pending, this`cache, this`loaded, session`items
      ensures Valid()
      ensures Items() == old(Items()) && session.items.Some?
      ensures weight == TotalWeight(catalog, Items())
      ensures pending == (old(pending) || old(session.items).None?)
      ensures loaded
    {
      var items := EnsureItemsList();
      LoadProductsForItems();
      weight := 0;
      var i := 0;
      while i < |items|
        invariant Valid() && session.items == Some(items)
        invariant 0 <= i <= |items|
        invariant weight == TotalWeight(catalog, items[..i])
        invariant pending == (old(pending) || old(session.items).None?) && loaded
      {
        var pid := items[i].productId;
        var product := if pid in cache then Some(cache[pid]) else None;
        if product.None? {
          product := GetProduct(pid);
        }
        assert items[..i + 1][..i] == items[..i];
        if product.Some? {
          var w := match ParseInt(product.value.weight)
            case Some(n) => n
            case None => 0;
          weight := weight + w * items[i].quantity;
        }
        i := i + 1;
      }
      assert items[..|items|] == items;
    }

    /** `get_shipping_cost`: 100 per unit of weight. */
    method GetShippingCost() returns (cost: real)
      requires Valid()
      modifies this`pending, this`cache, this`loaded, session`items
      ensures Valid()
      ensures Items() == old(Items()) && session.items.Some?
      ensures cost == ShippingCost(catalog, Items())
      ensures pending == (old(pending) || old(session.items).None?)
      ensures loaded
    {
      var weight := GetTotalWeight();
      cost := weight as real * 100.0;
    }

    /** `get_total_price`: the sum of the annotated line totals, a bare
        line counting 0. */
    method GetTotalPrice() returns (total: real)
      requires Valid()
      modifies this`pending, this`cache, this`loaded, session`items
      ensures Valid()
      ensures Items() == old(Items()) && session.items.Some?
      ensures total == SessionPrice(catalog, Items())
      ensures pending == (old(pending) || old(session.items).None?)
      ensures loaded
    {
      var entries := GetCartItems();
      var items := Items();
      total := 0.0;
      var i := 0;
      while i < |entries|
        invariant 0 <= i <= |entries|
        invariant total == SessionPrice(catalog, items[..i])
      {
        assert items[..i + 1][..i] == items[..i];
        total := total + EntryPrice(entries[i]);
        i := i + 1;
      }
      assert items[..|items|] == items;
    }

    /** `get_total_quantity`: the sum of the line quantities. */
    method GetTotalQuantity() returns (count: int)
      requires Valid()
      modifies this`pending, session`items
      ensures Valid()
      ensures Items() == old(Items()) && session.items.Some?
      ensures count == TotalItems(Items())
      ensures pending == (old(pending) || old(session.items).None?)
    {
      var items := EnsureItemsList();
      count := 0;
      var i := 0;
      while i < |items|
        invariant 0 <= i <= |items|
        invariant count == TotalItems(items[..i])
      {
        assert items[..i + 1][..i] == items[..i];
        count := count + items[i].quantity;
        i := i + 1;
      }
      assert items[..|items|] == items;
    }

    /** `get_total_discount_amount`: the sum of the annotated line
        discounts, a bare line counting 0. */
    method GetTotalDiscountAmount() returns (total: real)
      requires Valid()
      modifies this`pending, this`cache, this`loaded, session`items
      ensures Valid()
      ensures Items() == old(Items()) && session.items.Some?
      ensures total == SessionDiscount(catalog, Items())
      ensures pending == (old(pending) || old(session.items).None?)
      ensures loaded
    {
      var entries := GetCartItems();
      var items := Items();
      total := 0.0;
      var i := 0;
      while i < |entries|
        invariant 0 <= i <= |entries|
        invariant total == SessionDiscount(catalog, items[..i])
      {
        assert items[..i + 1][..i] == items[..i];
        total := total + EntryDiscount(entries[i]);
        i := i + 1;
      }
      assert items[..|items|] == items;
    }

    /** `get_total_payment_amount`: the discounted total plus shipping. */
    method GetTotalPaymentAmount() returns (amount: real)
      requires Valid()
      modifies this`pending, this`cache, this`loaded, session`items
      ensures Valid()
      ensures Items() == old(Items()) && session.items.Some?
      ensures amount == SessionPrice(catalog, Items()) + ShippingCost(catalog, Items())
      ensures pending == (old(pending) || old(session.items).None?)
      ensures loaded
    {
      var itemsTotal := GetTotalPrice();
      var shipping := GetShippingCost();
      amount := itemsTotal + shipping;
    }

    /** The `session_map` of the merge: the quantity of each product id,
        a later line winning. */
    static method SessionMap(items: seq<Line>) returns (sessionMap: map<ProductId, int>)
      ensures sessionMap == QuantityMap(items)
    {
      sessionMap := map[];
      var i := 0;
      while i < |items|
        invariant 0 <= i <= |items|
        invariant sessionMap == QuantityMap(items[..i])
      {
        assert items[..i + 1][..i] == items[..i];
        sessionMap := sessionMap[items[i].productId := items[i].quantity];
        i := i + 1;
      }
      assert items[..|items|] == items;
    }

    /** The `to_create` and `to_update` lists of the merge, built one
        session product at a time: an available product not yet persisted
        is to be created, one persisted with another quantity is to be
        updated, an unavailable one is skipped. */
    static method PlanWrites(sessionMap: map<ProductId, int>, catalog: Catalog, existing: map<ProductId, int>)
      returns (toCreate: seq<Line>, toUpdate: map<ProductId, int>)
      ensures QuantityMap(toCreate) == CreatesFor(sessionMap, catalog, existing, sessionMap.Keys)
      ensures toUpdate == UpdatesFor(sessionMap, catalog, existing, sessionMap.Keys)
      ensures UniqueProducts(toCreate)
      ensures forall j :: 0 <= j < |toCreate| ==> toCreate[j].productId !in existing
    {
      toCreate := [];
      toUpdate := map[];
      var remaining := sessionMap.Keys;
      ghost var handled: set<ProductId> := {};
      while remaining != {}
        invariant remaining !! handled && remaining + handled == sessionMap.Keys
        invariant QuantityMap(toCreate) == CreatesFor(sessionMap, catalog, existing, handled)
        invariant toUpdate == UpdatesFor(sessionMap, catalog, existing, handled)
        invariant UniqueProducts(toCreate)
        invariant AllNamedIn(toCreate, handled - existing.Keys)
        decreases |remaining|
      {
        var pid :| pid in remaining;
        var qty := sessionMap[pid];
        PlanStep(sessionMap, catalog, existing, handled, pid);
        if Available(catalog, pid) {
          if pid in existing {
            if existing[pid] != qty {
              toUpdate := toUpdate[pid := qty];
            }
          } else {
            PlanCreate(toCreate, handled, existing.Keys, Line(pid, qty));
            toCreate := toCreate + [Line(pid, qty)];
          }
        }
        remaining := remaining - {pid};
        handled := handled + {pid};
      }
      assert handled == sessionMap.Keys;
      assert AllNamedIn(toCreate, sessionMap.Keys - existing.Keys);
    }

    /** `merge_session_cart_in_db`: for a signed-in user, make the
        persisted cart follow the session. An empty session empties it;
        otherwise the available session products are created or updated
        with the session quantity, persisted products absent from the
        session are deleted, and persisted products in the session whose
        product is unavailable are left as they are. Other users' carts do
        not change. */
    method MergeSessionCartInDb(user: Option<UserId>, db: CartTable)
      requires Valid() && db.Valid()
      modifies this`pending, session`items, db
      ensures Valid() && db.Valid()
      ensures Items() == old(Items())
      ensures user.None? ==> db.carts == old(db.carts) && session.items == old(session.items) && pending == old(pending)
      ensures user.Some? ==>
        && session.items == Some(old(Items()))
        && pending == (old(pending) || old(session.items).None?)
        && db.carts.Keys == old(db.carts).Keys + {user.value}
        && (forall u :: u in old(db.carts) && u != user.value ==> db.carts[u] == old(db.carts)[u])
        && QuantityMap(db.carts[user.value]) ==
             MergedCart(QuantityMap(old(Items())), catalog,
                        QuantityMap(if user.value in old(db.carts) then old(db.carts)[user.value] else []))
    {
      if user.None? {
        return;
      }
      var u := user.value;
      var items := EnsureItemsList();
      if items == [] {
        db.GetOrCreate(u);
        db.DeleteItems(u);
        assert QuantityMap(items) == map[];
        return;
      }
      var sessionMap := SessionMap(items);
      db.GetOrCreate(u);
      var rows := db.carts[u];
      assert rows == if u in old(db.carts) then old(db.carts)[u] else [];
      var newRows := WriteMerge(rows, sessionMap, catalog);
      db.Store(u, newRows);
      assert items == old(Items());
    }

    /** The writes of the merge inside `transaction.atomic()`: the planned
        rows are created, the planned quantities updated and the persisted
        products absent from the session deleted. The rows left hold the
        merged cart, one row per product. */
    static method WriteMerge(rows: seq<Line>, sessionMap: map<ProductId, int>, catalog: Catalog)
      returns (newRows: seq<Line>)
      requires UniqueProducts(rows)
      ensures UniqueProducts(newRows)
      ensures QuantityMap(newRows) == MergedCart(sessionMap, catalog, QuantityMap(rows))
    {
      var existing := QuantityMap(rows);
      var toCreate, toUpdate := PlanWrites(sessionMap, catalog, existing);
      newRows := rows + toCreate;
      newRows := WithQuantities(newRows, toUpdate);
      newRows := Without(newRows, existing.Keys - sessionMap.Keys);
      MergeWrites(rows, toCreate, sessionMap, catalog);
      AppendUnique(rows, toCreate);
      WithQuantitiesUnique(rows + toCreate, toUpdate);
      WithoutUnique(WithQuantities(rows + toCreate, toUpdate), existing.Keys - sessionMap.Keys);
    }

    /** `sync_cart_items_from_db`: for a signed-in user, pull the persisted
        rows into the session (a product already there takes the persisted
        quantity, any other is appended), then merge the session back into
        the persisted cart and write the session. */
    method SyncCartItemsFromDb(user: Option<UserId>, db: CartTable)
      requires Valid() && db.Valid()
      modifies this`pending, session`items, session`modified, db
      ensures Valid() && db.Valid()
      ensures user.None? ==>
        && db.carts == old(db.carts) && session.items == old(session.items)
        && pending == old(pending) && session.modified == old(session.modified)
      ensures user.Some? ==>
        var rows := if user.value in old(db.carts) then old(db.carts)[user.value] else [];
        && Items() == SyncFold(old(Items()), QuantityMap(old(Items())).Keys, rows)
        && QuantityMap(Items()) == QuantityMap(old(Items())) + QuantityMap(rows)
        && db.carts.Keys == old(db.carts).Keys + {user.value}
        && (forall u :: u in old(db.carts) && u != user.value ==> db.carts[u] == old(db.carts)[u])
        && QuantityMap(db.carts[user.value]) == MergedCart(QuantityMap(Items()), catalog, QuantityMap(rows))
        && !pending
        && session.modified == (old(session.modified) || old(pending) || old(session.items).None? || rows != [])
    {
      if user.None? {
        return;
      }
      var u := user.value;
      var items := EnsureItemsList();
      var index := QuantityMap(items).Keys;
      db.GetOrCreate(u);
      var rows := db.carts[u];
      SyncQuantities(items, index, rows);
      forall j | 0 <= j < |rows| ensures rows[j].productId in index || rows[j].productId !in QuantityMap(items) {
      }
      SyncUnique(items, index, rows);
      var pulled := PullRows(items, index, rows);
      session.items := Some(pulled);
      MergeSessionCartInDb(user, db);
      SaveMarked();
    }

    /** The loop over the persisted rows: each row is pulled into the
        session lines, and each marks the cart modified. */
    method PullRows(items: seq<Line>, index: set<ProductId>, rows: seq<Line>) returns (pulled: seq<Line>)
      modifies this`pending
      ensures pulled == SyncFold(items, index, rows)
      ensures pending == (old(pending) || rows != [])
    {
      pulled := items;
      var i := 0;
      while i < |rows|
        invariant 0 <= i <= |rows|
        invariant SyncFold(pulled, index, rows[i..]) == SyncFold(items, index, rows)
        invariant pending == (old(pending) || i > 0)
      {
        SyncFoldAt(pulled, index, rows, i);
        pulled := PullRow(pulled, index, rows[i]);
        pending := true;
        i := i + 1;
      }
      assert rows[|rows|..] == [];
    }

    /** The body of the pull loop for one persisted row: a product in the
        index takes the row's quantity on its session line, any other row
        is appended. */
    static method PullRow(items: seq<Line>, index: set<ProductId>, row: Line) returns (pulled: seq<Line>)
      ensures pulled == SyncStep(items, index, row)
    {
      if row.productId in index {
        var k := LastIndex(items, row.productId);
        if k.Some? {
          pulled := items[k.value := Line(row.productId, row.quantity)];
        } else {
          pulled := items;
        }
      } else {
        pulled := items + [row];
      }
    }
  }
}

=== FILE: cart_spec.dfy ===
/** What the operations of the session cart (core/cart/cart.py) do to the
    list of `{"product_id", "quantity"}` lines, stated on values: the edit
    each mutating operation makes, the priced view the read operations
    build, the reverse sync and the reconciliation of the persisted cart.
    The class in cart_session.dfy is proved against these functions. */
module CartSpec {
  import opened Python
  import opened Shop
  import opened CartModels

  /** `Product.objects.get(id=pid, available=True)`: the product if it
      exists and is available. */
  function Lookup(catalog: Catalog, pid: ProductId): (r: Option<Product>)
    ensures r.Some? <==> pid in catalog && catalog[pid].available
    ensures r.Some? ==> r.value == catalog[pid]
  {
    if pid in catalog && catalog[pid].available then Some(catalog[pid]) else None
  }

  predicate Available(catalog: Catalog, pid: ProductId) {
    pid in catalog && catalog[pid].available
  }

  /** The position of the first line for `pid`, which a `for ... break`
      scan finds. */
  function FirstIndex(lines: seq<Line>, pid: ProductId): (k: Option<nat>)
    ensures k.Some? ==> k.value < |lines| && lines[k.value].productId == pid
    ensures k.Some? ==> forall j :: 0 <= j < k.value ==> lines[j].productId != pid
    ensures k.None? ==> forall j :: 0 <= j < |lines| ==> lines[j].productId != pid
  {
    if lines == [] then None
    else if lines[0].productId == pid then Some(0)
    else match FirstIndex(lines[1..], pid)
      case None => None
      case Some(k) => Some(k + 1)
  }

  /** The first line for `pid` is the one a scan stops at: the first
      position not passed over, or none when every line was passed. */
  lemma FirstIndexAt(lines: seq<Line>, pid: ProductId, i: nat)
    requires i <= |lines| && forall j :: 0 <= j < i ==> lines[j].productId != pid
    requires i < |lines| ==> lines[i].productId == pid
    ensures FirstIndex(lines, pid) == if i < |lines| then Some(i) else None
  {
  }

  /** The quantity the cart holds of `pid`, 0 when it is absent. */
  function Held(lines: seq<Line>, pid: ProductId): int {
    var m := QuantityMap(lines);
    if pid in m then m[pid] else 0
  }

  /** `add_product` on an available product with `stock` units: None when
      it refuses, otherwise the new lines. An existing line (the last one,
      which the index finds) grows by one while that stays within stock; a
      new product is appended with quantity 1 when stock is at least 1. */
  function Added(lines: seq<Line>, pid: ProductId, stock: nat): Option<seq<Line>> {
    match LastIndex(lines, pid)
    case Some(k) =>
      if lines[k].quantity + 1 > stock then None
      else Some(lines[k := Line(pid, lines[k].quantity + 1)])
    case None =>
      if stock < 1 then None else Some(lines + [Line(pid, 1)])
  }

  /** `update_product_quantity` with a parsed quantity: the first line for
      `pid` takes quantity `q`; without such a line nothing changes. */
  function Updated(lines: seq<Line>, pid: ProductId, q: int): seq<Line> {
    match FirstIndex(lines, pid)
    case Some(k) => lines[k := Line(pid, q)]
    case None => lines
  }

  /** `decrease_product_quantity`: the first line for `pid` loses one unit
      when it holds more than one; None when nothing is decreased. */
  function Decreased(lines: seq<Line>, pid: ProductId): Option<seq<Line>> {
    match FirstIndex(lines, pid)
    case Some(k) =>
      if lines[k].quantity > 1 then Some(lines[k := Line(pid, lines[k].quantity - 1)]) else None
    case None => None
  }

  /** `remove_product`: the first line for `pid` is dropped. */
  function Removed(lines: seq<Line>, pid: ProductId): seq<Line> {
    match FirstIndex(lines, pid)
    case Some(k) => lines[..k] + lines[k + 1..]
    case None => lines
  }

  // ---------- Quantity maps ----------

  /** In a list without repeated ids the first line of an id is its last. */
  lemma FirstIsLast(lines: seq<Line>, pid: ProductId)
    requires UniqueProducts(lines)
    ensures FirstIndex(lines, pid) == LastIndex(lines, pid)
  {
  }

  /** Adding succeeds exactly when the held quantity plus one stays within
      stock; then the held quantity grows by one and nothing else changes,
      and ids stay distinct. */
  lemma AddedQuantities(lines: seq<Line>, pid: ProductId, stock: nat)
    ensures Added(lines, pid, stock).Some? <==> Held(lines, pid) + 1 <= stock
    ensures Added(lines, pid, stock).Some? ==>
      QuantityMap(Added(lines, pid, stock).value) == QuantityMap(lines)[pid := Held(lines, pid) + 1]
    ensures Added(lines, pid, stock).Some? && UniqueProducts(lines) ==>
      UniqueProducts(Added(lines, pid, stock).value)
  {
    QuantityMapLast(lines, pid);
    match LastIndex(lines, pid)
    case Some(k) =>
      QuantityMapSetLast(lines, k, lines[k].quantity + 1);
    case None =>
      QuantityMapAppend(lines, [Line(pid, 1)]);
      QuantityMapSingle(Line(pid, 1));
  }

  /** The line-within-stock bound: every line of an available product holds
      at most its stock. */
  predicate WithinStock(catalog: Catalog, lines: seq<Line>) {
    forall i :: 0 <= i < |lines| && lines[i].productId in catalog ==>
      lines[i].quantity <= catalog[lines[i].productId].stock
  }

  /** Adding never takes a line above the stock of its product. */
  lemma AddedWithinStock(catalog: Catalog, lines: seq<Line>, pid: ProductId)
    requires pid in catalog && WithinStock(catalog, lines)
    ensures Added(lines, pid, catalog[pid].stock).Some? ==>
      WithinStock(catalog, Added(lines, pid, catalog[pid].stock).value)
  {
  }

  /** Setting a quantity changes the held quantity of that id only, and
      only when the cart holds it. */
  lemma UpdatedQuantities(lines: seq<Line>, pid: ProductId, q: int)
    requires UniqueProducts(lines)
    ensures QuantityMap(Updated(lines, pid, q)) ==
      if pid in QuantityMap(lines) then QuantityMap(lines)[pid := q] else QuantityMap(lines)
    ensures UniqueProducts(Updated(lines, pid, q))
    ensures pid !in QuantityMap(lines) ==> Updated(lines, pid, q) == lines
  {
    FirstIsLast(lines, pid);
    QuantityMapLast(lines, pid);
    if FirstIndex(lines, pid).Some? {
      QuantityMapSetLast(lines, FirstIndex(lines, pid).value, q);
    }
  }

  /** Decreasing succeeds exactly when the cart holds more than one unit
      of the product, and then takes one unit off. */
  lemma DecreasedQuantities(lines: seq<Line>, pid: ProductId)
    requires UniqueProducts(lines)
    ensures Decreased(lines, pid).Some? <==> Held(lines, pid) > 1
    ensures Decreased(lines, pid).Some? ==>
      QuantityMap(Decreased(lines, pid).value) == QuantityMap(lines)[pid := Held(lines, pid) - 1]
    ensures Decreased(lines, pid).Some? ==> UniqueProducts(Decreased(lines, pid).value)
  {
    FirstIsLast(lines, pid);
    QuantityMapLast(lines, pid);
    if FirstIndex(lines, pid).Some? {
      var k := FirstIndex(lines, pid).value;
      QuantityMapSetLast(lines, k, lines[k].quantity - 1);
    }
  }

  /** Taking one line out of a list whose other lines do not name its id
      takes that id out of the map. */
  lemma QuantityMapWithout(pre: seq<Line>, x: Line, post: seq<Line>)
    requires x.productId !in QuantityMap(pre) && x.productId !in QuantityMap(post)
    ensures QuantityMap(pre + post) == QuantityMap(pre + [x] + post) - {x.productId}
  {
    QuantityMapAppend(pre + [x], post);
    QuantityMapAppend(pre, [x]);
    QuantityMapAppend(pre, post);
    QuantityMapSingle(x);
  }

  /** Removing drops the product from the cart and keeps every other line,
      in order. */
  lemma RemovedQuantities(lines: seq<Line>, pid: ProductId)
    requires UniqueProducts(lines)
    ensures QuantityMap(Removed(lines, pid)) == QuantityMap(lines) - {pid}
    ensures UniqueProducts(Removed(lines, pid))
    ensures |Removed(lines, pid)| == if pid in QuantityMap(lines) then |lines| - 1 else |lines|
  {
    QuantityMapLast(lines, pid);
    FirstIsLast(lines, pid);
    match FirstIndex(lines, pid)
    case None =>
      assert QuantityMap(lines) - {pid} == QuantityMap(lines);
    case Some(k) =>
      RemovedLineQuantities(lines, k);
      RemovedUnique(lines, k);
  }

  /** Dropping the only line of a product drops its entry and nothing else. */
  lemma RemovedLineQuantities(lines: seq<Line>, k: nat)
    requires UniqueProducts(lines) && k < |lines|
    ensures QuantityMap(lines[..k] + lines[k + 1..]) == QuantityMap(lines) - {lines[k].productId}
  {
    var pid := lines[k].productId;
    var pre := lines[..k];
    var post := lines[k + 1..];
    assert lines == pre + [lines[k]] + post;
    assert forall j :: 0 <= j < |pre| ==> pre[j].productId != pid by {
      forall j | 0 <= j < |pre| ensures pre[j].productId != pid {
        assert pre[j] == lines[j];
      }
    }
    assert forall j :: 0 <= j < |post| ==> post[j].productId != pid by {
      forall j | 0 <= j < |post| ensures post[j].productId != pid {
        assert post[j] == lines[k + 1 + j];
      }
    }
    UnnamedAbsent(pre, pid);
    UnnamedAbsent(post, pid);
    QuantityMapWithout(pre, lines[k], post);
  }

  /** A product no line names has no entry in the map. */
  lemma {:induction false} UnnamedAbsent(lines: seq<Line>, pid: ProductId)
    requires forall j :: 0 <= j < |lines| ==> lines[j].productId != pid
    ensures pid !in QuantityMap(lines)
  {
    if lines != [] {
      var init := lines[..|lines| - 1];
      forall j | 0 <= j < |init| ensures init[j].productId != pid {
        assert init[j] == lines[j];
      }
      UnnamedAbsent(init, pid);
      assert lines[|lines| - 1].productId != pid;
    }
  }

  lemma RemovedUnique(lines: seq<Line>, k: nat)
    requires UniqueProducts(lines) && k < |lines|
    ensures UniqueProducts(lines[..k] + lines[k + 1..])
  {
    var r := lines[..k] + lines[k + 1..];
    forall i, j | 0 <= i < j < |r| ensures r[i].productId != r[j].productId {
      var i' := if i < k then i else i + 1;
      var j' := if j < k then j else j + 1;
      assert r[i] == lines[i'] && r[j] == lines[j'];
    }
  }

  // ---------- The priced view and the totals ----------

  /** The keys `get_cart_items` adds to a line whose product is available:
      the product, the discounted line total and the line's discount. */
  datatype Priced = Priced(product: Product, totalPrice: real, totalDiscount: real)

  /** A line as `get_cart_items` returns it; `priced` is None for a line
      whose product is missing or unavailable. */
  datatype Entry = Entry(line: Line, priced: Option<Priced>)

  /** The annotation of one line. The line total and the line discount add
      up to the undiscounted price of the line. */
  function EntryFor(catalog: Catalog, line: Line): (e: Entry)
    ensures e.line == line
    ensures e.priced.Some? <==> Available(catalog, line.productId)
    ensures e.priced.Some? ==> e.priced.value.product == catalog[line.productId]
    ensures e.priced.Some? ==>
      e.priced.value.totalPrice + e.priced.value.totalDiscount == Subtotal(catalog[line.productId], line.quantity)
  {
    match Lookup(catalog, line.productId)
    case None => Entry(line, None)
    case Some(p) =>
      LineSplit(p, line.quantity);
      Entry(line, Some(Priced(p, LineTotal(p, line.quantity), LineDiscount(p, line.quantity))))
  }

  function EntryPrice(e: Entry): real {
    if e.priced.Some? then e.priced.value.totalPrice else 0.0
  }

  function EntryDiscount(e: Entry): real {
    if e.priced.Some? then e.priced.value.totalDiscount else 0.0
  }

  /** The lines whose product is available, in order. */
  function AvailableLines(catalog: Catalog, lines: seq<Line>): (r: seq<Line>)
    ensures Covers(catalog, r)
    ensures forall i :: 0 <= i < |r| ==> Available(catalog, r[i].productId)
    ensures |r| <= |lines|
  {
    if lines == [] then []
    else
      var init := AvailableLines(catalog, lines[..|lines| - 1]);
      if Available(catalog, lines[|lines| - 1].productId) then init + [lines[|lines| - 1]] else init
  }

  /** `get_total_price`: the discounted totals of the priced lines. */
  function SessionPrice(catalog: Catalog, lines: seq<Line>): real {
    if lines == [] then 0.0
    else SessionPrice(catalog, lines[..|lines| - 1]) + EntryPrice(EntryFor(catalog, lines[|lines| - 1]))
  }

  /** `get_total_discount_amount`: the discounts of the priced lines. */
  function SessionDiscount(catalog: Catalog, lines: seq<Line>): real {
    if lines == [] then 0.0
    else SessionDiscount(catalog, lines[..|lines| - 1]) + EntryDiscount(EntryFor(catalog, lines[|lines| - 1]))
  }

  /** `int(product.weight)`, or 0 when the text is not an integer. */
  function WeightOf(p: Product): int {
    match ParseInt(p.weight)
    case Some(w) => w
    case None => 0
  }

  /** `get_total_weight`: weight times quantity over the available lines. */
  function TotalWeight(catalog: Catalog, lines: seq<Line>): int {
    if lines == [] then 0
    else
      var last := lines[|lines| - 1];
      TotalWeight(catalog, lines[..|lines| - 1]) +
        (if Available(catalog, last.productId) then WeightOf(catalog[last.productId]) * last.quantity else 0)
  }

  /** `get_shipping_cost`: 100 per unit of weight. */
  function ShippingCost(catalog: Catalog, lines: seq<Line>): real {
    TotalWeight(catalog, lines) as real * 100.0
  }

  /** The session totals are the persisted-cart totals of the available
      lines: lines of missing or unavailable products add nothing, and the
      discounted total plus the discount is the undiscounted total. */
  lemma {:induction false} SessionTotalsOfAvailable(catalog: Catalog, lines: seq<Line>)
    ensures SessionPrice(catalog, lines) == GetTotalPrice(catalog, AvailableLines(catalog, lines))
    ensures SessionDiscount(catalog, lines) == TotalDiscount(catalog, AvailableLines(catalog, lines))
    ensures SessionPrice(catalog, lines) + SessionDiscount(catalog, lines) ==
      TotalPrice(catalog, AvailableLines(catalog, lines))
  {
    if lines != [] {
      var init := lines[..|lines| - 1];
      var last := lines[|lines| - 1];
      var a := AvailableLines(catalog, init);
      SessionTotalsOfAvailable(catalog, init);
      if Available(catalog, last.productId) {
        var a' := a + [last];
        assert a'[..|a'| - 1] == a;
      }
    }
    TotalsDifferByDiscount(catalog, AvailableLines(catalog, lines));
  }

  /** A weight written as the decimal text of an integer counts as that
      integer. */
  lemma WeightOfNumeral(p: Product, w: int)
    requires p.weight == IntToString(w) && WithinStrDigits(w)
    ensures WeightOf(p) == w
  {
    ParseIntToString(w);
  }

  /** A weight written in Persian digits counts as `int()` reads it. */
  lemma WeightOfPersianNumeral(p: Product)
    requires p.weight == "\U{06F2}"
    ensures WeightOf(p) == 2
  {
    ParseOtherScripts();
  }

  /** `int()` skips no information separator, so a weight with one counts
      0, as does a weight of more than 4300 digits. */
  lemma WeightOfUnreadable(p: Product, n: nat)
    ensures p.weight == "\U{001C}2" ==> WeightOf(p) == 0
    ensures p.weight == NatToString(n) && |p.weight| > MaxStrDigits ==> WeightOf(p) == 0
  {
    ParseSeparators();
    if p.weight == NatToString(n) && |p.weight| > MaxStrDigits {
      TooManyDigits(n);
    }
  }

  /** The totals of a session cart with two units of a product priced 1000
      weighing 2 and one unit of a product priced 2000 weighing 3: three
      items, price 4000, weight 7, shipping 700, payment 4700. */
  lemma SessionTotalsExample()
    ensures var catalog := map[1 := Product(1, "Product1", "product1", 1000.0, 0.0, "2", 10, true),
                               2 := Product(2, "Product2", "product2", 2000.0, 0.0, "3", 5, true)];
      var lines := [Line(1, 2), Line(2, 1)];
      && TotalItems(lines) == 3
      && TotalWeight(catalog, lines) == 7
      && ShippingCost(catalog, lines) == 700.0
      && SessionPrice(catalog, lines) == 4000.0
      && SessionPrice(catalog, lines) + ShippingCost(catalog, lines) == 4700.0
  {
    var catalog := map[1 := Product(1, "Product1", "product1", 1000.0, 0.0, "2", 10, true),
                       2 := Product(2, "Product2", "product2", 2000.0, 0.0, "3", 5, true)];
    var lines := [Line(1, 2), Line(2, 1)];
    assert lines[..1] == [Line(1, 2)];
    assert lines[..1][..0] == [];
    WeightOfNumeral(catalog[1], 2);
    WeightOfNumeral(catalog[2], 3);
    PriceWithoutDiscount(catalog[1]);
    PriceWithoutDiscount(catalog[2]);
  }

  // ---------- Sync from the persisted cart ----------

  /** The last line for `pid` takes quantity `q`. */
  function SetLast(lines: seq<Line>, pid: ProductId, q: int): seq<Line> {
    match LastIndex(lines, pid)
    case Some(k) => lines[k := Line(pid, q)]
    case None => lines
  }

  /** One persisted row pulled into the session by
      `sync_cart_items_from_db`: a product already in the session (in
      `index`, built before the loop) takes the persisted quantity on its
      last line; any other product is appended. */
  function SyncStep(lines: seq<Line>, index: set<ProductId>, row: Line): seq<Line> {
    if row.productId in index then SetLast(lines, row.productId, row.quantity) else lines + [row]
  }

  /** The rows pulled in one after the other. */
  function SyncFold(lines: seq<Line>, index: set<ProductId>, rows: seq<Line>): seq<Line>
    decreases |rows|
  {
    if rows == [] then lines else SyncFold(SyncStep(lines, index, rows[0]), index, rows[1..])
  }

  /** Pulling the rows from position `i` on is pulling row `i`, then the
      rest. */
  lemma SyncFoldAt(lines: seq<Line>, index: set<ProductId>, rows: seq<Line>, i: nat)
    requires i < |rows|
    ensures SyncFold(lines, index, rows[i..]) == SyncFold(SyncStep(lines, index, rows[i]), index, rows[i + 1..])
  {
    assert rows[i..][1..] == rows[i + 1..];
  }

  lemma SyncStepQuantities(lines: seq<Line>, index: set<ProductId>, row: Line)
    requires forall pid :: pid in index ==> pid in QuantityMap(lines)
    ensures QuantityMap(SyncStep(lines, index, row)) == QuantityMap(lines)[row.productId := row.quantity]
  {
    if row.productId in index {
      QuantityMapLast(lines, row.productId);
      QuantityMapSetLast(lines, LastIndex(lines, row.productId).value, row.quantity);
    } else {
      QuantityMapAppend(lines, [row]);
      QuantityMapSingle(row);
    }
  }

  /** After the sync every persisted product is in the session with the
      persisted quantity, and every other product of the session keeps
      its quantity. */
  lemma {:induction false} SyncQuantities(lines: seq<Line>, index: set<ProductId>, rows: seq<Line>)
    requires forall pid :: pid in index ==> pid in QuantityMap(lines)
    ensures QuantityMap(SyncFold(lines, index, rows)) == QuantityMap(lines) + QuantityMap(rows)
    decreases |rows|
  {
    if rows == [] {
      assert QuantityMap(lines) + map[] == QuantityMap(lines);
    } else {
      var step := SyncStep(lines, index, rows[0]);
      SyncStepQuantities(lines, index, rows[0]);
      SyncQuantities(step, index, rows[1..]);
      assert SyncFold(lines, index, rows) == SyncFold(step, index, rows[1..]);
      assert [rows[0]] + rows[1..] == rows;
      QuantityMapAppend([rows[0]], rows[1..]);
      QuantityMapSingle(rows[0]);
      UpdateThenOverride(QuantityMap(lines), rows[0].productId, rows[0].quantity, QuantityMap(rows[1..]));
    }
  }

  /** Setting one key and then overriding with `n` is overriding with the
      one-key map followed by `n`. */
  lemma UpdateThenOverride(m: map<ProductId, int>, k: ProductId, v: int, n: map<ProductId, int>)
    ensures m[k := v] + n == m + (map[k := v] + n)
  {
  }

  lemma AbsentFromMap(lines: seq<Line>, pid: ProductId)
    requires pid !in QuantityMap(lines)
    ensures forall j :: 0 <= j < |lines| ==> lines[j].productId != pid
  {
    QuantityMapLast(lines, pid);
  }

  /** The sync appends no product twice: with distinct persisted rows and
      a session without repeated products, the session stays without
      repeated products. */
  lemma {:induction false} SyncUnique(lines: seq<Line>, index: set<ProductId>, rows: seq<Line>)
    requires UniqueProducts(lines) && UniqueProducts(rows)
    requires forall pid :: pid in index ==> pid in QuantityMap(lines)
    requires forall i :: 0 <= i < |rows| ==> rows[i].productId in index || rows[i].productId !in QuantityMap(lines)
    ensures UniqueProducts(SyncFold(lines, index, rows))
    decreases |rows|
  {
    if rows != [] {
      var r := rows[0];
      var step := SyncStep(lines, index, r);
      SyncStepQuantities(lines, index, r);
      if r.productId in index {
        QuantityMapLast(lines, r.productId);
      } else {
        AbsentFromMap(lines, r.productId);
      }
      assert UniqueProducts(step);
      forall i | 0 <= i < |rows[1..]|
        ensures rows[1..][i].productId in index || rows[1..][i].productId !in QuantityMap(step)
      {
        assert rows[1..][i] == rows[i + 1];
      }
      SyncUnique(step, index, rows[1..]);
    }
  }

  // ---------- Reconciliation of the persisted cart ----------

  /** What `merge_session_cart_in_db` leaves in the persisted cart, as a
      map from product id to quantity: a product of the session that is
      available gets the session quantity; a persisted product that is in
      the session but unavailable keeps its persisted quantity; every other
      persisted product is deleted. */
  function MergedCart(session: map<ProductId, int>, catalog: Catalog, existing: map<ProductId, int>): map<ProductId, int> {
    map pid | pid in session && (Available(catalog, pid) || pid in existing) ::
      if Available(catalog, pid) then session[pid] else existing[pid]
  }

  /** The rows to create for the session products in `done`: available,
      not yet persisted. */
  function CreatesFor(session: map<ProductId, int>, catalog: Catalog, existing: map<ProductId, int>, done: set<ProductId>): map<ProductId, int> {
    map pid | pid in done && pid in session && Available(catalog, pid) && pid !in existing :: session[pid]
  }

  /** The rows to update for the session products in `done`: available,
      persisted with another quantity. */
  function UpdatesFor(session: map<ProductId, int>, catalog: Catalog, existing: map<ProductId, int>, done: set<ProductId>): map<ProductId, int> {
    map pid | pid in done && pid in session && Available(catalog, pid) && pid in existing && existing[pid] != session[pid] :: session[pid]
  }

  /** Appending a line for a product the lines do not name keeps them
      without repeats and adds its entry to the map. */
  lemma AppendFresh(lines: seq<Line>, x: Line)
    requires UniqueProducts(lines)
    requires forall j :: 0 <= j < |lines| ==> lines[j].productId != x.productId
    ensures UniqueProducts(lines + [x])
    ensures QuantityMap(lines + [x]) == QuantityMap(lines)[x.productId := x.quantity]
  {
    QuantityMapAppend(lines, [x]);
    QuantityMapSingle(x);
  }

  /** Every line names a product of `s`. */
  predicate AllNamedIn(lines: seq<Line>, s: set<ProductId>) {
    forall j :: 0 <= j < |lines| ==> lines[j].productId in s
  }

  /** Planning the creation of a product not handled before keeps the
      planned rows without repeats and within the handled products. */
  lemma PlanCreate(toCreate: seq<Line>, done: set<ProductId>, persisted: set<ProductId>, x: Line)
    requires UniqueProducts(toCreate) && AllNamedIn(toCreate, done - persisted)
    requires x.productId !in done && x.productId !in persisted
    ensures UniqueProducts(toCreate + [x])
    ensures AllNamedIn(toCreate + [x], (done + {x.productId}) - persisted)
    ensures QuantityMap(toCreate + [x]) == QuantityMap(toCreate)[x.productId := x.quantity]
  {
    AppendFresh(toCreate, x);
  }

  /** Handling one more session product adds at most its own entry. */
  lemma PlanStep(session: map<ProductId, int>, catalog: Catalog, existing: map<ProductId, int>,
                 done: set<ProductId>, pid: ProductId)
    requires pid in session
    ensures CreatesFor(session, catalog, existing, done + {pid}) ==
      if Available(catalog, pid) && pid !in existing
      then CreatesFor(session, catalog, existing, done)[pid := session[pid]]
      else CreatesFor(session, catalog, existing, done)
    ensures UpdatesFor(session, catalog, existing, done + {pid}) ==
      if Available(catalog, pid) && pid in existing && existing[pid] != session[pid]
      then UpdatesFor(session, catalog, existing, done)[pid := session[pid]]
      else UpdatesFor(session, catalog, existing, done)
  {
  }

  /** `bulk_update(..., ["quantity"])`: the rows named in `updates` take
      their new quantity. */
  function WithQuantities(rows: seq<Line>, updates: map<ProductId, int>): (r: seq<Line>)
    ensures |r| == |rows| && forall i :: 0 <= i < |rows| ==> r[i].productId == rows[i].productId
  {
    if rows == [] then []
    else
      var last := rows[|rows| - 1];
      WithQuantities(rows[..|rows| - 1], updates) +
        [if last.productId in updates then Line(last.productId, updates[last.productId]) else last]
  }

  /** `filter(product__id__in=ids).delete()`: the rows of the other
      products, in order. */
  function Without(rows: seq<Line>, ids: set<ProductId>): (r: seq<Line>)
    ensures forall i :: 0 <= i < |r| ==> r[i].productId !in ids
  {
    if rows == [] then []
    else
      var last := rows[|rows| - 1];
      Without(rows[..|rows| - 1], ids) + (if last.productId in ids then [] else [last])
  }

  /** The entries of `updates` for products among `keys`. */
  function Restrict(updates: map<ProductId, int>, keys: set<ProductId>): map<ProductId, int> {
    map pid | pid in updates && pid in keys :: updates[pid]
  }

  /** The updated rows carry the new quantity of every product named in
      `updates`; the other products keep theirs. */
  lemma {:induction false} WithQuantitiesMap(rows: seq<Line>, updates: map<ProductId, int>)
    ensures QuantityMap(WithQuantities(rows, updates)) ==
      QuantityMap(rows) + Restrict(updates, QuantityMap(rows).Keys)
  {
    if rows == [] {
      assert Restrict(updates, {}) == map[];
    } else {
      var init := rows[..|rows| - 1];
      var last := rows[|rows| - 1];
      var r := WithQuantities(rows, updates);
      assert r[..|r| - 1] == WithQuantities(init, updates);
      WithQuantitiesMap(init, updates);
      var m0 := QuantityMap(init);
      assert QuantityMap(rows) == m0[last.productId := last.quantity];
      assert QuantityMap(r) == (m0 + Restrict(updates, m0.Keys))[last.productId := r[|r| - 1].quantity];
      RestrictStep(m0, updates, last.productId, last.quantity);
    }
  }

  /** One more row, possibly updated, in the quantity map of updated rows. */
  lemma RestrictStep(m: map<ProductId, int>, updates: map<ProductId, int>, k: ProductId, q: int)
    ensures (m + Restrict(updates, m.Keys))[k := if k in updates then updates[k] else q] ==
      m[k := q] + Restrict(updates, m[k := q].Keys)
  {
    var lhs := (m + Restrict(updates, m.Keys))[k := if k in updates then updates[k] else q];
    var rhs := m[k := q] + Restrict(updates, m[k := q].Keys);
    assert lhs.Keys == rhs.Keys;
    forall pid | pid in lhs ensures lhs[pid] == rhs[pid] {
      if pid != k {
        assert pid in m;
      }
    }
  }

  /** New quantities keep the products, so they keep them distinct. */
  lemma WithQuantitiesUnique(rows: seq<Line>, updates: map<ProductId, int>)
    requires UniqueProducts(rows)
    ensures UniqueProducts(WithQuantities(rows, updates))
  {
    var r := WithQuantities(rows, updates);
    forall i, j | 0 <= i < j < |r| ensures r[i].productId != r[j].productId {
      assert r[i].productId == rows[i].productId && r[j].productId == rows[j].productId;
    }
  }

  /** Deleting the rows of `ids` deletes exactly those products. */
  lemma {:induction false} WithoutMap(rows: seq<Line>, ids: set<ProductId>)
    ensures QuantityMap(Without(rows, ids)) == QuantityMap(rows) - ids
  {
    if rows == [] {
      assert QuantityMap(rows) == map[];
    } else {
      var init := rows[..|rows| - 1];
      var last := rows[|rows| - 1];
      WithoutMap(init, ids);
      var m0 := QuantityMap(init);
      if last.productId in ids {
        assert Without(rows, ids) == Without(init, ids) + [];
        assert Without(init, ids) + [] == Without(init, ids);
        MinusOverridden(m0, last.productId, last.quantity, ids);
      } else {
        var w := Without(rows, ids);
        assert w[..|w| - 1] == Without(init, ids);
        MinusKept(m0, last.productId, last.quantity, ids);
      }
    }
  }

  lemma MinusOverridden(m: map<ProductId, int>, k: ProductId, v: int, ids: set<ProductId>)
    requires k in ids
    ensures m[k := v] - ids == m - ids
  {
  }

  lemma MinusKept(m: map<ProductId, int>, k: ProductId, v: int, ids: set<ProductId>)
    requires k !in ids
    ensures m[k := v] - ids == (m - ids)[k := v]
  {
  }

  /** Deleting rows keeps the remaining products distinct. */
  lemma {:induction false} WithoutUnique(rows: seq<Line>, ids: set<ProductId>)
    requires UniqueProducts(rows)
    ensures UniqueProducts(Without(rows, ids))
  {
    if rows != [] {
      var init := rows[..|rows| - 1];
      var last := rows[|rows| - 1];
      WithoutUnique(init, ids);
      if last.productId !in ids {
        QuantityMapLast(init, last.productId);
        WithoutMap(init, ids);
        AbsentFromMap(Without(init, ids), last.productId);
      } else {
        assert Without(rows, ids) == Without(init, ids) + [];
      }
    }
  }

  /** Two lists without repeated products and without a product in common
      make one without repeated products. */
  lemma AppendUnique(a: seq<Line>, b: seq<Line>)
    requires UniqueProducts(a) && UniqueProducts(b)
    requires forall i :: 0 <= i < |b| ==> b[i].productId !in QuantityMap(a)
    ensures UniqueProducts(a + b)
  {
    forall i, j | 0 <= i < j < |a + b| ensures (a + b)[i].productId != (a + b)[j].productId {
      if i < |a| && j >= |a| {
        QuantityMapOfUnique(a, i);
        assert (a + b)[j] == b[j - |a|];
      }
    }
  }

  /** Creating the missing rows, updating the changed ones and deleting
      the products no longer in the session leaves exactly MergedCart. */
  lemma MergeWrites(rows: seq<Line>, toCreate: seq<Line>, session: map<ProductId, int>, catalog: Catalog)
    requires QuantityMap(toCreate) == CreatesFor(session, catalog, QuantityMap(rows), session.Keys)
    ensures QuantityMap(Without(WithQuantities(rows + toCreate,
                                               UpdatesFor(session, catalog, QuantityMap(rows), session.Keys)),
                                QuantityMap(rows).Keys - session.Keys)) ==
      MergedCart(session, catalog, QuantityMap(rows))
  {
    var em := QuantityMap(rows);
    var c := QuantityMap(toCreate);
    var u := UpdatesFor(session, catalog, em, session.Keys);
    var gone := em.Keys - session.Keys;
    QuantityMapAppend(rows, toCreate);
    WithQuantitiesMap(rows + toCreate, u);
    WithoutMap(WithQuantities(rows + toCreate, u), gone);
    assert Restrict(u, (em + c).Keys) == u;
    MergeMaps(em, session, catalog);
  }

  /** The same on maps: the persisted rows, overridden by the created
      ones and then by the updates, less the products gone from the
      session. */
  lemma MergeMaps(em: map<ProductId, int>, session: map<ProductId, int>, catalog: Catalog)
    ensures (em + CreatesFor(session, catalog, em, session.Keys) + UpdatesFor(session, catalog, em, session.Keys))
              - (em.Keys - session.Keys) == MergedCart(session, catalog, em)
  {
    var c := CreatesFor(session, catalog, em, session.Keys);
    var u := UpdatesFor(session, catalog, em, session.Keys);
    var got := (em + c + u) - (em.Keys - session.Keys);
    var want := MergedCart(session, catalog, em);
    forall pid ensures pid in got <==> pid in want {
      if pid in session {
        assert pid in got <==> pid in em || pid in c;
      }
    }
    forall pid | pid in got ensures got[pid] == want[pid] {
      if pid in u {
      } else if pid in c {
      } else {
        assert pid in em;
      }
    }
  }

  /** The merge that follows a sync changes no persisted quantity: the
      persisted cart keeps every row as it was and gains the available
      products found only in the session. */
  lemma SyncThenMerge(lines: seq<Line>, rows: seq<Line>, catalog: Catalog)
    ensures var merged := MergedCart(QuantityMap(lines) + QuantityMap(rows), catalog, QuantityMap(rows));
      && (forall pid :: pid in QuantityMap(rows) ==> pid in merged && merged[pid] == QuantityMap(rows)[pid])
      && (forall pid :: pid in merged && pid !in QuantityMap(rows) ==>
            pid in QuantityMap(lines) && Available(catalog, pid) && merged[pid] == QuantityMap(lines)[pid])
      && (forall pid :: pid in QuantityMap(lines) && Available(catalog, pid) ==> pid in merged)
  {
  }
}

=== FILE: checkout.dfy ===
/** Checkout of core/order/views.py and core/order/forms.py: the checks
    that gate the checkout page, turning the persisted cart into an order
    with frozen items, emptying both carts, the confirmation page that
    shows the new order once, and the checkout form's address choices and
    field checks. */
module Checkout {
  import opened Python
  import opened Shop
  import opened Accounts
  import opened CartModels
  import opened CartSpec
  import opened CartSessions
  import opened Addresses
  import opened Orders

  // ---------------------------------------------------------------------
  // CheckoutView.dispatch

  /** Where `CheckoutView.dispatch` sends the visitor. */
  datatype Gate = ToAddresses | ToCartSummary | Proceed

  /** `CheckoutView.dispatch`: a user without an address is sent to the
      address page, whatever the cart holds; then a user without a cart or
      with an empty one is sent to the cart summary. */
  function DispatchGate(rows: seq<Address>, carts: map<UserId, seq<Line>>, u: UserId): (g: Gate)
    ensures g == ToAddresses <==> !HasAddress(rows, u)
    ensures g == ToCartSummary <==> HasAddress(rows, u) && (u !in carts || carts[u] == [])
    ensures g == Proceed <==> HasAddress(rows, u) && u in carts && carts[u] != []
  {
    if !HasAddress(rows, u) then ToAddresses
    else if u !in carts || carts[u] == [] then ToCartSummary
    else Proceed
  }

  // ---------------------------------------------------------------------
  // CheckoutView.form_valid

  /** The order item a cart line becomes: the product's name and its
      discounted price at this moment, the quantity, and the line total. */
  function FrozenItem(catalog: Catalog, line: Line): (r: ItemRow)
    requires line.productId in catalog
    ensures r.productId == line.productId && r.quantity == line.quantity
    ensures r.subtotal == r.productPrice * line.quantity as real
  {
    var p := catalog[line.productId];
    ItemRow(line.productId, p.name, ListedPrice(p), line.quantity, LineTotal(p, line.quantity))
  }

  function Frozen(catalog: Catalog, lines: seq<Line>): (r: seq<ItemRow>)
    requires Covers(catalog, lines)
    ensures |r| == |lines| && forall i :: 0 <= i < |lines| ==> r[i] == FrozenItem(catalog, lines[i])
  {
    seq(|lines|, i requires 0 <= i < |lines| => FrozenItem(catalog, lines[i]))
  }

  function SumSubtotals(items: seq<ItemRow>): real {
    if items == [] then 0.0 else SumSubtotals(items[..|items| - 1]) + items[|items| - 1].subtotal
  }

  /** The order items add up to the order's subtotal: the cart's
      discounted total. */
  lemma {:induction false} FrozenSubtotals(catalog: Catalog, lines: seq<Line>)
    requires Covers(catalog, lines)
    ensures SumSubtotals(Frozen(catalog, lines)) == GetTotalPrice(catalog, lines)
  {
    if lines != [] {
      var init := lines[..|lines| - 1];
      assert Frozen(catalog, lines)[..|lines| - 1] == Frozen(catalog, init);
      FrozenSubtotals(catalog, init);
    }
  }

  /** Two units of a product priced 1000 with no discount and weight "2":
      the subtotal is 2000, shipping 400 and the total 2400. */
  lemma CheckoutExample(p: Product)
    requires p.price == 1000.0 && p.discount == 0.0 && p.weight == "2" && p.available
    ensures var catalog := map[p.id := p];
      var lines := [Line(p.id, 2)];
      && GetTotalPrice(catalog, lines) == 2000.0
      && ShippingCost(catalog, lines) == 400.0
      && GetTotalPrice(catalog, lines) + ShippingCost(catalog, lines) == 2400.0
      && SumSubtotals(Frozen(catalog, lines)) == 2000.0
  {
    var catalog := map[p.id := p];
    var lines := [Line(p.id, 2)];
    PriceWithoutDiscount(p);
    WeightOfNumeral(p, 2);
    assert lines[..0] == [];
    assert LineTotal(p, 2) == 2000.0;
    assert Available(catalog, p.id);
    assert TotalWeight(catalog, lines) == 4;
    FrozenSubtotals(catalog, lines);
  }

  // ---------------------------------------------------------------------
  // OrderConfirmationView.get_object

  /** What `get_object` finds: no order id in the session, the user's
      order with that id, or none (a 404). */
  datatype Shown = NoOrder | Found(index: nat) | Missing

  /** The position of order `id` when it belongs to `user`. */
  function FindOrder(orders: seq<Order>, id: nat, user: UserId): (k: Option<nat>)
    ensures k.Some? ==> k.value < |orders| && orders[k.value].id == id && orders[k.value].user == user
    ensures k.None? ==> forall i :: 0 <= i < |orders| ==> !(orders[i].id == id && orders[i].user == user)
  {
    if orders == [] then None
    else if orders[|orders| - 1].id == id && orders[|orders| - 1].user == user then Some(|orders| - 1)
    else FindOrder(orders[..|orders| - 1], id, user)
  }

  /** One visit of the confirmation page: what it finds and the session's
      "last_order_id" afterwards. A missing or zero id is left alone;
      otherwise the key is deleted before the lookup. */
  function ConfirmStep(orders: seq<Order>, user: UserId, last: Option<nat>): (Shown, Option<nat>) {
    if last.None? || last.value == 0 then (NoOrder, last)
    else
      match FindOrder(orders, last.value, user)
      case Some(k) => (Found(k), None)
      case None => (Missing, None)
  }

  /** The confirmation shows only an order of the visitor with the id the
      checkout stored, and it does so once: the next visit finds no id. */
  lemma {:induction false} ConfirmationReadsOnce(orders: seq<Order>, user: UserId, last: Option<nat>)
    ensures var (first, after) := ConfirmStep(orders, user, last);
      && (first.Found? ==>
            last.Some? && first.index < |orders| &&
            orders[first.index].id == last.value && orders[first.index].user == user)
      && (first.Missing? ==>
            last.Some? &&
            forall i :: 0 <= i < |orders| ==> !(orders[i].id == last.value && orders[i].user == user))
      && ConfirmStep(orders, user, after).0 == NoOrder
  {
  }

  /** What is passed to the template or answered instead. */
  datatype ShownObject = OrderObject(index: nat) | RedirectObject(target: string)
  datatype Response = Redirect(target: string) | Render(object: ShownObject) | NotFound404

  /** The response `DetailView` builds from what `get_object` returned:
      whatever the object is, it is rendered into the template. */
  function ResponseAsWritten(shown: Shown): Response {
    match shown
    case NoOrder => Render(RedirectObject("shop:product-list"))
    case Found(k) => Render(OrderObject(k))
    case Missing => NotFound404
  }

  /** A visit without an order id renders the confirmation page with a
      redirect response in place of the order instead of redirecting. */
  lemma NoOrderRendersRedirect(orders: seq<Order>, user: UserId)
    ensures ResponseAsWritten(ConfirmStep(orders, user, None).0) == Render(RedirectObject("shop:product-list"))
    ensures !ResponseAsWritten(ConfirmStep(orders, user, None).0).Redirect?
  {
  }

  /** The response the view evidently intends: a visit without an order
      id is redirected to the product list. */
  function Respond(shown: Shown): (r: Response)
    ensures r.Redirect? <==> shown.NoOrder?
    ensures r.Render? <==> shown.Found?
  {
    match shown
    case NoOrder => Redirect("shop:product-list")
    case Found(k) => Render(OrderObject(k))
    case Missing => NotFound404
  }

  /** After a confirmation page was shown, reloading it redirects. */
  lemma SecondVisitRedirects(orders: seq<Order>, user: UserId, last: Option<nat>)
    ensures Respond(ConfirmStep(orders, user, ConfirmStep(orders, user, last).1).0) == Redirect("shop:product-list")
  {
    ConfirmationReadsOnce(orders, user, last);
  }

  /** The loop of `form_valid` that creates one order item per cart
      line; each item recomputes its subtotal when saved. */
  method FreezeLines(catalog: Catalog, lines: seq<Line>) returns (items: seq<OrderItem>)
    requires Covers(catalog, lines)
    ensures |items| == |lines|
    ensures forall i :: 0 <= i < |items| ==> fresh(items[i]) && items[i].Row() == FrozenItem(catalog, lines[i])
  {
    items := [];
    var i := 0;
    while i < |lines|
      invariant 0 <= i <= |lines| && |items| == i
      invariant forall j :: 0 <= j < i ==> fresh(items[j]) && items[j].Row() == FrozenItem(catalog, lines[j])
    {
      var line := lines[i];
      var p := catalog[line.productId];
      var item := new OrderItem(line.productId, p.name, ListedPrice(p), line.quantity, LineTotal(p, line.quantity));
      item.Save();
      items := items + [item];
      i := i + 1;
    }
  }

  /** The tables checkout works on: the product catalogue, the addresses,
      the persisted carts, the visitor's session and the orders. */
  class Store {
    const catalog: Catalog
    const book: AddressBook
    const carts: CartTable
    const session: Session
    var orders: seq<Order>
    var nextOrderId: nat

    ghost predicate Valid()
      reads this, book, carts, session
    {
      && book.Valid()
      && carts.Valid()
      && session.WellFormed()
      && OrderIds()
    }

    /** Order ids are distinct, positive and below the next id. */
    ghost predicate OrderIds()
      reads this
    {
      && nextOrderId >= 1
      && (forall i :: 0 <= i < |orders| ==> 1 <= orders[i].id < nextOrderId)
      && (forall i, j :: 0 <= i < j < |orders| ==> orders[i].id != orders[j].id)
    }

    constructor (catalog: Catalog, book: AddressBook, carts: CartTable, session: Session)
      requires book.Valid() && carts.Valid() && session.WellFormed()
      ensures this.catalog == catalog && this.book == book && this.carts == carts && this.session == session
      ensures Valid() && orders == [] && nextOrderId == 1
    {
      this.catalog := catalog;
      this.book := book;
      this.carts := carts;
      this.session := session;
      orders := [];
      nextOrderId := 1;
    }

    /** `CheckoutView.form_valid` for `user`, who passed the dispatch
        checks and chose address `addressId` among the form's choices:
        the order copies the address and totals the cart, each cart line
        becomes one order item, both carts are emptied and the session
        remembers the order for the confirmation page. */
    method PlaceOrder(user: UserId, addressId: AddressId, receipt: Option<Upload>, termsAccepted: bool,
                      timestamp: string, uuid: string) returns (order: Order)
      requires Valid()
      requires user in carts.carts && Covers(catalog, carts.carts[user])
      requires OwnedIndex(book.rows, user, addressId).Some?
      modifies this, carts, session
      ensures Valid()
      ensures fresh(order) && orders == old(orders) + [order] && order.id == old(nextOrderId)
      ensures order.user == user && order.address == book.rows[OwnedIndex(book.rows, user, addressId).value]
      ensures order.receipt == receipt && order.termsAccepted == termsAccepted
      ensures order.orderNumber == OrderNumber([], timestamp, uuid)
      ensures order.subtotal == GetTotalPrice(catalog, old(carts.carts[user]))
      ensures order.shippingCost == ShippingCost(catalog, old(carts.carts[user]))
      ensures order.total == order.subtotal + order.shippingCost
      ensures |order.items| == |old(carts.carts[user])|
      ensures forall i :: 0 <= i < |order.items| ==> order.items[i].Row() == FrozenItem(catalog, old(carts.carts[user])[i])
      ensures carts.carts == old(carts.carts)[user := []]
      ensures session.hasCart && session.items == Some([]) && session.lastOrderId == Some(order.id)
      ensures session.modified
    {
      var rows := carts.carts[user];
      var address := book.rows[OwnedIndex(book.rows, user, addressId).value];
      order := Record(user, address, receipt, termsAccepted, rows, timestamp, uuid);
      carts.DeleteItems(user);
      var cart := new CartSession(session, catalog);
      cart.Clear();
      session.lastOrderId := Some(order.id);
      session.modified := true;
    }

    /** The order rows `form_valid` writes: the order with its totals and
        number, then its items. */
    method Record(user: UserId, address: Address, receipt: Option<Upload>, termsAccepted: bool,
                  lines: seq<Line>, timestamp: string, uuid: string) returns (order: Order)
      requires OrderIds() && Covers(catalog, lines)
      modifies this`orders, this`nextOrderId
      ensures OrderIds()
      ensures fresh(order) && orders == old(orders) + [order] && order.id == old(nextOrderId)
      ensures order.user == user && order.address == address
      ensures order.receipt == receipt && order.termsAccepted == termsAccepted
      ensures order.orderNumber == OrderNumber([], timestamp, uuid)
      ensures order.subtotal == GetTotalPrice(catalog, lines)
      ensures order.shippingCost == ShippingCost(catalog, lines)
      ensures order.total == order.subtotal + order.shippingCost
      ensures |order.items| == |lines|
      ensures forall i :: 0 <= i < |order.items| ==> order.items[i].Row() == FrozenItem(catalog, lines[i])
    {
      var subtotal := GetTotalPrice(catalog, lines);
      var shippingCost := ShippingCost(catalog, lines);
      order := new Order(nextOrderId, user, address, receipt, termsAccepted, subtotal, shippingCost, subtotal + shippingCost);
      order.Save(timestamp, uuid);
      orders := orders + [order];
      nextOrderId := nextOrderId + 1;
      var items := FreezeLines(catalog, lines);
      order.items := items;
    }

    /** `OrderConfirmationView.get_object`. */
    method GetObject(user: UserId) returns (shown: Shown)
      modifies session`lastOrderId, session`modified
      ensures (shown, session.lastOrderId) == ConfirmStep(orders, user, old(session.lastOrderId))
      ensures session.modified ==
        (old(session.modified) || (old(session.lastOrderId).Some? && old(session.lastOrderId).value != 0))
    {
      var last := session.lastOrderId;
      if last.None? || last.value == 0 {
        return NoOrder;
      }
      session.lastOrderId := None;
      session.modified := true;
      var k := FindOrder(orders, last.value, user);
      shown := if k.Some? then Found(k.value) else Missing;
    }

    /** The confirmation page, with the evidently intended redirect. */
    method ConfirmationPage(user: UserId) returns (response: Response)
      modifies session`lastOrderId, session`modified
      ensures response == Respond(ConfirmStep(orders, user, old(session.lastOrderId)).0)
      ensures session.lastOrderId == ConfirmStep(orders, user, old(session.lastOrderId)).1
      ensures session.modified ==
        (old(session.modified) || (old(session.lastOrderId).Some? && old(session.lastOrderId).value != 0))
    {
      var shown := GetObject(user);
      response := Respond(shown);
    }
  }

  // ---------------------------------------------------------------------
  // CheckoutForm

  /** The rows whose default flag is `flag`, in their order. */
  function Where(rows: seq<Address>, flag: bool): (r: seq<Address>)
    ensures forall i :: 0 <= i < |r| ==> r[i].isDefault == flag
    ensures forall x | x in r :: x in rows
  {
    if rows == [] then []
    else
      var last := rows[|rows| - 1];
      assert rows == rows[..|rows| - 1] + [last];
      Where(rows[..|rows| - 1], flag) + (if last.isDefault == flag then [last] else [])
  }

  lemma {:induction false} WherePartition(rows: seq<Address>)
    ensures multiset(Where(rows, true)) + multiset(Where(rows, false)) == multiset(rows)
  {
    if rows != [] {
      var init := rows[..|rows| - 1];
      assert rows == init + [rows[|rows| - 1]];
      WherePartition(init);
    }
  }

  /** The addresses of `u` ordered by (-is_default, -created_date). */
  function Ordered(rows: seq<Address>, u: UserId): seq<Address> {
    var newest := Reverse(RowsOf(rows, u));
    Where(newest, true) + Where(newest, false)
  }

  lemma {:induction false} ReverseMultiset<T>(s: seq<T>)
    ensures multiset(Reverse(s)) == multiset(s)
  {
    if s != [] {
      assert s == [s[0]] + s[1..];
      assert Reverse(s) == Reverse(s[1..]) + [s[0]];
      ReverseMultiset(s[1..]);
    }
  }

  /** The ordering lists every address of `u`, and nothing else. */
  lemma {:induction false} OrderedIsPermutation(rows: seq<Address>, u: UserId)
    ensures multiset(Ordered(rows, u)) == multiset(RowsOf(rows, u))
  {
    var newest := Reverse(RowsOf(rows, u));
    ReverseMultiset(RowsOf(rows, u));
    WherePartition(newest);
  }

  /** Default addresses come before all others. */
  lemma {:induction false} DefaultsFirst(rows: seq<Address>, u: UserId)
    ensures forall i, j :: 0 <= i < j < |Ordered(rows, u)| && Ordered(rows, u)[j].isDefault ==>
      Ordered(rows, u)[i].isDefault
  {
    var newest := Reverse(RowsOf(rows, u));
    var o := Ordered(rows, u);
    var d := Where(newest, true);
    var n := Where(newest, false);
    assert o == d + n;
    forall j | 0 <= j < |o|
      ensures o[j].isDefault <==> j < |d|
    {
      if j < |d| {
        assert o[j] == d[j];
      } else {
        assert o[j] == n[j - |d|];
      }
    }
  }

  /** `f` lists increasing positions of `rows` at which the rows with
      the flag stand, in the order `Where` lists them. */
  lemma {:induction false} WhereEmbeds(rows: seq<Address>, flag: bool) returns (f: seq<nat>)
    ensures |f| == |Where(rows, flag)|
    ensures forall k :: 0 <= k < |f| ==> f[k] < |rows| && Where(rows, flag)[k] == rows[f[k]]
    ensures forall k, l :: 0 <= k < l < |f| ==> f[k] < f[l]
  {
    if rows == [] {
      f := [];
    } else {
      var init := rows[..|rows| - 1];
      var last := rows[|rows| - 1];
      var g := WhereEmbeds(init, flag);
      var w := Where(rows, flag);
      if last.isDefault == flag {
        assert w == Where(init, flag) + [last];
        f := g + [|rows| - 1];
      } else {
        assert w == Where(init, flag);
        f := g;
      }
      forall k | 0 <= k < |g|
        ensures f[k] == g[k] < |rows| && w[k] == rows[f[k]]
      {
        assert init[g[k]] == rows[g[k]];
      }
    }
  }

  /** Within each flag group the newest address comes first: of two
      offered addresses with the same flag, the one offered first is
      stored later in the table, so it was created later. */
  lemma NewestFirst(rows: seq<Address>, u: UserId, i: nat, j: nat)
    requires i < j < |Ordered(rows, u)|
    requires Ordered(rows, u)[i].isDefault == Ordered(rows, u)[j].isDefault
    ensures exists p, q :: 0 <= q < p < |rows| && rows[p] == Ordered(rows, u)[i] && rows[q] == Ordered(rows, u)[j]
  {
    var owned := RowsOf(rows, u);
    var newest := Reverse(owned);
    var d := Where(newest, true);
    var o := Ordered(rows, u);
    assert o == d + Where(newest, false);
    var flag := o[i].isDefault;
    var a, b := if flag then i else i - |d|, if flag then j else j - |d|;
    var w := Where(newest, flag);
    assert flag ==> j < |d| by {
      if j >= |d| { assert o[j] == Where(newest, false)[j - |d|]; }
    }
    assert !flag ==> i >= |d| by {
      if i < |d| { assert o[i] == d[i]; }
    }
    assert 0 <= a < b < |w| && w[a] == o[i] && w[b] == o[j];
    var g := WhereEmbeds(newest, flag);
    var f := RowsOfEmbeds(rows, u);
    var m, n := |owned| - 1 - g[a], |owned| - 1 - g[b];
    assert newest[g[a]] == owned[m] && newest[g[b]] == owned[n];
    assert rows[f[m]] == o[i] && rows[f[n]] == o[j] && f[n] < f[m];
  }

  /** The label of an address choice: "state، city، line1". */
  function ChoiceLabel(a: Address): string {
    a.state + "\U{060C} " + a.city + "\U{060C} " + a.line1
  }

  const NoAddressLabel: string := "هیچ آدرسی ثبت نشده است"

  /** `CheckoutForm.__init__`: the address choices, one per address of the
      user in the ordering, or a single placeholder with an empty value. */
  function Choices(rows: seq<Address>, u: UserId): (r: seq<(string, string)>)
    ensures |r| >= 1
  {
    var ordered := Ordered(rows, u);
    if ordered == [] then [("", NoAddressLabel)]
    else seq(|ordered|, i requires 0 <= i < |ordered| => (IntToString(ordered[i].id), ChoiceLabel(ordered[i])))
  }

  /** `CheckoutForm.__init__`: the initial choice, the id of the first
      default address. */
  function Initial(rows: seq<Address>, u: UserId): Option<string> {
    var defaults := Where(Reverse(RowsOf(rows, u)), true);
    if defaults == [] then None else Some(IntToString(defaults[0].id))
  }

  /** Each address of `u` is offered with its id and label. */
  lemma {:induction false} EveryAddressOffered(rows: seq<Address>, u: UserId, k: nat)
    requires k < |rows| && rows[k].user == u
    ensures (IntToString(rows[k].id), ChoiceLabel(rows[k])) in Choices(rows, u)
  {
    var o := Ordered(rows, u);
    OrderedIsPermutation(rows, u);
    RowsOfHas(rows, u, k);
    assert rows[k] in multiset(o);
    var i :| 0 <= i < |o| && o[i] == rows[k];
    assert Choices(rows, u)[i] == (IntToString(rows[k].id), ChoiceLabel(rows[k]));
  }

  /** Every choice with a non-empty value is an address of `u`. */
  lemma {:induction false} OffersAreAddresses(rows: seq<Address>, u: UserId, c: (string, string))
    requires c in Choices(rows, u) && c.0 != ""
    ensures exists k :: 0 <= k < |rows| && rows[k].user == u && c == (IntToString(rows[k].id), ChoiceLabel(rows[k]))
  {
    var o := Ordered(rows, u);
    var i :| 0 <= i < |Choices(rows, u)| && Choices(rows, u)[i] == c;
    if o != [] {
      assert c == (IntToString(o[i].id), ChoiceLabel(o[i]));
      OrderedIsPermutation(rows, u);
      assert o[i] in multiset(RowsOf(rows, u));
      RowsOfMember(rows, u, o[i]);
    }
  }

  /** Without any address the only choice is the placeholder and nothing
      is initial. */
  lemma {:induction false} NoAddressPlaceholder(rows: seq<Address>, u: UserId)
    requires !HasAddress(rows, u)
    ensures Choices(rows, u) == [("", NoAddressLabel)] && Initial(rows, u).None?
  {
    var newest := Reverse(RowsOf(rows, u));
    if RowsOf(rows, u) != [] {
      RowsOfMember(rows, u, RowsOf(rows, u)[0]);
    }
    assert newest == [];
  }

  /** With at most one default per user, the user's default address is
      offered first and is the initial choice. */
  lemma {:induction false} DefaultOfferedFirst(rows: seq<Address>, u: UserId, k: nat)
    requires AtMostOneDefault(rows)
    requires k < |rows| && rows[k].user == u && rows[k].isDefault
    ensures Choices(rows, u)[0] == (IntToString(rows[k].id), ChoiceLabel(rows[k]))
    ensures Initial(rows, u) == Some(IntToString(rows[k].id))
  {
    var owned := RowsOf(rows, u);
    var newest := Reverse(owned);
    var d := Where(newest, true);
    RowsOfHas(rows, u, k);
    var m :| 0 <= m < |owned| && owned[m] == rows[k];
    assert newest[|owned| - 1 - m] == rows[k];
    WhereHas(newest, true, rows[k]);
    assert d[0] in newest;
    var n :| 0 <= n < |newest| && newest[n] == d[0];
    assert d[0] in owned by {
      assert owned[|owned| - 1 - n] == d[0];
    }
    RowsOfMember(rows, u, d[0]);
    var i :| 0 <= i < |rows| && rows[i] == d[0] && d[0].user == u;
    assert i == k;
    assert Ordered(rows, u) == d + Where(newest, false);
  }

  lemma {:induction false} WhereHas(rows: seq<Address>, flag: bool, x: Address)
    requires x in rows && x.isDefault == flag
    ensures x in Where(rows, flag)
  {
    var init := rows[..|rows| - 1];
    if x in init {
      WhereHas(init, flag, x);
    } else {
      assert x == rows[|rows| - 1];
    }
  }

  /** The checkout form after `__init__`. */
  class CheckoutForm {
    var choices: seq<(string, string)>
    var initial: Option<string>

    constructor (rows: seq<Address>, user: UserId)
      ensures choices == Choices(rows, user) && initial == Initial(rows, user)
    {
      choices := Choices(rows, user);
      initial := Initial(rows, user);
    }
  }

  /** The errors the checkout form raises. */
  datatype CheckoutError = ReceiptTooLarge | NotAnImage | NoAddressChosen

  const MaxReceiptSize: nat := 5 * 1024 * 1024
  const ImageExtensions: seq<string> := ["jpg", "jpeg", "png", "gif", "webp"]

  /** `name.split('.')[-1].lower()`. The case mapping is ASCII only; for
      the image extensions the receipt is checked against it gives the same
      answer as Python's. */
  function Extension(name: string): string {
    Lower(AfterLast(name, '.'))
  }

  /** `CheckoutForm.clean_payment_receipt`: a present receipt (a file with
      a name) larger than 5 MiB is refused first, then one whose extension
      is not an image extension; anything else is returned unchanged. */
  function CleanPaymentReceipt(receipt: Option<Upload>): (r: Checked<Option<Upload>, CheckoutError>)
    ensures r.Accepted? ==> r.value == receipt
    ensures r.Accepted? <==>
      receipt.None? || receipt.value.name == [] ||
      (receipt.value.size <= MaxReceiptSize && Extension(receipt.value.name) in ImageExtensions)
    ensures receipt.Some? && receipt.value.name != [] && receipt.value.size > MaxReceiptSize ==>
      r == Rejected(ReceiptTooLarge)
  {
    if receipt.Some? && receipt.value.name != [] then
      if receipt.value.size > MaxReceiptSize then Rejected(ReceiptTooLarge)
      else if Extension(receipt.value.name) !in ImageExtensions then Rejected(NotAnImage)
      else Accepted(receipt)
    else Accepted(receipt)
  }

  /** A file named `stem.ext` with an image extension, in any letter case,
      and at most 5 MiB passes, whatever dots its stem contains. */
  lemma ImageReceiptAccepted(stem: string, ext: string, size: nat)
    requires '.' !in ext && Lower(ext) in ImageExtensions && size <= MaxReceiptSize
    ensures CleanPaymentReceipt(Some(Upload(stem + "." + ext, size))) == Accepted(Some(Upload(stem + "." + ext, size)))
  {
    AfterLastOfJoined(stem, '.', ext);
    assert stem + "." + ext == stem + ['.'] + ext;
  }

  /** "receipt.jpg" passes. */
  lemma ReceiptAcceptedExample()
    ensures CleanPaymentReceipt(Some(Upload("receipt.jpg", 12))).Accepted?
  {
    assert Lower("jpg") == "jpg";
    ImageReceiptAccepted("receipt", "jpg", 12);
    JpgName();
  }

  // A proof step of ReceiptAcceptedExample: the name it builds.
  lemma JpgName()
    ensures "receipt" + "." + "jpg" == "receipt.jpg"
  {
  }

  /** The extension's letter case does not matter, and the 5 MiB bound is
      inclusive: "scan.PNG" of exactly 5 MiB passes. */
  lemma UpperCaseExtensionAccepted()
    ensures CleanPaymentReceipt(Some(Upload("scan.PNG", MaxReceiptSize))).Accepted?
  {
    assert Lower("PNG") == "png";
    ImageReceiptAccepted("scan", "PNG", MaxReceiptSize);
    assert "scan" + "." + "PNG" == "scan.PNG";
  }

  /** "receipt.pdf" is not an image; one byte over 5 MiB is too large
      whatever the name. */
  lemma ReceiptRejectedExamples(name: string)
    requires name != []
    ensures CleanPaymentReceipt(Some(Upload("receipt.pdf", 12))) == Rejected(NotAnImage)
    ensures CleanPaymentReceipt(Some(Upload(name, MaxReceiptSize + 1))) == Rejected(ReceiptTooLarge)
  {
    PdfNotAnImage();
  }

  // A proof step of ReceiptRejectedExamples: the extension of "receipt.pdf".
  lemma PdfNotAnImage()
    ensures Extension("receipt.pdf") !in ImageExtensions
  {
    AfterLastOfJoined("receipt", '.', "pdf");
    assert "receipt.pdf" == "receipt" + ['.'] + "pdf";
    assert Lower("pdf") == "pdf";
  }

  /** `CheckoutForm.clean_shipping_address`: a missing or empty choice is
      refused, any other value returned as it is. */
  function CleanShippingAddress(value: Option<string>): (r: Checked<string, CheckoutError>)
    ensures r.Accepted? <==> value.Some? && value.value != []
    ensures r.Accepted? ==> r.value == value.value
    ensures r.Rejected? ==> r.error == NoAddressChosen
  {
    if value.None? || value.value == [] then Rejected(NoAddressChosen) else Accepted(value.value)
  }
}

=== FILE: dashboard_tags.dfy ===
/** The template filters of core/dashboard/templatetags/dashboard_tags.py. */
module DashboardTags {
  import opened Python

  /** `dict.get(key)`. */
  function Get<K, V>(d: map<K, V>, key: K): Option<V> {
    if key in d then Some(d[key]) else None
  }

  /** `get_item`: None for a missing (None) or empty dictionary, else the
      dictionary's value for the key, None when the key is absent. */
  function GetItem<K, V>(d: Option<map<K, V>>, key: K): (r: Option<V>)
    ensures r.Some? <==> d.Some? && key in d.value
    ensures r.Some? ==> r.value == d.value[key]
  {
    if d.Some? && d.value != map[] then Get(d.value, key) else None
  }

  /** The emptiness test changes nothing: on any dictionary `get_item` is
      plain `get`. */
  lemma GetItemIsGet<K, V>(d: map<K, V>, key: K)
    ensures GetItem(Some(d), key) == Get(d, key)
  {
  }

  /** `mul`: the product of the two operands read as integers, or 0 when
      either of them is not an integer. */
  function Mul(value: Value, arg: Value): (r: int)
    ensures IntOf(value).None? || IntOf(arg).None? ==> r == 0
    ensures IntOf(value).Some? && IntOf(arg).Some? ==> r == IntOf(value).value * IntOf(arg).value
  {
    match (IntOf(value), IntOf(arg))
    case (Some(a), Some(b)) => a * b
    case _ => 0
  }

  /** Template values are often the text of integers: multiplying the
      texts of two integers gives their product. */
  lemma MulOfNumerals(a: int, b: int)
    requires WithinStrDigits(a) && WithinStrDigits(b)
    ensures Mul(Str(IntToString(a)), Str(IntToString(b))) == a * b
    ensures Mul(Str(IntToString(a)), Int(b)) == a * b
  {
    ParseIntToString(a);
    ParseIntToString(b);
  }

  /** Digits of other scripts count as in `int()`: Persian two times
      three is six, and NO-BREAK SPACE around Persian twelve is stripped. */
  lemma MulOfOtherScripts()
    ensures Mul(Str("\U{06F2}"), Int(3)) == 6
    ensures Mul(Str("\U{00A0}\U{06F1}\U{06F2}\U{2003}"), Str("\U{06F2}")) == 24
  {
    ParseOtherScripts();
  }

  /** None, and text that is not an integer, give 0: letters, digits
      after an information separator, and more than 4300 digits. */
  lemma MulOfNonNumbers(v: Value, n: nat)
    ensures Mul(NoneValue, v) == 0 && Mul(v, NoneValue) == 0
    ensures Mul(Str("abc"), v) == 0
    ensures Mul(Str("\U{001C}2"), v) == 0
    ensures |NatToString(n)| > MaxStrDigits ==> Mul(Str(NatToString(n)), v) == 0
  {
    ParseSeparators();
    if |NatToString(n)| > MaxStrDigits {
      TooManyDigits(n);
    }
    assert !IsDigitGroup("abc") by {
      assert !IsDigit('a');
    }
    assert Strip("abc") == "abc";
  }
}

=== FILE: orders.dfy ===
/** Orders of core/order/models.py: the order number an order receives
    when first saved, the badge class of each status, and the subtotal an
    order item computes when saved. */
module Orders {
  import opened Python
  import opened Shop
  import opened Accounts
  import opened Addresses

  /** An uploaded file as the forms see it: its name and size in bytes. */
  datatype Upload = Upload(name: string, size: nat)

  /** `s[:n]`: at most the first `n` characters. */
  function Prefix(s: string, n: nat): (r: string)
    ensures |r| == if |s| <= n then |s| else n
    ensures r == s[..|r|]
  {
    if |s| <= n then s else s[..n]
  }

  /** The number `Order.save` leaves on an order: a number it already has
      is kept; otherwise "ORD-", the save time as "%Y%m%d%H%M%S", "-" and
      the first eight characters of a random UUID in upper case. The time
      and the UUID text are parameters. */
  function OrderNumber(current: string, timestamp: string, uuid: string): (r: string)
    ensures current != [] ==> r == current
    ensures r != []
  {
    if current != [] then current else "ORD-" + timestamp + "-" + Upper(Prefix(uuid, 8))
  }

  /** Once numbered, an order keeps its number on every later save. */
  lemma OrderNumberStable(current: string, t1: string, u1: string, t2: string, u2: string)
    ensures OrderNumber(OrderNumber(current, t1, u1), t2, u2) == OrderNumber(current, t1, u1)
  {
  }

  /** A fresh number starts with "ORD-", carries the save time, then "-"
      and at most eight characters none of which is a lower-case letter. */
  lemma OrderNumberFormat(timestamp: string, uuid: string)
    ensures var r := OrderNumber([], timestamp, uuid);
      && r[..4] == "ORD-"
      && r[4..4 + |timestamp|] == timestamp
      && r[4 + |timestamp|] == '-'
      && 5 + |timestamp| <= |r| <= 13 + |timestamp|
      && forall i :: 5 + |timestamp| <= i < |r| ==> !('a' <= r[i] <= 'z')
  {
    var r := OrderNumber([], timestamp, uuid);
    var tail := Upper(Prefix(uuid, 8));
    assert r == "ORD-" + timestamp + "-" + tail;
    forall i | 5 + |timestamp| <= i < |r|
      ensures !('a' <= r[i] <= 'z')
    {
      assert r[i] == tail[i - 5 - |timestamp|];
    }
  }

  /** Two numbers drawn at the same time differ as soon as the upper-cased
      UUID prefixes differ. */
  lemma OrderNumbersDiffer(timestamp: string, u1: string, u2: string)
    requires Upper(Prefix(u1, 8)) != Upper(Prefix(u2, 8))
    ensures OrderNumber([], timestamp, u1) != OrderNumber([], timestamp, u2)
  {
    var head := "ORD-" + timestamp + "-";
    var r1 := OrderNumber([], timestamp, u1);
    var r2 := OrderNumber([], timestamp, u2);
    assert r1 == head + Upper(Prefix(u1, 8));
    assert r2 == head + Upper(Prefix(u2, 8));
    assert r1[|head|..] == Upper(Prefix(u1, 8));
    assert r2[|head|..] == Upper(Prefix(u2, 8));
  }

  /** The statuses an order can take. */
  const Statuses: seq<string> := ["pending", "confirmed", "processing", "shipped", "delivered", "cancelled"]

  /** `Order.get_status_display_class`: the badge class of a status, and
      "secondary" for a status outside the table. */
  function StatusDisplayClass(status: string): (c: string)
    ensures c in {"warning", "info", "primary", "secondary", "success", "danger"}
    ensures status !in Statuses ==> c == "secondary"
  {
    match status
    case "pending" => "warning"
    case "confirmed" => "info"
    case "processing" => "primary"
    case "shipped" => "secondary"
    case "delivered" => "success"
    case "cancelled" => "danger"
    case _ => "secondary"
  }

  /** Distinct known statuses get distinct classes, except that "shipped"
      shares "secondary" with every unknown status. */
  lemma StatusClassesDistinct(s1: string, s2: string)
    requires s1 in Statuses && s2 in Statuses && s1 != s2
    ensures StatusDisplayClass(s1) != StatusDisplayClass(s2)
  {
  }

  lemma SecondaryMeansShippedOrUnknown(status: string)
    ensures StatusDisplayClass(status) == "secondary" <==> status == "shipped" || status !in Statuses
  {
  }

  /** The fields of an order item, as a value. */
  datatype ItemRow = ItemRow(productId: ProductId, productName: string, productPrice: real, quantity: int, subtotal: real)

  /** An OrderItem: a product, its name and price copied at ordering time,
      a quantity and the subtotal. */
  class OrderItem {
    const productId: ProductId
    var productName: string
    var productPrice: real
    var quantity: int
    var subtotal: real

    constructor (productId: ProductId, productName: string, productPrice: real, quantity: int, subtotal: real)
      ensures Row() == ItemRow(productId, productName, productPrice, quantity, subtotal)
    {
      this.productId := productId;
      this.productName := productName;
      this.productPrice := productPrice;
      this.quantity := quantity;
      this.subtotal := subtotal;
    }

    function Row(): ItemRow
      reads this
    {
      ItemRow(productId, productName, productPrice, quantity, subtotal)
    }

    /** `OrderItem.save`: whatever subtotal the item was given, it is
        recomputed as the price times the quantity. */
    method Save()
      modifies this`subtotal
      ensures subtotal == productPrice * quantity as real
    {
      subtotal := productPrice * quantity as real;
    }
  }

  /** An Order: its owner, its number, the shipping address copied at
      checkout, the receipt, the amounts, the statuses and its items. */
  class Order {
    const id: nat
    const user: UserId
    var orderNumber: string
    var address: Address
    var receipt: Option<Upload>
    var termsAccepted: bool
    var subtotal: real
    var shippingCost: real
    var total: real
    var status: string
    var paymentStatus: string
    var items: seq<OrderItem>

    /** A new, unsaved order with the default statuses and no number. */
    constructor (id: nat, user: UserId, address: Address, receipt: Option<Upload>, termsAccepted: bool,
                 subtotal: real, shippingCost: real, total: real)
      ensures this.id == id && this.user == user && this.address == address
      ensures this.receipt == receipt && this.termsAccepted == termsAccepted
      ensures this.subtotal == subtotal && this.shippingCost == shippingCost && this.total == total
      ensures orderNumber == [] && status == "pending" && paymentStatus == "pending" && items == []
    {
      this.id := id;
      this.user := user;
      this.address := address;
      this.receipt := receipt;
      this.termsAccepted := termsAccepted;
      this.subtotal := subtotal;
      this.shippingCost := shippingCost;
      this.total := total;
      orderNumber := [];
      status := "pending";
      paymentStatus := "pending";
      items := [];
    }

    /** `Order.save`: numbers the order when it has no number yet. */
    method Save(timestamp: string, uuid: string)
      modifies this`orderNumber
      ensures orderNumber == OrderNumber(old(orderNumber), timestamp, uuid)
    {
      if orderNumber == [] {
        var uniqueId := Upper(Prefix(uuid, 8));
        orderNumber := "ORD-" + timestamp + "-" + uniqueId;
      }
    }
  }
}

=== FILE: python.dfy ===
/** The few pieces of Python's built-in semantics that the shop relies on:
    `int()` applied to strings and other values, `str()` of an integer,
    truthiness, `str.lower`/`str.upper`, `str.split` (last piece only) and
    `str.join`. `int()` reads the decimal digits of every script, skips
    the white space CPython skips and refuses more than 4300 digits (the
    default limit from Python 3.11 on); case mapping is ASCII only. */
module Python {

  datatype Option<T> = None | Some(value: T)

  /** What a form's `clean_*` method gives: the cleaned value, or the
      ValidationError it raises. */
  datatype Checked<T, E> = Accepted(value: T) | Rejected(error: E)

  /** A value as it reaches `int()` or a template filter. */
  datatype Value = Int(i: int) | Bool(b: bool) | Str(s: string) | NoneValue

  /** Python's `bool(v)`. */
  predicate Truthy(v: Value) {
    match v
    case Int(i) => i != 0
    case Bool(b) => b
    case Str(s) => s != []
    case NoneValue => false
  }

  /** An ASCII digit, as `str()` of an integer writes them. */
  predicate IsDigit(c: char) { '0' <= c <= '9' }

  /** The code points of the digit zero of each run of ten decimal digits
      (Unicode general category Nd, Unicode 15.0), in ascending order:
      ASCII, Arabic-Indic, Extended Arabic-Indic (Persian), and so on up to
      the segmented digits. The list is written in four parts so that the
      verifier can index it. */
  const DecimalZeros: seq<int> := ZerosBmpLow + ZerosBmpHigh + ZerosSmpLow + ZerosSmpHigh

  const ZerosBmpLow: seq<int> := [
    0x30, 0x660, 0x6F0, 0x7C0, 0x966, 0x9E6, 0xA66, 0xAE6, 0xB66, 0xBE6,
    0xC66, 0xCE6, 0xD66, 0xDE6, 0xE50, 0xED0, 0xF20, 0x1040, 0x1090, 0x17E0]
  const ZerosBmpHigh: seq<int> := [
    0x1810, 0x1946, 0x19D0, 0x1A80, 0x1A90, 0x1B50, 0x1BB0, 0x1C40, 0x1C50, 0xA620,
    0xA8D0, 0xA900, 0xA9D0, 0xA9F0, 0xAA50, 0xABF0, 0xFF10, 0x104A0, 0x10D30, 0x11066]
  const ZerosSmpLow: seq<int> := [
    0x110F0, 0x11136, 0x111D0, 0x112F0, 0x11450, 0x114D0, 0x11650, 0x116C0, 0x11730, 0x118E0,
    0x11950, 0x11C50, 0x11D50, 0x11DA0, 0x11F50, 0x16A60, 0x16AC0, 0x16B50, 0x1D7CE, 0x1D7D8]
  const ZerosSmpHigh: seq<int> := [
    0x1D7E2, 0x1D7EC, 0x1D7F6, 0x1E140, 0x1E2F0, 0x1E4F0, 0x1E950, 0x1FBF0]

  /** The decimal value of `c` among the runs from the `k`-th on; the runs
      ascend, so the search stops at the first run above `c`. */
  function DecimalFrom(c: char, k: nat): (d: Option<nat>)
    ensures d.Some? ==> d.value < 10
    decreases |DecimalZeros| - k
  {
    if k >= |DecimalZeros| || c as int < DecimalZeros[k] then None
    else if c as int < DecimalZeros[k] + 10 then Some(c as int - DecimalZeros[k])
    else DecimalFrom(c, k + 1)
  }

  /** `unicodedata.decimal(c)`: the digit `int()` reads `c` as, if any.
      The ASCII run, the first of the list, and the gap below the second
      are decided without the search. */
  function DecimalValue(c: char): (d: Option<nat>)
    ensures IsDigit(c) ==> d == Some(c as int - '0' as int)
    ensures d.Some? ==> d.value < 10
  {
    if IsDigit(c) then Some(c as int - '0' as int)
    else if c as int < 0x660 then None
    else
      assert DecimalZeros[1] == 0x660;
      DecimalFrom(c, 1)
  }

  predicate IsDecimal(c: char) { DecimalValue(c).Some? }

  /** The characters `int()` skips around its digits. CPython first maps
      every non-ASCII white-space character to a space and leaves ASCII
      alone, then skips the ASCII white space TAB to CR and the space. So
      the separators 0x1C to 0x1F, which `str.isspace()` accepts, are not
      skipped, while NEL, NO-BREAK SPACE, the Unicode space separators,
      LINE SEPARATOR and PARAGRAPH SEPARATOR are. */
  predicate IsIntSpace(c: char) {
    if c as int < 0x80 then 0x09 <= c as int <= 0x0D || c as int == 0x20
    else IsWideSpace(c as int)
  }

  /** The non-ASCII code points `str.isspace()` accepts. */
  predicate IsWideSpace(n: int) {
    || n == 0x85 || n == 0xA0 || n == 0x1680
    || 0x2000 <= n <= 0x200A || n == 0x2028 || n == 0x2029 || n == 0x202F || n == 0x205F
    || n == 0x3000
  }

  function Digit(n: nat): (c: char)
    requires n < 10
    ensures IsDigit(c) && c as int - '0' as int == n
  {
    ('0' as int + n) as char
  }

  function StripLeft(s: string): (r: string)
    ensures |r| <= |s|
    ensures r == [] || !IsIntSpace(r[0])
  {
    if s != [] && IsIntSpace(s[0]) then StripLeft(s[1..]) else s
  }

  function StripRight(s: string): (r: string)
    ensures |r| <= |s|
    ensures r == [] || !IsIntSpace(r[|r| - 1])
  {
    if s != [] && IsIntSpace(s[|s| - 1]) then StripRight(s[..|s| - 1]) else s
  }

  /** `s` without the white space `int()` skips at both ends. */
  function Strip(s: string): string {
    StripRight(StripLeft(s))
  }

  lemma {:induction false} StripLeftBlank(s: string)
    requires forall i :: 0 <= i < |s| ==> IsIntSpace(s[i])
    ensures StripLeft(s) == []
  {
    if s != [] {
      StripLeftBlank(s[1..]);
    }
  }

  /** The digits of a decimal literal as `int()` accepts them: they end
      in a decimal digit of any script, preceded by nothing, by a shorter
      group, or by a single underscore after a shorter group. So at least
      one digit, and single underscores only between two digits. */
  predicate IsDigitGroup(s: string)
    decreases |s|
  {
    && |s| > 0
    && IsDecimal(s[|s| - 1])
    && (|s| == 1
        || IsDigitGroup(s[..|s| - 1])
        || (s[|s| - 2] == '_' && IsDigitGroup(s[..|s| - 2])))
  }

  /** `sys.get_int_max_str_digits()` by default: from Python 3.11 on,
      `int()` refuses decimal text with more digits than this. */
  const MaxStrDigits: nat := 4300

  /** The number of digits of a digit group, underscores not counted. */
  function DigitCount(s: string): nat {
    if s == [] then 0
    else DigitCount(s[..|s| - 1]) + (if IsDecimal(s[|s| - 1]) then 1 else 0)
  }

  /** The value of a digit group, underscores skipped. */
  function DigitsValue(s: string): nat {
    if s == [] then 0
    else
      var c := s[|s| - 1];
      if IsDecimal(c) then DigitsValue(s[..|s| - 1]) * 10 + DecimalValue(c).value
      else DigitsValue(s[..|s| - 1])
  }

  /** `int(s)` for a string `s`: surrounding white space, an optional sign
      and a digit group of at most `MaxStrDigits` digits; None stands for
      the ValueError it raises otherwise. */
  function ParseInt(s: string): Option<int> {
    var t := Strip(s);
    if t != [] && (t[0] == '+' || t[0] == '-') then
      if IsDigitGroup(t[1..]) && DigitCount(t[1..]) <= MaxStrDigits then
        var magnitude: int := DigitsValue(t[1..]);
        Some(if t[0] == '-' then -magnitude else magnitude)
      else None
    else if IsDigitGroup(t) && DigitCount(t) <= MaxStrDigits then
      Some(DigitsValue(t))
    else None
  }

  /** `int(v)`: None stands for the ValueError or TypeError it raises. */
  function IntOf(v: Value): (r: Option<int>)
    ensures v.Int? ==> r == Some(v.i)
    ensures v.NoneValue? ==> r.None?
  {
    match v
    case Int(i) => Some(i)
    case Bool(b) => Some(if b then 1 else 0)
    case Str(s) => ParseInt(s)
    case NoneValue => None
  }

  /** `str(n)` for a natural number. */
  function NatToString(n: nat): (r: string)
    ensures |r| > 0 && forall i :: 0 <= i < |r| ==> IsDigit(r[i])
  {
    if n < 10 then [Digit(n)] else NatToString(n / 10) + [Digit(n % 10)]
  }

  /** `str(i)` succeeds: from Python 3.11 on, `str()` refuses an integer
      of more than `MaxStrDigits` digits, as `int()` refuses such text. */
  predicate WithinStrDigits(i: int) {
    |NatToString(if i < 0 then -i else i)| <= MaxStrDigits
  }

  /** `str(i)` for an integer. */
  function IntToString(i: int): (r: string)
    ensures |r| > 0
  {
    if i < 0 then "-" + NatToString(-i) else NatToString(i)
  }

  lemma {:induction false} NatToStringValue(n: nat)
    ensures DigitsValue(NatToString(n)) == n
  {
    if n >= 10 {
      var s := NatToString(n);
      assert s[..|s| - 1] == NatToString(n / 10);
      NatToStringValue(n / 10);
    }
  }

  lemma {:induction false} StripUnspaced(s: string)
    requires forall i :: 0 <= i < |s| ==> !IsIntSpace(s[i])
    ensures Strip(s) == s
  {
    assert StripLeft(s) == s;
    assert StripRight(s) == s;
  }

  /** ASCII digits form a digit group of as many digits as characters,
      and hold no white space. */
  lemma {:induction false} AsciiDigitGroup(d: string)
    requires |d| > 0 && forall i :: 0 <= i < |d| ==> IsDigit(d[i])
    ensures IsDigitGroup(d) && DigitCount(d) == |d|
    ensures forall i :: 0 <= i < |d| ==> !IsIntSpace(d[i])
  {
    assert DecimalValue(d[|d| - 1]).Some?;
    if |d| > 1 {
      AsciiDigitGroup(d[..|d| - 1]);
    }
  }

  /** `int()` of ASCII digits: their value iff there are at most
      `MaxStrDigits` of them, a ValueError otherwise. */
  lemma {:induction false} ParseUnsigned(d: string)
    requires |d| > 0 && forall i :: 0 <= i < |d| ==> IsDigit(d[i])
    ensures ParseInt(d) == if |d| <= MaxStrDigits then Some(DigitsValue(d)) else None
  {
    AsciiDigitGroup(d);
    StripUnspaced(d);
    assert !(d[0] == '+' || d[0] == '-');
  }

  /** A minus sign before ASCII digits: nothing to strip, and a digit
      group after the sign. */
  lemma MinusDigits(s: string)
    requires |s| > 1 && s[0] == '-' && forall i :: 1 <= i < |s| ==> IsDigit(s[i])
    ensures Strip(s) == s && IsDigitGroup(s[1..]) && DigitCount(s[1..]) == |s| - 1
  {
    forall i | 0 <= i < |s| ensures !IsIntSpace(s[i]) {
    }
    StripUnspaced(s);
    var d := s[1..];
    forall i | 0 <= i < |d| ensures IsDigit(d[i]) {
      assert d[i] == s[i + 1];
    }
    AsciiDigitGroup(d);
  }

  /** `int()` of a minus sign and a digit group with nothing to strip. */
  lemma ParseMinus(s: string)
    requires |s| > 1 && s[0] == '-' && Strip(s) == s && IsDigitGroup(s[1..])
    requires DigitCount(s[1..]) <= MaxStrDigits
    ensures ParseInt(s) == Some(-(DigitsValue(s[1..]) as int))
  {
  }

  /** The decimal text of a natural number parses back to it. */
  lemma ParseNatText(n: nat)
    requires |NatToString(n)| <= MaxStrDigits
    ensures ParseInt(NatToString(n)) == Some(n)
  {
    var d := NatToString(n);
    ParseUnsigned(d);
    NatToStringValue(n);
  }

  /** A minus sign before the decimal text of `n` parses to `-n`. */
  lemma ParseNegatedText(n: nat)
    requires |NatToString(n)| <= MaxStrDigits
    ensures ParseInt("-" + NatToString(n)) == Some(-(n as int))
  {
    var s := "-" + NatToString(n);
    assert s[1..] == NatToString(n);
    MinusDigits(s);
    ParseMinus(s);
    NatToStringValue(n);
  }


  /** `int(str(i)) == i`: the decimal text of an integer parses back to
      it, whenever `str(i)` itself succeeds. */
  lemma {:induction false} ParseIntToString(i: int)
    requires WithinStrDigits(i)
    ensures ParseInt(IntToString(i)) == Some(i)
  {
    if i < 0 {
      assert IntToString(i) == "-" + NatToString(-i);
      ParseNegatedText(-i);
    } else {
      assert IntToString(i) == NatToString(i);
      ParseNatText(i);
    }
  }

  /** Two integers with the same decimal text are equal. */
  lemma {:induction false} IntToStringInjective(i: int, j: int)
    requires IntToString(i) == IntToString(j)
    ensures i == j
  {
    var s := IntToString(i);
    assert (i < 0) == (s[0] == '-') == (j < 0);
    if i < 0 {
      assert s[1..] == NatToString(-i) == NatToString(-j);
      NatToStringValue(-i);
      NatToStringValue(-j);
    } else {
      NatToStringValue(i);
      NatToStringValue(j);
    }
  }

  /** Text of more than `MaxStrDigits` digits is refused, whatever its
      value. */
  lemma TooManyDigits(n: nat)
    requires |NatToString(n)| > MaxStrDigits
    ensures ParseInt(NatToString(n)).None?
  {
    ParseUnsigned(NatToString(n));
  }

  /** The information separators 0x1C to 0x1F are not skipped by `int()`,
      unlike TAB, LINE FEED and the space. */
  lemma ParseSeparators()
    ensures ParseInt("\U{001C}2").None?
    ensures ParseInt("2\U{001F}").None?
    ensures ParseInt("\t 2\n") == Some(2)
  {
    var a, b, c := "\U{001C}2", "2\U{001F}", "\t 2\n";
    assert StripLeft(a) == a && StripRight(a) == a;
    assert a[..1] == "\U{001C}" && !IsDigitGroup(a[..1]);
    assert StripLeft(b) == b && StripRight(b) == b;
    assert !IsDecimal(b[1]);
    assert StripLeft(c) == StripLeft(c[1..]) == StripLeft(c[2..]) == c[2..];
    assert c[2..][..1] == "2";
    assert StripRight(c[2..]) == StripRight("2") == "2";
    ParseUnsigned("2");
  }

  /** Text of white space only is not an integer. */
  lemma ParseBlank(s: string)
    requires forall i :: 0 <= i < |s| ==> IsIntSpace(s[i])
    ensures ParseInt(s).None?
  {
    StripLeftBlank(s);
  }

  /** `int()` reads the digits of other scripts and strips Unicode white
      space: Persian two, NO-BREAK SPACE and EM SPACE around Persian
      twelve, a minus sign before Persian three, and Arabic-Indic ten with
      an underscore. */
  lemma ParseOtherScripts()
    ensures ParseInt("\U{06F2}") == Some(2)
    ensures ParseInt("\U{00A0}\U{06F1}\U{06F2}\U{2003}") == Some(12)
    ensures ParseInt("-\U{06F3}") == Some(-3)
    ensures ParseInt("\U{0661}_\U{0660}") == Some(10)
  {
    PersianTwo();
    PersianTwelve();
    PersianMinusThree();
    ArabicTen();
  }

  // The steps of ParseOtherScripts, one example each.
  lemma PersianTwo()
    ensures ParseInt("\U{06F2}") == Some(2)
  {
    assert DecimalZeros[2] == 0x6F0;
    assert DecimalValue('\U{06F2}') == Some(2);
    assert StripLeft("\U{06F2}") == "\U{06F2}";
  }

  lemma PersianTwelve()
    ensures ParseInt("\U{00A0}\U{06F1}\U{06F2}\U{2003}") == Some(12)
  {
    var s := "\U{00A0}\U{06F1}\U{06F2}\U{2003}";
    var t := "\U{06F1}\U{06F2}";
    assert DecimalZeros[2] == 0x6F0;
    assert DecimalValue('\U{06F1}') == Some(1);
    assert DecimalValue('\U{06F2}') == Some(2);
    assert StripLeft(s) == StripLeft(s[1..]) == s[1..];
    assert s[1..][..|s[1..]| - 1] == t;
    assert StripRight(s[1..]) == StripRight(t) == t;
    assert t[..1] == "\U{06F1}";
    assert IsDigitGroup(t);
    assert DigitsValue(t) == DigitsValue("\U{06F1}") * 10 + 2;
  }

  lemma PersianMinusThree()
    ensures ParseInt("-\U{06F3}") == Some(-3)
  {
    var s := "-\U{06F3}";
    assert DecimalZeros[2] == 0x6F0;
    assert DecimalValue('\U{06F3}') == Some(3);
    assert StripLeft(s) == s && StripRight(s) == s;
    assert s[1..] == "\U{06F3}";
    assert DigitsValue(s[1..]) == 3;
  }

  lemma ArabicTen()
    ensures ParseInt("\U{0661}_\U{0660}") == Some(10)
  {
    var s := "\U{0661}_\U{0660}";
    assert DecimalZeros[1] == 0x660;
    assert DecimalValue('\U{0661}') == Some(1);
    assert DecimalValue('\U{0660}') == Some(0);
    assert !IsDecimal('_');
    assert StripLeft(s) == s && StripRight(s) == s;
    assert s[..1] == "\U{0661}" && s[..2] == "\U{0661}_" && s[..2][..1] == "\U{0661}";
    assert IsDigitGroup(s[..1]);
    assert IsDigitGroup(s);
    assert DigitsValue(s[..1]) == 1;
    assert DigitsValue(s[..2]) == 1;
    assert DigitsValue(s) == 10;
    assert DigitCount(s[..1]) == 1 && DigitCount(s[..2]) == 1 && DigitCount(s) == 2;
  }


  function Reverse<T>(s: seq<T>): (r: seq<T>)
    ensures |r| == |s| && forall i :: 0 <= i < |s| ==> r[i] == s[|s| - 1 - i]
  {
    if s == [] then [] else Reverse(s[1..]) + [s[0]]
  }

  /** `sep.join(parts)`. */
  function Join(parts: seq<string>, sep: string): string {
    if |parts| == 0 then ""
    else if |parts| == 1 then parts[0]
    else Join(parts[..|parts| - 1], sep) + sep + parts[|parts| - 1]
  }

  /** The parts that `filter(None, parts)` keeps: the non-empty ones. */
  function NonEmpty(parts: seq<string>): (r: seq<string>)
    ensures |r| <= |parts|
    ensures forall i :: 0 <= i < |r| ==> r[i] != []
  {
    if parts == [] then []
    else if parts[|parts| - 1] == [] then NonEmpty(parts[..|parts| - 1])
    else NonEmpty(parts[..|parts| - 1]) + [parts[|parts| - 1]]
  }

  /** Without empty parts, `filter(None, parts)` keeps them all. */
  lemma {:induction false} NonEmptyKeepsAll(parts: seq<string>)
    requires forall i :: 0 <= i < |parts| ==> parts[i] != []
    ensures NonEmpty(parts) == parts
  {
    if parts != [] {
      var init := parts[..|parts| - 1];
      NonEmptyKeepsAll(init);
      assert init + [parts[|parts| - 1]] == parts;
    }
  }

  function LowerChar(c: char): char {
    if 'A' <= c <= 'Z' then (c as int + 32) as char else c
  }

  function UpperChar(c: char): char {
    if 'a' <= c <= 'z' then (c as int - 32) as char else c
  }

  /** `s.lower()` on the ASCII letters. Python maps other scripts too; on
      file extensions of ASCII letters and on hex digits the two agree. */
  function Lower(s: string): (r: string)
    ensures |r| == |s| && forall i :: 0 <= i < |s| ==> r[i] == LowerChar(s[i])
  {
    seq(|s|, i requires 0 <= i < |s| => LowerChar(s[i]))
  }

  /** `s.upper()` on the ASCII letters; Python also maps other scripts,
      and on hex digits the two agree. */
  function Upper(s: string): (r: string)
    ensures |r| == |s| && forall i :: 0 <= i < |s| ==> r[i] == UpperChar(s[i])
  {
    seq(|s|, i requires 0 <= i < |s| => UpperChar(s[i]))
  }

  /** `s.split(sep)[-1]`: the text after the last `sep`, or all of `s`. */
  function AfterLast(s: string, sep: char): (r: string)
    ensures sep !in r
    ensures |r| <= |s| && r == s[|s| - |r|..]
    ensures |r| < |s| ==> s[|s| - |r| - 1] == sep
  {
    if s == [] then []
    else if s[|s| - 1] == sep then []
    else AfterLast(s[..|s| - 1], sep) + [s[|s| - 1]]
  }

  /** Whatever precedes the last separator, the piece after it is recovered. */
  lemma {:induction false} AfterLastOfJoined(stem: string, sep: char, ext: string)
    requires sep !in ext
    ensures AfterLast(stem + [sep] + ext, sep) == ext
  {
    var s := stem + [sep] + ext;
    if ext != [] {
      var last := ext[|ext| - 1];
      assert s[|s| - 1] == last && last != sep;
      assert s[..|s| - 1] == stem + [sep] + ext[..|ext| - 1];
      AfterLastOfJoined(stem, sep, ext[..|ext| - 1]);
      assert ext == ext[..|ext| - 1] + [last];
    }
  }
}

=== FILE: shop.dfy ===
/** The product catalogue of core/shop/models.py: the price of a product
    after its discount and optional tax, the discount amount, stock, the
    hierarchy path of a category and the slug a record receives on save. */
module Shop {
  import opened Python

  type ProductId = nat
  type CategoryId = nat

  /** A Product row. `price` and `discount` are the decimal fields (one
      decimal place); `weight` is the free-text weight field. */
  datatype Product = Product(
    id: ProductId,
    name: string,
    slug: string,
    price: real,
    discount: real,
    weight: string,
    stock: nat,
    available: bool)

  /** Multiples of 0.1: the values a one-decimal-place field can hold. */
  predicate OnTenthGrid(x: real) {
    (x * 10.0).Floor as real == x * 10.0
  }

  /** Rounds to the nearest integer, a tie going to the even neighbour
      (ROUND_HALF_EVEN, the rounding of Python's default decimal context). */
  function RoundHalfEven(x: real): (n: int)
    ensures x - 0.5 <= n as real <= x + 0.5
  {
    var f := x.Floor;
    var frac := x - f as real;
    if frac < 0.5 then f
    else if frac > 0.5 then f + 1
    else if f % 2 == 0 then f
    else f + 1
  }

  lemma RoundHalfEvenMonotone(x: real, y: real)
    requires x <= y
    ensures RoundHalfEven(x) <= RoundHalfEven(y)
  {
    if x.Floor < y.Floor {
      assert RoundHalfEven(x) <= x.Floor + 1 <= y.Floor <= RoundHalfEven(y);
    }
  }

  /** `x.quantize(Decimal("0.1"))`. */
  function Quantize(x: real): (r: real)
    ensures x - 0.05 <= r <= x + 0.05
    ensures OnTenthGrid(r)
  {
    var n := RoundHalfEven(x * 10.0);
    var r := n as real / 10.0;
    assert r * 10.0 == n as real;
    assert (r * 10.0).Floor == n;
    r
  }

  lemma QuantizeMonotone(x: real, y: real)
    requires x <= y
    ensures Quantize(x) <= Quantize(y)
  {
    RoundHalfEvenMonotone(x * 10.0, y * 10.0);
  }

  /** A value that already has one decimal place is left as it is. */
  lemma QuantizeOnGrid(x: real)
    requires OnTenthGrid(x)
    ensures Quantize(x) == x
  {
    assert (x * 10.0).Floor as real == x * 10.0;
  }

  /** The multiplier a discount stands for: a fraction when it is at most 1,
      a percentage above that. */
  function DiscountFactor(d: real): real {
    if d <= 1.0 then 1.0 - d else 1.0 - d / 100.0
  }

  /** The price after a discount `d`; a zero discount leaves it alone. */
  function Discounted(price: real, d: real): real {
    if d != 0.0 then price * DiscountFactor(d) else price
  }

  /** Ten percent tax on top, when it is asked for. */
  function WithTax(x: real, includeTax: bool): real {
    if includeTax then x * 1.1 else x
  }

  /** The value `Product.get_price(include_tax, discount)` returns; a missing
      `discount` argument means the product's own discount. */
  function Price(p: Product, includeTax: bool, discount: Option<real>): real {
    var d := if discount.None? then p.discount else discount.value;
    Quantize(WithTax(Discounted(p.price, d), includeTax))
  }

  /** `Product.get_price`, updating the running price step by step. */
  method GetPrice(p: Product, includeTax: bool, discount: Option<real>) returns (r: real)
    ensures r == Price(p, includeTax, discount)
    ensures OnTenthGrid(r)
  {
    var finalPrice := p.price;
    var d := if discount.None? then p.discount else discount.value;
    if d != 0.0 {
      if d <= 1.0 {
        finalPrice := finalPrice * (1.0 - d);
      } else {
        finalPrice := finalPrice * (1.0 - d / 100.0);
      }
    }
    assert finalPrice == Discounted(p.price, d);
    ghost var discounted := finalPrice;
    if includeTax {
      var taxRate := 0.10;
      finalPrice := finalPrice * (1.0 + taxRate);
    }
    assert finalPrice == WithTax(discounted, includeTax);
    r := Quantize(finalPrice);
  }

  /** The catalogue price: no tax, the product's own discount. */
  function ListedPrice(p: Product): real {
    Price(p, false, None)
  }

  /** `Product.discount_amount`. */
  function DiscountAmount(p: Product): real {
    p.price - ListedPrice(p)
  }

  /** `Product.in_stock`. */
  predicate InStock(p: Product) {
    p.stock > 0
  }

  /** Without a discount the price is only quantized: a price that already
      has one decimal place comes back unchanged. */
  lemma PriceWithoutDiscount(p: Product)
    requires p.discount == 0.0 && OnTenthGrid(p.price)
    ensures ListedPrice(p) == p.price && DiscountAmount(p) == 0.0
  {
    QuantizeOnGrid(p.price);
  }

  /** The two notations agree: a fraction `d` above 0.01 and the
      percentage `100 d` give the same price. */
  lemma DiscountNotationsAgree(p: Product, includeTax: bool, d: real)
    requires 0.01 < d <= 1.0
    ensures Price(p, includeTax, Some(d)) == Price(p, includeTax, Some(d * 100.0))
  {
    assert d * 100.0 > 1.0;
    assert d * 100.0 / 100.0 == d;
    assert DiscountFactor(d) == DiscountFactor(d * 100.0);
    assert Discounted(p.price, d) == Discounted(p.price, d * 100.0);
  }

  /** For a discount between 0 and 100 and a non-negative price with one
      decimal place, the discounted price lies between 0 and the price, so
      the discount amount lies between 0 and the price too. */
  lemma {:induction false} DiscountAmountBounds(p: Product)
    requires p.price >= 0.0 && OnTenthGrid(p.price)
    requires 0.0 <= p.discount <= 100.0
    ensures 0.0 <= ListedPrice(p) <= p.price
    ensures 0.0 <= DiscountAmount(p) <= p.price
  {
    var d := p.discount;
    var f := DiscountFactor(d);
    assert 0.0 <= f <= 1.0;
    ScaleDown(p.price, f);
    var discounted := Discounted(p.price, d);
    assert 0.0 <= discounted <= p.price by {
      if d != 0.0 {
        assert discounted == p.price * f;
      } else {
        assert discounted == p.price;
      }
    }
    assert ListedPrice(p) == Quantize(discounted);
    QuantizeMonotone(0.0, discounted);
    QuantizeMonotone(discounted, p.price);
    QuantizeOnGrid(0.0);
    QuantizeOnGrid(p.price);
  }

  lemma ScaleDown(a: real, f: real)
    requires a >= 0.0 && 0.0 <= f <= 1.0
    ensures 0.0 <= a * f <= a
  {
    assert a * f + a * (1.0 - f) == a;
    assert a * (1.0 - f) >= 0.0;
  }

  /** Tax is ten percent on top of the discounted price. */
  lemma TaxOnUndiscounted(p: Product)
    requires p.discount == 0.0 && p.price == 1000.0
    ensures Price(p, true, None) == 1100.0
  {
    QuantizeOnGrid(1100.0);
  }

  /** A product priced 1000 with discount 10 costs 900, so its discount
      amount is 100. */
  lemma PriceExample()
    ensures var p := Product(1, "TestProduct", "testproduct", 1000.0, 10.0, "", 5, true);
      ListedPrice(p) == 900.0 && DiscountAmount(p) == 100.0 && InStock(p)
  {
    var p := Product(1, "TestProduct", "testproduct", 1000.0, 10.0, "", 5, true);
    assert p.price * DiscountFactor(10.0) == 900.0;
    QuantizeOnGrid(900.0);
  }

  /** A Category row; `parent` is the optional parent category. */
  datatype Category = Category(name: string, slug: string, parent: Option<CategoryId>)

  /** Every parent link leads to a stored category of smaller rank: the
      parent chains are finite (the hierarchy has no cycle). */
  ghost predicate Ranked(cats: map<CategoryId, Category>, rank: map<CategoryId, nat>) {
    forall c {:trigger RankedAt(cats, rank, c)} :: c in cats ==> RankedAt(cats, rank, c)
  }

  /** The parent link of one stored category leads to a stored category
      of smaller rank. */
  ghost predicate RankedAt(cats: map<CategoryId, Category>, rank: map<CategoryId, nat>, c: CategoryId)
    requires c in cats
  {
    && c in rank
    && (cats[c].parent.Some? ==>
          && cats[c].parent.value in cats
          && cats[c].parent.value in rank
          && rank[cats[c].parent.value] < rank[c])
  }

  /** The names from `c` up to the root of the hierarchy, `c`'s own first. */
  ghost function Ancestry(cats: map<CategoryId, Category>, rank: map<CategoryId, nat>, c: CategoryId): (names: seq<string>)
    requires Ranked(cats, rank) && c in cats
    ensures |names| >= 1 && names[0] == cats[c].name
    decreases rank[c]
  {
    assert RankedAt(cats, rank, c);
    var cat := cats[c];
    [cat.name] + (if cat.parent.Some? then Ancestry(cats, rank, cat.parent.value) else [])
  }

  /** The names from the root of the hierarchy down to `c`. */
  ghost function Lineage(cats: map<CategoryId, Category>, rank: map<CategoryId, nat>, c: CategoryId): (names: seq<string>)
    requires Ranked(cats, rank) && c in cats
    ensures |names| >= 1 && names[|names| - 1] == cats[c].name
  {
    Reverse(Ancestry(cats, rank, c))
  }

  /** The names above the next category of the walk: its ancestry, or none
      once the walk has passed the root. */
  ghost function Above(cats: map<CategoryId, Category>, rank: map<CategoryId, nat>, parent: Option<CategoryId>): seq<string>
    requires Ranked(cats, rank) && (parent.Some? ==> parent.value in cats)
  {
    if parent.Some? then Ancestry(cats, rank, parent.value) else []
  }

  /** `Category.full_path`: walks the parent chain collecting names, then
      joins them root first with " > ". */
  method FullPath(cats: map<CategoryId, Category>, ghost rank: map<CategoryId, nat>, c: CategoryId)
    returns (path: string)
    requires Ranked(cats, rank) && c in cats
    ensures path == Join(Lineage(cats, rank, c), " > ")
  {
    var names := [cats[c].name];
    var parent := cats[c].parent;
    AncestryStep(cats, rank, c);
    while parent.Some?
      invariant parent.Some? ==> parent.value in cats && RankedAt(cats, rank, parent.value)
      invariant Ancestry(cats, rank, c) == names + Above(cats, rank, parent)
      decreases if parent.Some? then rank[parent.value] + 1 else 0
    {
      var p := parent.value;
      AncestryStep(cats, rank, p);
      assert names + ([cats[p].name] + Above(cats, rank, cats[p].parent))
          == (names + [cats[p].name]) + Above(cats, rank, cats[p].parent);
      names := names + [cats[p].name];
      parent := cats[p].parent;
    }
    assert names + [] == names;
    path := Join(Reverse(names), " > ");
  }

  /** One step up the hierarchy: a category's ancestry is its own name
      followed by its parent's ancestry (none for a root). */
  lemma AncestryStep(cats: map<CategoryId, Category>, rank: map<CategoryId, nat>, c: CategoryId)
    requires Ranked(cats, rank) && c in cats
    ensures RankedAt(cats, rank, c)
    ensures cats[c].parent.Some? ==> cats[c].parent.value in cats && RankedAt(cats, rank, cats[c].parent.value)
    ensures Ancestry(cats, rank, c) == [cats[c].name] + Above(cats, rank, cats[c].parent)
  {
    assert RankedAt(cats, rank, c);
    if cats[c].parent.Some? {
      assert RankedAt(cats, rank, cats[c].parent.value);
    }
  }

  lemma ReverseCons(x: string, s: seq<string>)
    ensures Reverse([x] + s) == Reverse(s) + [x]
  {
    assert ([x] + s)[1..] == s;
  }

  /** The path of a category with a parent is the parent's path, " > " and
      its own name; a root category's path is its name. */
  lemma FullPathOfChild(cats: map<CategoryId, Category>, rank: map<CategoryId, nat>, c: CategoryId)
    requires Ranked(cats, rank) && c in cats
    ensures RankedAt(cats, rank, c)
    ensures cats[c].parent.None? ==> Join(Lineage(cats, rank, c), " > ") == cats[c].name
    ensures cats[c].parent.Some? ==>
      Join(Lineage(cats, rank, c), " > ") ==
      Join(Lineage(cats, rank, cats[c].parent.value), " > ") + " > " + cats[c].name
  {
    AncestryStep(cats, rank, c);
    var above := Above(cats, rank, cats[c].parent);
    ReverseCons(cats[c].name, above);
    if cats[c].parent.Some? {
      var up := Lineage(cats, rank, cats[c].parent.value);
      var names := up + [cats[c].name];
      assert names[..|names| - 1] == up;
    } else {
      assert Lineage(cats, rank, c) == [cats[c].name];
    }
  }

  /** A child of "ParentCategory" named "ChildCategory" has the path
      "ParentCategory > ChildCategory". */
  lemma FullPathExample()
    ensures var cats := map[1 := Category("ParentCategory", "parentcategory", None),
                            2 := Category("ChildCategory", "childcategory", Some(1))];
      Ranked(cats, map[1 := 0, 2 := 1]) &&
      Join(Lineage(cats, map[1 := 0, 2 := 1], 2), " > ") == "ParentCategory > ChildCategory"
  {
    var cats := map[1 := Category("ParentCategory", "parentcategory", None),
                     2 := Category("ChildCategory", "childcategory", Some(1))];
    var rank := map[1 := 0, 2 := 1];
    forall c | c in cats
      ensures RankedAt(cats, rank, c)
    {
      assert c == 1 || c == 2;
    }
    FullPathOfChild(cats, rank, 2);
    FullPathOfChild(cats, rank, 1);
  }

  /** The slug a Brand, Category or Product keeps when saved: its own slug
      if it has one, otherwise `slugify(name)`. */
  function SlugOnSave(slug: string, name: string, slugify: string -> string): (r: string)
    ensures slug != [] ==> r == slug
    ensures slug == [] ==> r == slugify(name)
  {
    if slug == [] then slugify(name) else slug
  }

  /** Once a record has a non-empty slug, later saves never change it, even
      after the name changed. */
  lemma SlugIsStable(slug: string, name: string, newName: string, slugify: string -> string)
    requires SlugOnSave(slug, name, slugify) != []
    ensures SlugOnSave(SlugOnSave(slug, name, slugify), newName, slugify) == SlugOnSave(slug, name, slugify)
  {
  }
}
